=== FILE: README.md ===
# Pokémon FireRed/LeafGreen world — a Dafny model of its core

This project models three parts of the Archipelago world for Pokémon FireRed
and LeafGreen as pure Dafny functions and methods, and proves properties of
them. The three parts are:

- **Baseline data** (`data.py`). This covers the warp grammar (`Warp.decode`,
  `Warp.connects_to`) and the evolution-method table. It also covers the
  checks `_init` runs over already-parsed JSON:
  - merging region files, which rejects a region defined twice;
  - location and warp claims, which reject a second claim;
  - sorting each region's lists;
  - item classifications;
  - the pre-evolution back-link pass;
  - a misc Pokémon's level 0 read as "no level".
- **Randomization passes** (`pokemon.py`). These are the type, ability,
  learnset and TM/HM passes over the species table. They also include the
  base-stat-total (BST) filter and the placement passes: wild encounters,
  starters and the rival's parties, legendary and misc encounters with their
  event labels, and trainer parties. Trainer move sets are included too.
- **Client decisions** (`client.py`). These are:
  - the "deliver the next item?" decision and its writes;
  - decoding the save block's flag bytes into location checks, tracked
    events and goal detection;
  - the caught-species popcount and the event bitfield;
  - the send-on-change cache of one `game_watcher` pass;
  - the ROM-name checks of `validate_rom`.

Randomness is an argument. Every `random.choice`, `shuffle`, `sample` or
`random()` of the source reads a caller-supplied draw. For example,
`choice(xs)` is `xs[d % |xs|]`, and `random() < p/100` is
`100 * (k % 2^53) < p * 2^53`. The contracts therefore hold for every outcome
of the generator. Lemmas such as `Draws.ChoiceReachesAll`,
`TypesPass.RandomTypesReachAll`, `AbilitiesPass.RollReachesAll`,
`TmHm.RedrawReachesAll` and `TrainerMoves.CoinsReachEveryMix` show that the
model does not lose outcomes the source can produce.

Where the source raises (a `KeyError` on a missing id, an `IndexError` on an
empty `random.choice`, a `ValueError` from `int()` or `list.remove`, an
`AssertionError` on a double claim), the model returns a `Result` or `Option`
failure at the same point.

The modules, one per file:

- `wrappers`, `seqs`, `strings`: supporting definitions.
- `draws`: the random-module oracle.
- `species`: the species record and lookups.
- `warps` and `loading`: `data.py`.
- `selection`: the BST filter, blacklist merging and fallback.
- `types_pass`, `abilities_pass`, `moves_pass`, `tmhm`: the species passes.
- `trainer_moves`: `_get_trainer_pokemon_moves`.
- `wild`, `starters`, `statics`, `trainers`: the placement passes.
- `bits`: flag bytes, popcount, bitfields, little-endian integers.
- `client`: `client.py`.

Two details of the code that are easy to misread, and that the model follows
exactly:

- The client replaces the location cache *before* sending `LocationChecks`,
  and updates the event and Pokédex caches only after their sends return.
  `Client.Reconcile` follows that order, and `Client.RaisedSendsDiffer`
  proves that it is observable: a location report whose send raises is not
  repeated, while an event report whose send raises is.
- `EventData` in `data.py` has four fields, and the loader builds it with
  four. Both static passes rebuild it with a fifth, `tags`, read from the
  current event. The model's event record has a `tags` field, and
  `Statics.RelabelEvents` proves that it is copied and that only the item
  label changes. Against the four-field definition the source's rebuild
  would raise; that failure is not modelled (see "## Left out").

## Model

| member | source | states |
|---|---|---|
| Warps.Body | worlds/pokemon_frlg/data.py:56-58 | One trailing `!` is stripped exactly when the string ends with `!`. Otherwise the text is unchanged. |
| Warps.SplitTwo | worlds/pokemon_frlg/data.py:60-62 | `a, b = text.split(sep)` succeeds exactly when the split gives two fields. The fields hold no separator and rejoin to the text. |
| Warps.ParseIds | worlds/pokemon_frlg/data.py:67-68 | The id list parses every piece with `int()`, in order. It fails exactly when some piece is not an integer. |
| Warps.DecodeSide | worlds/pokemon_frlg/data.py:61-68 | A side decodes iff it splits at `:` into exactly two fields and every `,`-piece of the second is an integer. The map is the first field, and the ids are the `int()` of each piece, in order. |
| Warps.Decode | worlds/pokemon_frlg/data.py:51-70 | A decoded warp is one-way exactly when the string ends with `!`. Its maps are the texts before each side's `:`, and its id lists are the parsed `,`-pieces after them. |
| Warps.DecodeEncode | worlds/pokemon_frlg/data.py:51-70 | Every warp with an encoding decodes from it to itself: one-way flag, both maps and both id lists in order. |
| Warps.DecodeSideEncode | worlds/pokemon_frlg/data.py:61-68 | Decoding one side's encoding gives back its map and ids. |
| Warps.ParseIdTexts | worlds/pokemon_frlg/data.py:67-68 | Parsing the decimal texts of an id list gives back the ids. |
| Warps.ConnectsTo | worlds/pokemon_frlg/data.py:44-48 | `a` connects to `b` iff `a`'s destination map is `b`'s source map and every destination id of `a` is a source id of `b`. |
| Warps.Reverse | worlds/pokemon_frlg/data.py:44-48 | A warp and its reversal connect to each other. |
| Warps.ConnectsToIgnoresOrder | worlds/pokemon_frlg/data.py:48 | The relation sees the id lists only as sets: reordering or repeating ids does not change it. |
| Strings.SplitJoin | worlds/pokemon_frlg/data.py:60-68 | `split` inverts joining fields that hold no separator. |
| Strings.Strip | worlds/pokemon_frlg/data.py:67-68 | `int()` first strips surrounding whitespace: the result is no longer than the text, does not start or end with a space, and keeps a non-space first character. |
| Strings.ParseUnsigned | worlds/pokemon_frlg/data.py:67-68 | A digit part is accepted iff it is digits with single underscores only between digits. Plain digits read as their decimal value. |
| Strings.ParseSigned | worlds/pokemon_frlg/data.py:67-68 | An optional `+` or `-` before the digit part; `-` negates the value, and any other first character is rejected. |
| Strings.ParseIntToString | worlds/pokemon_frlg/data.py:67-68 | `int()` of an integer's decimal text gives back the integer. |
| Strings.ParseIntStrips | worlds/pokemon_frlg/data.py:67-68 | Whitespace around a text does not change what `int()` makes of it. |
| Strings.ParseIntUnderscore | worlds/pokemon_frlg/data.py:67-68 | `int("a_b")` for digit strings `a` and `b` is the number the digits `ab` spell. |
| Strings.ParseIntRejectsUnderscores | worlds/pokemon_frlg/data.py:67-68 | `int()` rejects a text holding a doubled underscore or ending in one. |
| Species.StrToEvolutionMethod | worlds/pokemon_frlg/data.py:166-184 | Defined exactly on the nine listed names; the result's name is the input. `ITEM` and every other string give no value. |
| Species.EvolutionMethodRoundTrip | worlds/pokemon_frlg/data.py:153-184 | Every enum member except `ITEM` is recovered from its own name. `ITEM` is not. |
| Species.Lookup | worlds/pokemon_frlg/pokemon.py:736 | A species-table lookup succeeds exactly when the id is present, and returns an entry with that id. |
| Species.TypeBlacklist | worlds/pokemon_frlg/pokemon.py:738-742 | The type blacklist holds exactly the ids of species sharing no type with the original. |
| Species.NotIn | worlds/pokemon_frlg/pokemon.py:750-754 | The candidates are exactly the table's species whose id is not blacklisted. |
| Loading.Claim | worlds/pokemon_frlg/data.py:866-869 | Claiming succeeds iff the items are distinct and none was claimed before. On a clash, the error names a claimed item. |
| Loading.MergeRegionFiles | worlds/pokemon_frlg/data.py:843-847 | Merging succeeds iff no region name repeats across the files. The merge keeps every entry in order; the error names a duplicate. |
| Loading.ClaimWarps | worlds/pokemon_frlg/data.py:904-914 | Warp claims succeed iff no encoded warp is claimed twice and each decodes. The claimed set grows by exactly the region's warps. |
| Loading.SortStrings | worlds/pokemon_frlg/data.py:886 | `list.sort()` yields an ordered permutation of its input. |
| Loading.LexLePreorder | worlds/pokemon_frlg/data.py:886 | String comparison is a total preorder, so sorting is well defined. |
| Loading.MakeRegion | worlds/pokemon_frlg/data.py:855-916 | A built region keeps the entry's fields, with its locations, events and warps sorted. |
| Loading.BuildRegion | worlds/pokemon_frlg/data.py:854-918 | One loop iteration appends the region built from the entry. |
| Loading.BuildRegionSucceeds | worlds/pokemon_frlg/data.py:866-914 | A region is admitted iff its lists repeat nothing, nothing in them was claimed before, and its warps decode. |
| Loading.BuildRegionClaims | worlds/pokemon_frlg/data.py:866-914 | An admitted region adds its locations and warps to the claimed sets. Its locations point back to it. |
| Loading.BuildRegions | worlds/pokemon_frlg/data.py:854-918 | The region loop builds one region per entry. |
| Loading.RegionsBuilt | worlds/pokemon_frlg/data.py:854-918 | Region `i` is built from entry `i`, with its lists sorted. |
| Loading.ClaimedSets | worlds/pokemon_frlg/data.py:866-913 | The claimed sets are exactly the locations and warps of every region. |
| Loading.BuildRegionsSucceeds | worlds/pokemon_frlg/data.py:866-908 | Loading succeeds iff no location and no encoded warp is claimed twice across all regions, and every warp decodes. |
| Loading.LoadRegions | worlds/pokemon_frlg/data.py:866-914 | With `Warp.decode` as the decoder, loading succeeds iff no location and no encoded warp is claimed twice and every warp decodes. |
| Loading.LocationsPointToTheirRegion | worlds/pokemon_frlg/data.py:872-883 | Every location records the region that claimed it. |
| Loading.Classify | worlds/pokemon_frlg/data.py:921-930 | Exactly the four names are accepted, each mapping to the class of that name. Anything else is the unknown-classification error. |
| Loading.ClassifyRoundTrip | worlds/pokemon_frlg/data.py:921-930 | Every classification is accepted from its own name. |
| Loading.PairsOf | worlds/pokemon_frlg/data.py:986-987 | The edges of one species are exactly its (species, evolution target) pairs. |
| Loading.EvolutionPairs | worlds/pokemon_frlg/data.py:985-987 | The edges of the table are exactly the edges of its species. |
| Loading.LastParent | worlds/pokemon_frlg/data.py:985-987 | The last writer into a target exists iff some edge enters the target. It is the parent of an edge into the target that no later edge into that target follows. |
| Loading.SetPre | worlds/pokemon_frlg/data.py:987 | The assignment succeeds iff the target id exists. It changes only that species' back-link. |
| Loading.LinkPairs | worlds/pokemon_frlg/data.py:985-987 | Linking succeeds iff every target exists. Each species ends with the back-link of the last edge into it, or keeps its own. |
| Loading.LinkPreEvolutions | worlds/pokemon_frlg/data.py:985-987 | The pass succeeds iff every evolution target is in the table. It rewrites back-links only. |
| Loading.LinkedByLastEdge | worlds/pokemon_frlg/data.py:985-987 | An evolution target's back-link is the parent of the last edge into it, in table order. |
| Loading.LinkedTargetsPointBack | worlds/pokemon_frlg/data.py:985-987 | After linking, every evolution target points back at a species evolving into it. With a single parent, that parent is the one pointed at. |
| Loading.UnlinkedKeepPre | worlds/pokemon_frlg/data.py:976-987 | A species that is nobody's evolution keeps the back-link it was built with. |
| Loading.MiscLevel | worlds/pokemon_frlg/data.py:1015-1018 | Level 0 is read as no level, and any other level as itself. |
| Loading.MiscLevelRoundTrip | worlds/pokemon_frlg/data.py:1015-1018 | Reading and writing the level are inverse, except that no level is written as 0. |
| Draws.Choice | worlds/pokemon_frlg/pokemon.py:170 | `random.choice` fails iff the list is empty, and otherwise returns a member. |
| Draws.ChoiceReachesAll | worlds/pokemon_frlg/pokemon.py:170 | Every member of a non-empty list is a possible choice. |
| Draws.Shuffle | worlds/pokemon_frlg/pokemon.py:391 | `random.shuffle` yields a permutation of its input. |
| Draws.Sample | worlds/pokemon_frlg/pokemon.py:217-223 | `random.sample(xs, k)` fails iff `k > |xs|`, and otherwise returns `k` entries drawn from distinct positions. |
| Draws.SampleDistinct | worlds/pokemon_frlg/pokemon.py:217-223 | A sample of a list without repeats has none. |
| Selection.ByDistance | worlds/pokemon_frlg/pokemon.py:181 | The sort by BST distance is a permutation, ordered by distance. |
| Selection.ByDistanceStable | worlds/pokemon_frlg/pokemon.py:181 | The sort is stable: the species at any one distance appear in their original order. |
| Seqs.SortByStable | worlds/pokemon_frlg/pokemon.py:181 | Python's `sorted` is stable: elements the key cannot tell apart keep their relative order. |
| Selection.CountWithin | worlds/pokemon_frlg/pokemon.py:185-187 | The inner scan stops at the first species not strictly within the threshold. |
| Selection.FirstThresholdFrom | worlds/pokemon_frlg/pokemon.py:183-188 | The threshold found is the first multiple of 10 below 10000 that admits the closest species. |
| Selection.FindCutoff | worlds/pokemon_frlg/pokemon.py:182-188 | The widening loop ends at the first admitting threshold, with the scan length there, or with 0 when none admits. |
| Selection.BstFilter | worlds/pokemon_frlg/pokemon.py:178-190 | The filter returns a prefix of the distance-sorted input, non-empty iff the input is. All but its last entry lie strictly within the first admitting threshold. It is exactly `BstKept`, the closed-form description of the kept prefix. |
| Selection.BstKept | worlds/pokemon_frlg/pokemon.py:178-190 | The kept prefix: non-empty iff the input is, and a prefix of the distance-sorted input. |
| Selection.BstKeptNear | worlds/pokemon_frlg/pokemon.py:181-190 | Any input species strictly closer than a kept one lies strictly within the admitting threshold. |
| Selection.PrefixHoldsCloser | worlds/pokemon_frlg/pokemon.py:181-190 | The filter never keeps a farther species while dropping a strictly closer one. |
| Selection.PrefixFromInput | worlds/pokemon_frlg/pokemon.py:190 | The filter's result is a sub-multiset of its input. |
| Selection.MergeTiers | worlds/pokemon_frlg/pokemon.py:474-483 | The merged wild blacklist always holds tier 0, and is the union of a prefix of the tiers. |
| Selection.MergeTiersMaximal | worlds/pokemon_frlg/pokemon.py:474-483 | The prefix is the longest one whose union stays below `NUM_REAL_SPECIES`, or tier 0 alone. |
| Selection.FallBack | worlds/pokemon_frlg/pokemon.py:548-552 | The full blacklist is dropped to the reduced one, then to the last, only while the list in hand covers exactly `NUM_REAL_SPECIES` ids. |
| Selection.ChooseAvoiding | worlds/pokemon_frlg/pokemon.py:750-759 | A candidate exists iff some species avoids the blacklist, and the choice avoids it. With base-stat matching the choice is one of `BstKept` of the species left after the blacklist. |
| TypesPass.TypeMap | worlds/pokemon_frlg/pokemon.py:238-243 | The shuffled type map is a permutation of 0..17 with `???` (9) fixed. |
| TypesPass.TypeMapBijective | worlds/pokemon_frlg/pokemon.py:238-243 | Such a map is a bijection whose only preimage of `???` is `???`. |
| TypesPass.ShuffleTypes | worlds/pokemon_frlg/pokemon.py:245-246 | Shuffle mode retypes every species through the one map, keeping valid types. |
| TypesPass.ShuffleTypesInvertible | worlds/pokemon_frlg/pokemon.py:238-246 | Mapping every species back through the inverse map restores the table. |
| TypesPass.RetypeInverse | worlds/pokemon_frlg/pokemon.py:246 | Retyping through a map and then its inverse is the identity. |
| TypesPass.ShuffleTypesPreserves | worlds/pokemon_frlg/pokemon.py:238-246 | No species gains `???`, single-typed species stay single-typed, and species sharing a type still share it. |
| TypesPass.NonMysteryTypesFacts | worlds/pokemon_frlg/pokemon.py:159-164 | `_get_random_type` ranges over the 17 types other than `???`. |
| TypesPass.RandomTypes | worlds/pokemon_frlg/pokemon.py:248-256 | Completely random mode gives two non-`???` types, equal iff the old two were. |
| TypesPass.RandomTypesReachAll | worlds/pokemon_frlg/pokemon.py:248-256 | Every such pair is drawn by some draws. |
| TypesPass.RandomizeEachType | worlds/pokemon_frlg/pokemon.py:247-256 | Each species is retyped by its own draws. |
| TypesPass.FollowEvolutionTypes | worlds/pokemon_frlg/pokemon.py:257-278 | Follow-evolutions mode retypes families only, keeping every other field and valid types. |
| TypesPass.FollowEvolutionTypesSharesMap | worlds/pokemon_frlg/pokemon.py:266-278 | A species and its evolution are retyped through the same map. |
| TypesPass.EvolutionSharesRoot | worlds/pokemon_frlg/pokemon.py:273-278 | An evolution belongs to the family of its pre-evolution. |
| TypesPass.RootOfRoot | worlds/pokemon_frlg/pokemon.py:263-264 | A species without a pre-evolution starts its own family. |
| TypesPass.RandomizeTypes | worlds/pokemon_frlg/pokemon.py:236-278 | The type pass changes types only, keeps them valid, and is the identity when vanilla. |
| AbilitiesPass.RemoveEach | worlds/pokemon_frlg/pokemon.py:286-289 | The removals succeed iff every removed id is still present. They remove exactly those ids, and the error names the failing id. |
| AbilitiesPass.AllowedAbilities | worlds/pokemon_frlg/pokemon.py:285-289 | The allowed abilities are `range(ABILITIES_COUNT)` without `ABILITY_NONE`, `ABILITY_CACOPHONY` and the blacklist, with no repeats. The removals raise unless every removed id is still in the list at its turn. |
| AbilitiesPass.Roll | worlds/pokemon_frlg/pokemon.py:301-304 | A 0 slot stays 0, and a nonzero slot gets an allowed ability. |
| AbilitiesPass.RollReachesAll | worlds/pokemon_frlg/pokemon.py:301-304 | Every pair the rule allows is drawn by some draws. |
| AbilitiesPass.RollEach | worlds/pokemon_frlg/pokemon.py:314-321 | Independent mode re-rolls every species' pair. |
| AbilitiesPass.RollOwn | worlds/pokemon_frlg/pokemon.py:315-321 | One species in independent mode fails exactly when there is no allowed ability and it has one to replace; otherwise only its abilities change, to its own roll. |
| AbilitiesPass.RollFollowing | worlds/pokemon_frlg/pokemon.py:291-313 | Follow-evolutions mode gives each species the roll of its family head. |
| AbilitiesPass.RollMember | worlds/pokemon_frlg/pokemon.py:300-310 | One species in follow-evolutions mode changes only its abilities, to its head's roll; a species no walk reaches keeps them; with allowed abilities the roll never fails. |
| AbilitiesPass.EvolutionSharesRoll | worlds/pokemon_frlg/pokemon.py:297-313 | An evolution that kept its pre-evolution's abilities gets the same new abilities. |
| AbilitiesPass.HeadHasSameAbilities | worlds/pokemon_frlg/pokemon.py:297-310 | A family head has the abilities of every species it covers. |
| AbilitiesPass.RandomizeAbilities | worlds/pokemon_frlg/pokemon.py:281-321 | The pass changes abilities only. 0 slots stay 0; it is the identity when vanilla, and an allowed-list error propagates. In randomized mode every nonzero slot gets an allowed ability. In follow-evolutions mode each slot is either unchanged or allowed. |
| MovesPass.RandomMove | worlds/pokemon_frlg/pokemon.py:167-170 | A draw exists iff some move below `MOVES_COUNT` is allowed, and it avoids the HM moves, the fixed blacklist and the user's. |
| MovesPass.RandomDamagingMove | worlds/pokemon_frlg/pokemon.py:173-175 | A draw exists iff some damaging move is not excluded, and it returns one. |
| MovesPass.LeadingZeros | worlds/pokemon_frlg/pokemon.py:335-336 | The count is the run of leading `MOVE_NONE` slots. |
| MovesPass.RandomizeLearnset | worlds/pokemon_frlg/pokemon.py:335-354 | Same length and levels. Leading zeros stay 0 unless start-with-four is on, index 3 is damaging, the rest avoid the blacklists, and no move repeats. An all-zero learnset raises. |
| MovesPass.RandomizeMoves | worlds/pokemon_frlg/pokemon.py:324-354 | Every learnset is rewritten as above and nothing else changes; the pass is the identity when vanilla. |
| TrainerMoves.TmHmPool | worlds/pokemon_frlg/pokemon.py:196-201 | The pool exists iff every set bit indexes the move table; otherwise it is the `IndexError`. When it exists, it is increasing and holds exactly the moves of the set bits. |
| TrainerMoves.LevelUpPool | worlds/pokemon_frlg/pokemon.py:207-211 | The level-up pool is increasing and holds exactly the nonzero moves learnt by the level. |
| TrainerMoves.Pad | worlds/pokemon_frlg/pokemon.py:213-215 | A short pool is padded at the end with 0s to four. |
| TrainerMoves.FourOf | worlds/pokemon_frlg/pokemon.py:213-223 | Four moves from the pool, repeat-free, padded when the pool is short. |
| TrainerMoves.LevelUpMoves | worlds/pokemon_frlg/pokemon.py:213-217 | Four repeat-free moves the species knows by its level; a short pool is padded. |
| TrainerMoves.TmHmMoves | worlds/pokemon_frlg/pokemon.py:219-223 | A short pool is padded and reversed, so its 0s come first. |
| TrainerMoves.Combine | worlds/pokemon_frlg/pokemon.py:226-231 | Slot `j` is the TM/HM move iff coin `j` is up and the first TM/HM move is nonzero. |
| TrainerMoves.NoFirstTmKeepsLevelUp | worlds/pokemon_frlg/pokemon.py:227-230 | When the first TM/HM move is 0, the result is the level-up moves. |
| TrainerMoves.FewTmsKeepLevelUp | worlds/pokemon_frlg/pokemon.py:219-230 | When the pool used has fewer than four moves, the species always gets its level-up moves, whether the pool was cached or fresh. |
| TrainerMoves.TailsKeepLevelUp | worlds/pokemon_frlg/pokemon.py:226-231 | All coins down keeps the level-up moves. |
| TrainerMoves.CoinsReachEveryMix | worlds/pokemon_frlg/pokemon.py:226-231 | With a nonzero first TM/HM move, every slot-wise mix of the two lists is reachable. |
| TrainerMoves.TrainerPokemonMoves | worlds/pokemon_frlg/pokemon.py:193-233 | Fails iff the species is not cached and a set bit overruns the table. Otherwise it gives four moves, each a TM/HM or level-up move, and the cache gains the species' pool when it is missing. |
| TrainerMoves.MovesAreLearnable | worlds/pokemon_frlg/pokemon.py:193-233 | With a fresh cache, moves are produced iff the species' set bits fit the table. Every nonzero move is learnt by level or is a compatible TM/HM. |
| TrainerMoves.CachedPoolIsCurrent | worlds/pokemon_frlg/pokemon.py:196-204 | A cached pool is the pool of the species' current bits, so those bits fit the table. |
| TrainerMoves.CacheStaysFresh | worlds/pokemon_frlg/pokemon.py:196-201 | A successful move computation keeps the cache fresh. |
| TrainerMoves.MovesFor | worlds/pokemon_frlg/pokemon.py:193-233 | Fails iff the species' set bits overrun the move table. Otherwise it gives four learnable moves and keeps the cache fresh. |
| Wild.MinPokemonNeeded | worlds/pokemon_frlg/pokemon.py:364-368 | The result is the least integer at least 1.2 times the largest Oak's Aide target. |
| Wild.Tiers | worlds/pokemon_frlg/pokemon.py:445-472 | Four priority tiers, with tier 0 the species already used. |
| Wild.PickSpecies | worlds/pokemon_frlg/pokemon.py:438-493 | A pick exists iff some species avoids the merged blacklist; it avoids it, and never repeats a species the table already used. With base-stat matching it is one the filter keeps from the species left. |
| Wild.NextSpecies | worlds/pokemon_frlg/pokemon.py:430-503 | The group's choice when the group has one, otherwise a fresh species. It is never a value the table already has. |
| Wild.InsertFresh | worlds/pokemon_frlg/pokemon.py:502-503 | A fresh value keeps the table's species map one-to-one. |
| Wild.RandomizeTable | worlds/pokemon_frlg/pokemon.py:423-514 | Same slots and levels; two slots get the same new species iff they had the same old one. The group map is extended consistently. |
| Wild.RandomizeTables | worlds/pokemon_frlg/pokemon.py:422-521 | A map's land, water and fishing tables are all rewritten that way. |
| Wild.CopyTwin | worlds/pokemon_frlg/pokemon.py:400-415 | The second Route 21 map copies its twin's three tables, and fails where a table is missing. |
| Wild.VisitMap | worlds/pokemon_frlg/pokemon.py:419-521 | A visited map is rewritten through its group's map, and nothing else changes. |
| Wild.Step | worlds/pokemon_frlg/pokemon.py:392-521 | One loop turn keeps the invariant: every map seen is rewritten or is a twin copy. |
| Wild.RandomizeWildEncounters | worlds/pokemon_frlg/pokemon.py:357-521 | Identity when the option is vanilla. Otherwise every map is rewritten in shuffled order through an injective group map, or copies its Route 21 twin. When both Route 21 maps exist they end with equal tables, and one of them was rewritten. |
| Wild.VisitAll | worlds/pokemon_frlg/pokemon.py:392-521 | After the loop over the maps in visiting order, every map has been visited: it is rewritten through the group maps or holds its Route 21 twin's tables, the group maps stay injective, and once both Route 21 maps are visited their tables are equal. |
| Wild.Route21Twins | worlds/pokemon_frlg/pokemon.py:400-417 | Once both Route 21 maps are visited they hold the same tables, and one of them was rewritten. |
| Wild.GroupedMapsAgree | worlds/pokemon_frlg/pokemon.py:430-500 | In one group, two slots get the same new species iff they had the same original one. |
| Starters.StarterBlacklist | worlds/pokemon_frlg/pokemon.py:548-552 | The chosen starters are always blacklisted; the player's list and the type list are kept unless the union covers all species. |
| Starters.ChooseStarter | worlds/pokemon_frlg/pokemon.py:540-565 | A new starter is never one already chosen. Without fallback it avoids the player's list, and with type matching it shares a type with the original. With base-stat matching it is one the filter keeps from the species left after the blacklist. |
| Starters.ChooseStarters | worlds/pokemon_frlg/pokemon.py:539-565 | The chosen starters are pairwise distinct table species, and every pick satisfies `PickedAt`: it avoids the starters chosen before it and, unless the fallback fired, the player's list; it shares a type when asked and lies in the base-stat prefix when asked. |
| Starters.Stages | worlds/pokemon_frlg/pokemon.py:568-580 | Stage 0 is the starter, and each later stage is an evolution of the one before, or repeats it. No evolutions gives three equal stages. |
| Starters.SetRivalSlot | worlds/pokemon_frlg/pokemon.py:582-590 | One rival slot gets the stage's species at the old level, four moves and locked. The rest of the party is unchanged. A stage whose set bits overrun the move table is the `IndexError`. |
| Starters.SetRivalSlots | worlds/pokemon_frlg/pokemon.py:582-590 | All of a starter's rival entries are written, locked with four moves, and untargeted slots are unchanged. Every written slot holds the stage species its last write asked for. |
| Starters.WriteStep | worlds/pokemon_frlg/pokemon.py:582-590 | Writing one rival entry extends the written slots by exactly that slot, locked with four moves, keeping trainers, sizes and levels. |
| Starters.StagesStep | worlds/pokemon_frlg/pokemon.py:582-590 | A rival write becomes the last write of its slot, with the stage species it asked for; the last writes of other slots stay. |
| Starters.StagesNextList | worlds/pokemon_frlg/pokemon.py:582-590 | Finishing one starter's entry list and starting the next name the same last writes. |
| Starters.RandomizeStarters | worlds/pokemon_frlg/pokemon.py:524-590 | Distinct starters, each picked under `PickedAt`: it replaces a baseline species, repeats no earlier pick, avoids the player's list and shares a type unless the fallback fired, and lies in the BST prefix when base stats are matched. The named rival slots are locked at their old levels with four moves, and nothing else in any party changes. A slot named by several entries holds stage `stage` of the `Stages` of the starter whose entry came last. |
| Statics.TypeMatched | worlds/pokemon_frlg/pokemon.py:618-623 | With type matching, the candidates are exactly those sharing a type. |
| Statics.ChooseStatic | worlds/pokemon_frlg/pokemon.py:618-627 | A pick exists iff a matching candidate exists, and it matches. With base-stat matching it is one of `BstKept` of the type-matched candidates. |
| Statics.LegendaryPool | worlds/pokemon_frlg/pokemon.py:613-615 | The pool holds exactly the legendaries not yet placed. |
| Statics.PlaceLegendary | worlds/pokemon_frlg/pokemon.py:611-629 | Legendaries mode places an unplaced legendary; type modes share a type with the original, and base-stat modes place one of the species nearest it in base-stat total. |
| Statics.RandomizeLegendaries | worlds/pokemon_frlg/pokemon.py:593-630 | Identity when vanilla. Otherwise every encounter gets a table species; legendaries mode gives distinct legendaries, type matching keeps a shared type, and base-stat matching keeps each new species among those nearest its original. |
| Statics.RandomizeMisc | worlds/pokemon_frlg/pokemon.py:657-685 | The misc placement reads the legendary option and gives every encounter a table species, matched by type and base stats as that option says. It is the identity when the misc option is vanilla. |
| Statics.PlaceNext | worlds/pokemon_frlg/pokemon.py:611-629 | One placement step extends the placed prefix with a table species that obeys the type and base-stat options. |
| Statics.Label | worlds/pokemon_frlg/pokemon.py:637-644 | The new label is `Static <species name>` or `Missable <species name>` when the old label starts with that word, and the old first word alone otherwise. An all-space label is the `IndexError`. |
| Statics.LabelIdempotent | worlds/pokemon_frlg/pokemon.py:639-644 | Relabelling a produced label for the same species changes nothing. |
| Statics.LegendaryItemText | worlds/pokemon_frlg/pokemon.py:637 | `.split()` on a per-version list fails. |
| Statics.MiscItemTextAsWritten | worlds/pokemon_frlg/pokemon.py:694-700 | As written, the misc pass always takes the second per-version text. |
| Statics.MiscItemTextAsWrittenIgnoresVersion | worlds/pokemon_frlg/pokemon.py:695-698 | For FireRed with differing texts, the as-written text is not the FireRed one. |
| Statics.MiscItemText | worlds/pokemon_frlg/pokemon.py:694-700 | The corrected text: the first for FireRed, the second for LeafGreen. |
| Statics.MiscItemTextFollowsVersion | worlds/pokemon_frlg/pokemon.py:694-700 | The corrected text follows the version, and agrees with the code wherever the code is right. |
| Statics.RelabelEvents | worlds/pokemon_frlg/pokemon.py:632-654 | Only placed events' items change, each to a label sharing the baseline's first word. The placement written last to an event names its species in the label (`NamesSpecies`). |
| Statics.RandomizeLegendaryEncounters | worlds/pokemon_frlg/pokemon.py:593-654 | Placement plus relabelling: same keys, and only item labels change. Each encounter's event is labelled with the name of the species placed there, and the placement keeps the type and base-stat matching. |
| Statics.MiscEncountersWith | worlds/pokemon_frlg/pokemon.py:657-717 | The misc pass for a given item-text reader. It is the identity when disabled; otherwise every encounter gets a table species, only item labels change, and each label keeps the first word of the text the reader picks and names the species placed there. Type and base-stat matching are kept. |
| Statics.RandomizeMiscEncounters | worlds/pokemon_frlg/pokemon.py:657-717 | The misc pass as written: each label keeps the first word of `MiscItemTextAsWritten`, which is the second text of a per-version item whatever the version, and names the species placed there. |
| Statics.RandomizeMiscEncountersCorrected | worlds/pokemon_frlg/pokemon.py:657-717 | The corrected misc pass: each label keeps the first word of the running version's text and names the species placed there. |
| Statics.LabelsKeepFirstWordDifference | worlds/pokemon_frlg/pokemon.py:637-644 | Texts with different first words give different labels. |
| Statics.MisreadFireRedLabel | worlds/pokemon_frlg/pokemon.py:694-700 | For a FireRed game and the item `["Static A", "Missable A"]`, the as-written text gives `Missable <name>` and the corrected one gives `Static <name>`. |
| Trainers.TrainerBlacklist | worlds/pokemon_frlg/pokemon.py:738-748 | The slot blacklist lies within the player's list plus the type list. |
| Trainers.TrainerBlacklistKeepsLists | worlds/pokemon_frlg/pokemon.py:744-748 | Both lists are kept unless they cover all species. |
| Trainers.RerollMember | worlds/pokemon_frlg/pokemon.py:735-765 | Locked members are untouched. Others get a table species outside the blacklist (one the base-stat filter keeps when asked), the same level, `locked=False` and four learnable moves. A drawn species whose set bits overrun the move table is the `IndexError`. |
| Trainers.RerollParty | worlds/pokemon_frlg/pokemon.py:734-765 | Every member of a party is rerolled that way (`Rerolled`, base-stat prefix included). |
| Trainers.RandomizeTrainerParties | worlds/pokemon_frlg/pokemon.py:720-765 | Identity when vanilla. Otherwise every party is rerolled, and no trainer is added or dropped. |
| Trainers.RerolledMatches | worlds/pokemon_frlg/pokemon.py:738-759 | Without fallback, a rerolled species avoids the player's list, and with type matching shares a type. |
| TmHm.Redraw | worlds/pokemon_frlg/pokemon.py:773-778 | Bits in the range are redrawn with the percentage and the others kept. A too-short array is the `IndexError`. |
| TmHm.RedrawExtremes | worlds/pokemon_frlg/pokemon.py:774-778 | 0% clears and 100% sets every redrawn bit. |
| TmHm.RedrawReachesAll | worlds/pokemon_frlg/pokemon.py:773-778 | Strictly between 0 and 100%, every setting of the range is reachable. |
| TmHm.RedrawBits | worlds/pokemon_frlg/pokemon.py:770-778 | Bits 0-49 are redrawn only for a non-vanilla TM option, bits 50-57 only for a non-vanilla HM option, and every other bit is kept. |
| TmHm.VanillaKeepsBits | worlds/pokemon_frlg/pokemon.py:772-776 | Both options vanilla keeps every array. |
| TmHm.RandomizeTmHmCompatibility | worlds/pokemon_frlg/pokemon.py:768-780 | Only compatibility arrays change, each redrawn as above. |
| Bits.SetFlags | worlds/pokemon_frlg/client.py:193-196 | Flag `8*b + i` is listed iff bit `i` of byte `b` is set, in increasing order. |
| Bits.FlagsFromMembers | worlds/pokemon_frlg/client.py:193-196 | The flags from byte `k` on are exactly the set bits from there. |
| Bits.PopCountIsSetBits | worlds/pokemon_frlg/client.py:213-216 | The caught count is the number of set bits, at most 8 per byte. |
| Bits.Bitfield | worlds/pokemon_frlg/client.py:237-240 | The event bitfield is below `2^n`. |
| Bits.BitfieldDecodes | worlds/pokemon_frlg/client.py:237-240 | Bit `i` of the field is set iff event `i` is set, and no higher bit is set. |
| Bits.BitfieldInjective | worlds/pokemon_frlg/client.py:237-240 | The field loses nothing: equal fields mean equal event vectors. |
| Bits.LittleEndian | worlds/pokemon_frlg/client.py:294-295 | `to_bytes(w, "little")` succeeds iff the value fits, and reads back to it. |
| Bits.LittleEndianOfRead | worlds/pokemon_frlg/client.py:287-295 | Writing back a value read gives the same bytes. |
| Client.ShouldDisplay | worlds/pokemon_frlg/client.py:292 | The display byte is 0 or 1. |
| Client.DeliverNext | worlds/pokemon_frlg/client.py:284-298 | A write happens iff the read succeeded, the counter is below the item count and the pending byte is 0. It writes item `counter`, `counter + 1`, 1 and the display byte. |
| Client.PendingBlocksDelivery | worlds/pokemon_frlg/client.py:288-290 | A pending item blocks delivery. |
| Client.DeliveryInOrder | worlds/pokemon_frlg/client.py:287-298 | Items go out in the server's order. Once the game stores the written counter and clears the pending byte, the next poll writes the following item, and writes one if and only if one is left. |
| Client.EventFlagMap | worlds/pokemon_frlg/client.py:56 | The map's keys are the tracker flags, and each maps to the last position of its flag. |
| Client.TrackedEvents | worlds/pokemon_frlg/client.py:188-210 | A set event's flag is set. |
| Client.TrackedEventsOfDistinct | worlds/pokemon_frlg/client.py:209-210 | With distinct tracker flags, an event is set iff its flag is. |
| Client.CheckedLocations | worlds/pokemon_frlg/client.py:198-200 | A location is checked iff it is a server location mapped from some set flag. |
| Client.Observe | worlds/pokemon_frlg/client.py:186-216 | One poll's reading: checks, goal iff a champion flag is set, events and the caught count. |
| Client.Reconcile | worlds/pokemon_frlg/client.py:218-260 | The messages of a pass, in order. The location cache is replaced before its send; event and Pokédex caches update after theirs. |
| Client.ReconcileSettles | worlds/pokemon_frlg/client.py:218-260 | A second pass over the same memory sends nothing but a repeated goal. |
| Client.ReconcileReports | worlds/pokemon_frlg/client.py:218-249 | The locations go out iff they differ from the cache, and the goal iff the game is clear and not finished. The event bitfield reports the event vector bit for bit. |
| Client.RaisedSendsDiffer | worlds/pokemon_frlg/client.py:219-249 | A raising send loses the location report but resends events. |
| Client.Poll | worlds/pokemon_frlg/client.py:124-264 | One pass: delivery, then reconciliation over both flag chunks. A failed read, or an `OverflowError` in the delivery, sends nothing and keeps the cache. |
| Client.NonZero | worlds/pokemon_frlg/client.py:81 | The zero bytes are dropped. |
| Client.Ascii | worlds/pokemon_frlg/client.py:81-95 | ASCII decoding succeeds iff every byte is below 128. |
| Client.ExpectedPrefixes | worlds/pokemon_frlg/client.py:82-93 | An archipelago prefix implies the base prefix. |
| Client.ExpectedNamesDiffer | worlds/pokemon_frlg/client.py:19-24 | Each expected name has an archipelago prefix, and no two coincide. |
| Client.ClassifyRom | worlds/pokemon_frlg/client.py:78-113 | Accepted iff the name has a base prefix, is not a base name, and has an archipelago prefix; the version is set only on an exact match. |
| Client.ExpectedNamesAccepted | worlds/pokemon_frlg/client.py:104-111 | A padded expected name is accepted as its own version. |
| Client.BaseNamesUnpatched | worlds/pokemon_frlg/client.py:84-87 | A padded base name is the unpatched ROM. |
| Client.AsciiOfEncode | worlds/pokemon_frlg/client.py:81 | A padded name reads back as itself. |

## Left out

- File and package I/O: the parsed JSON is given as sequences and maps.
- The BizHawk transport, `async`, the guard-canary reads and `ctx.send_msgs`: a guarded read is an `Option` input, and messages are output records. A send that raises is modelled by `raisesAt`, the index of the raising send.
- `set_auth`: it wraps base64 encoding.
- Python's `Random`: every draw is a caller-supplied integer. `random()` is `k / 2^53`, and the rejection loop of `_get_random_type` is a choice from the non-`???` types.
- Floating point: `diff < target * (pct / 100)` is the integer test `100 * diff < target * pct`, and `ceil(x * 1.2)` is computed over the integers.
- Static tables (`LEGENDARY_POKEMON`, `_DUNGEON_GROUPS`, `_RIVAL_STARTER_POKEMON`, `data.tmhm_moves`, the tracker flag ids, the ROM/RAM addresses): these are parameters, and only their shape matters. The one exception is `_DAMAGING_MOVES`, which is the constant `MovesPass.DamagingMoves`.
- `offset_flag`, `reverse_offset_item_value`, `int_to_bool_array` and `bool_array_to_int`: the first two are functions passed in. The compatibility word is held as its bit array, because `util.py` is not part of this model.
- TypesPass.FollowEvolutionTypes: the worklist walk is replaced by a walk up pre-evolution links with fuel `|table|`. That agrees with the source when the evolution links form a forest.
- AbilitiesPass.RollFollowing: the same fuelled walk replaces the worklist. Its contract is stated for the family heads found within the fuel.
- TrainerMoves.MovesFor, Trainers.RandomizeTrainerParties, Starters.RandomizeStarters: these require a table keyed by id and a fresh TM/HM pool cache. These are invariants of the loaded data that the source assumes without checking.
- Wild.RandomizeWildEncounters: it requires the visit order to list every map once. The source takes that order from the map dict.
- Strings.Strip, Strings.ParseInt: they read ASCII text only. Every ASCII whitespace character Python knows is stripped, `\x1c`-`\x1f` included. Unicode digits and non-ASCII whitespace (such as U+00A0), which Python's `str.strip()` and `int()` also accept, are not: `int()` of such text gives `None` here.
- Statics.RelabelEvents: it copies `tags` like the rest of the event, as `pokemon.py` lines 646-651 and 709-714 do. `EventData` (`data.py` lines 104-108) has no `tags` field, and the loader builds events with four fields (`data.py` lines 890-895). Under that definition, reading `.tags` raises `AttributeError`. Even with that read removed, the five-argument construction would raise `TypeError`. The model does not promise that failure. It assumes events that carry `tags`.
- Client.Poll: it models one pass of a connected session. The early return of `game_watcher` (`client.py` lines 122-123) is left out: with no server, a closed socket or no slot data, there is no delivery and nothing is sent.
- Client.ShouldDisplay: it states only that the byte is 0 or 1. The condition itself is stated through `Client.DeliverNext`.
- The legendary and misc encounter tables as game-version dicts: each pass works on the ids for the running version.

## Findings

| source | as written | input that shows it | evidently intended | confidence | as-written member | corrected member |
|---|---|---|---|---|---|---|
| worlds/pokemon_frlg/pokemon.py:695-698 | `game_version` is the option's key string and is compared with the option's integer value, so the test is never true and the second (LeafGreen) text is always used | a FireRed game whose misc event item is `["Static A", "Missable A"]` gets the label `Missable <name>` instead of `Static <name>` | the first text for FireRed, the second for LeafGreen | not executed | Statics.RandomizeMiscEncounters, Statics.MisreadFireRedLabel | Statics.RandomizeMiscEncountersCorrected, Statics.MiscItemTextFollowsVersion |

=== FILE: abilities_pass.dfy ===
/** `randomize_abilities`: the allowed-ability list and the two re-roll modes. */
module AbilitiesPass {
  import opened Wrappers
  import opened Seqs
  import opened Species
  import opened Draws
  import TypesPass

  /** The three entries of the game's constant table the pass reads. */
  datatype AbilityConstants = AbilityConstants(count: nat, none: int, cacophony: int)

  /** `list.remove(x)` raising `ValueError` on a value not in the list, and
      `random.choice` raising `IndexError` on an empty list. */
  datatype AbilityError = NotInList(ability: int) | NoAllowedAbility

  /** `xs.remove(x)` on a list without repeats: the list without `x`. */
  function RemoveValue(xs: seq<int>, x: int): (r: Result<seq<int>, AbilityError>)
    requires Distinct(xs)
    ensures r.Success? <==> x in xs
    ensures r.Failure? ==> r.error == NotInList(x)
    ensures r.Success? ==> Distinct(r.value) && forall t :: t in r.value <==> t in xs && t != x
  {
    if x !in xs then Failure(NotInList(x))
    else
      var i := TypesPass.IndexOf(xs, x);
      var r := Remove(xs, i);
      forall t
        ensures multiset(r)[t] <= 1 && (t in r <==> t in xs && t != x)
      {
        DistinctMultiplicity(xs, t);
        assert t in r <==> t in multiset(r);
        assert t in xs <==> t in multiset(xs);
      }
      forall a, b | 0 <= a < b < |r|
        ensures r[a] != r[b]
      {
        if r[a] == r[b] { TwoOccurrences(r, a, b); }
      }
      Success(r)
  }

  /** Removes each of `ids` in turn, failing on the first one already gone. */
  function RemoveEach(xs: seq<int>, ids: seq<int>): (r: Result<seq<int>, AbilityError>)
    requires Distinct(xs)
    ensures r.Success? <==> Distinct(ids) && forall t :: t in ids ==> t in xs
    ensures r.Success? ==> Distinct(r.value) && forall t :: t in r.value <==> t in xs && t !in ids
    ensures r.Failure? ==> r.error.NotInList? && r.error.ability in ids
    decreases |ids|
  {
    if |ids| == 0 then Success(xs)
    else
      var first := RemoveValue(xs, ids[0]);
      if first.Failure? then first
      else
        var rest := RemoveEach(first.value, ids[1..]);
        RemoveEachStep(xs, ids, first.value, rest);
        rest
  }

  /** Removing the head and then the tail removes the whole list. */
  lemma RemoveEachStep(xs: seq<int>, ids: seq<int>, mid: seq<int>, rest: Result<seq<int>, AbilityError>)
    requires |ids| > 0 && ids[0] in xs
    requires forall t :: t in mid <==> t in xs && t != ids[0]
    requires rest.Success? <==> Distinct(ids[1..]) && forall t :: t in ids[1..] ==> t in mid
    requires rest.Success? ==> Distinct(rest.value) && forall t :: t in rest.value <==> t in mid && t !in ids[1..]
    requires rest.Failure? ==> rest.error.NotInList? && rest.error.ability in ids[1..]
    ensures rest.Success? <==> Distinct(ids) && forall t :: t in ids ==> t in xs
    ensures rest.Success? ==> Distinct(rest.value) && forall t :: t in rest.value <==> t in xs && t !in ids
    ensures rest.Failure? ==> rest.error.NotInList? && rest.error.ability in ids
  {
    assert ids == [ids[0]] + ids[1..];
    DistinctConcat([ids[0]], ids[1..]);
    assert forall t :: t in ids <==> t == ids[0] || t in ids[1..];
  }

  /** `allowed_abilities`: `range(ABILITIES_COUNT)` with `ABILITY_NONE`,
      `ABILITY_CACOPHONY` and every blacklisted id removed, in that order. */
  function AllowedAbilities(c: AbilityConstants, blacklist: seq<int>): (r: Result<seq<int>, AbilityError>)
    ensures r.Success? <==>
      && 0 <= c.none < c.count && 0 <= c.cacophony < c.count && c.none != c.cacophony
      && Distinct(blacklist)
      && forall t :: t in blacklist ==> 0 <= t < c.count && t != c.none && t != c.cacophony
    ensures r.Success? ==> Distinct(r.value) && forall t :: t in r.value <==>
      0 <= t < c.count && t != c.none && t != c.cacophony && t !in blacklist
  {
    var all := TypesPass.Range(c.count);
    assert Distinct(all);
    assert forall t :: t in all <==> 0 <= t < c.count by {
      forall t | 0 <= t < c.count ensures t in all { assert all[t] == t; }
    }
    var a :- RemoveValue(all, c.none);
    var b :- RemoveValue(a, c.cacophony);
    RemoveEach(b, blacklist)
  }

  /** One species' pair: a slot holding 0 (no ability) stays 0, any other slot
      gets `random.choice(allowed)`; `None` is the `IndexError` of a choice from
      an empty list. */
  function Roll(before: (int, int), allowed: seq<int>, d1: nat, d2: nat): (r: Option<(int, int)>)
    ensures r.Some? <==> |allowed| > 0 || (before.0 == 0 && before.1 == 0)
    ensures r.Some? ==> (if before.0 == 0 then r.value.0 == 0 else r.value.0 in allowed)
    ensures r.Some? ==> (if before.1 == 0 then r.value.1 == 0 else r.value.1 in allowed)
  {
    var a := if before.0 == 0 then Some(0) else Choice(allowed, d1);
    var b := if before.1 == 0 then Some(0) else Choice(allowed, d2);
    if a.Some? && b.Some? then Some((a.value, b.value)) else None
  }

  /** Every pair the contract of `Roll` allows is drawn by some draws. */
  lemma RollReachesAll(before: (int, int), allowed: seq<int>, t: (int, int))
    requires if before.0 == 0 then t.0 == 0 else t.0 in allowed
    requires if before.1 == 0 then t.1 == 0 else t.1 in allowed
    ensures exists d1: nat, d2: nat :: Roll(before, allowed, d1, d2) == Some(t)
  {
    var d1: nat := if before.0 == 0 then 0 else TypesPass.IndexOf(allowed, t.0);
    var d2: nat := if before.1 == 0 then 0 else TypesPass.IndexOf(allowed, t.1);
    if before.0 != 0 { ChoiceReachesAll(allowed, d1); }
    if before.1 != 0 { ChoiceReachesAll(allowed, d2); }
    assert Roll(before, allowed, d1, d2) == Some(t);
  }

  /** Independent mode: every species rolls its own pair with the draws
      `draws(k, 0)` and `draws(k, 1)`. */
  function RollEach(dex: Dex, allowed: seq<int>, draws: (int, nat) -> nat): (r: Option<Dex>)
    ensures r.Some? <==> |allowed| > 0 || forall s :: s in dex ==> s.abilities == (0, 0)
    ensures r.Some? ==> |r.value| == |dex| && forall k :: 0 <= k < |dex| ==>
      && r.value[k] == dex[k].(abilities := r.value[k].abilities)
      && Roll(dex[k].abilities, allowed, draws(k, 0), draws(k, 1)) == Some(r.value[k].abilities)
  {
    var rolled := seq(|dex|, k requires 0 <= k < |dex| => RollOwn(dex, allowed, draws, k));
    assert (forall s :: s in dex ==> s.abilities == (0, 0)) <==>
           (forall k :: 0 <= k < |dex| ==> dex[k].abilities == (0, 0)) by {
      if forall k :: 0 <= k < |dex| ==> dex[k].abilities == (0, 0) {
        forall s | s in dex ensures s.abilities == (0, 0) {
          var k :| 0 <= k < |dex| && dex[k] == s;
        }
      }
    }
    assert (forall k :: 0 <= k < |dex| ==> rolled[k].Some?) <==>
           (|allowed| > 0 || forall k :: 0 <= k < |dex| ==> dex[k].abilities == (0, 0)) by {
      forall k | 0 <= k < |dex|
        ensures rolled[k].Some? <==> |allowed| > 0 || dex[k].abilities == (0, 0)
      {
        assert rolled[k] == RollOwn(dex, allowed, draws, k);
      }
    }
    AllSome(rolled)
  }

  /** One species of the independent mode: rolled with its own draws. */
  function RollOwn(dex: Dex, allowed: seq<int>, draws: (int, nat) -> nat, k: nat): (r: Option<Species>)
    requires k < |dex|
    ensures r.Some? <==> |allowed| > 0 || dex[k].abilities == (0, 0)
    ensures r.Some? ==> r.value == dex[k].(abilities := r.value.abilities)
    ensures r.Some? ==> Roll(dex[k].abilities, allowed, draws(k, 0), draws(k, 1)) == Some(r.value.abilities)
  {
    match Roll(dex[k].abilities, allowed, draws(k, 0), draws(k, 1))
    case None => None
    case Some(p) => Some(dex[k].(abilities := p))
  }

  // ---------------------------------------------------------------- follow evolutions

  /** The species whose roll `id` shares: walking up pre-evolution links while
      the (original) abilities equal the pre-evolution's. `None` when an id is
      missing or the walk does not end within `fuel` steps. */
  function HeadOf(dex: Dex, id: int, fuel: nat): (r: Option<int>)
    ensures r.Some? ==> HasId(dex, r.value)
    decreases fuel
  {
    if fuel == 0 then None
    else
      match Lookup(dex, id)
      case None => None
      case Some(s) =>
        if s.preEvolution.None? then Some(id)
        else
          match Lookup(dex, s.preEvolution.value)
          case None => None
          case Some(p) =>
            if p.abilities != s.abilities then Some(id)
            else HeadOf(dex, s.preEvolution.value, fuel - 1)
  }

  /** Every species on the walk has the head's abilities. */
  lemma {:induction false} HeadHasSameAbilities(dex: Dex, id: int, fuel: nat)
    requires HeadOf(dex, id, fuel).Some? && HasId(dex, id)
    ensures Lookup(dex, HeadOf(dex, id, fuel).value).value.abilities == Lookup(dex, id).value.abilities
    decreases fuel
  {
    var s := Lookup(dex, id).value;
    if s.preEvolution.Some? && Lookup(dex, s.preEvolution.value).value.abilities == s.abilities {
      HeadHasSameAbilities(dex, s.preEvolution.value, fuel - 1);
    }
  }

  lemma {:induction false} HeadOfMoreFuel(dex: Dex, id: int, fuel: nat)
    requires HeadOf(dex, id, fuel).Some?
    ensures HeadOf(dex, id, fuel + 1) == HeadOf(dex, id, fuel)
    decreases fuel
  {
    var s := Lookup(dex, id).value;
    if s.preEvolution.Some? && Lookup(dex, s.preEvolution.value).value.abilities == s.abilities {
      HeadOfMoreFuel(dex, s.preEvolution.value, fuel - 1);
    }
  }

  function Head(dex: Dex, k: nat): Option<int>
    requires k < |dex|
  {
    HeadOf(dex, dex[k].id, |dex|)
  }

  /** Follow-evolutions mode: a species rolls with the draws of its head
      (`draws(head, 0)`, `draws(head, 1)`); a species no walk reaches keeps its
      abilities. */
  function RollFollowing(dex: Dex, allowed: seq<int>, draws: (int, nat) -> nat): (r: Option<Dex>)
    ensures r.Some? ==> |r.value| == |dex| && forall k :: 0 <= k < |dex| ==>
      && r.value[k] == dex[k].(abilities := r.value[k].abilities)
      && (Head(dex, k).None? ==> r.value[k] == dex[k])
      && (Head(dex, k).Some? ==>
            Roll(dex[k].abilities, allowed, draws(Head(dex, k).value, 0), draws(Head(dex, k).value, 1))
              == Some(r.value[k].abilities))
    ensures |allowed| > 0 ==> r.Some?
  {
    var rolled := seq(|dex|, k requires 0 <= k < |dex| => RollMember(dex, allowed, draws, k));
    AllSome(rolled)
  }

  /** One species of the follow-evolutions mode: rolled with its head's draws. */
  function RollMember(dex: Dex, allowed: seq<int>, draws: (int, nat) -> nat, k: nat): (r: Option<Species>)
    requires k < |dex|
    ensures r.Some? ==> r.value == dex[k].(abilities := r.value.abilities)
    ensures Head(dex, k).None? ==> r == Some(dex[k])
    ensures Head(dex, k).Some? ==> r.Some? ==>
      Roll(dex[k].abilities, allowed, draws(Head(dex, k).value, 0), draws(Head(dex, k).value, 1)) == Some(r.value.abilities)
    ensures |allowed| > 0 ==> r.Some?
  {
    match Head(dex, k)
    case None => Some(dex[k])
    case Some(h) =>
      match Roll(dex[k].abilities, allowed, draws(h, 0), draws(h, 1))
      case None => None
      case Some(p) => Some(dex[k].(abilities := p))
  }

  /** An evolution that kept its pre-evolution's abilities walks on to the
      pre-evolution's head. */
  lemma EvolutionSharesHead(dex: Dex, i: nat, j: nat)
    requires Keyed(dex) && i < |dex| && j < |dex|
    requires dex[j].preEvolution == Some(dex[i].id) && dex[j].abilities == dex[i].abilities
    requires Head(dex, j).Some?
    ensures Head(dex, i) == Head(dex, j)
  {
    LookupKeyed(dex, i);
    LookupKeyed(dex, j);
    HeadOfMoreFuel(dex, dex[i].id, |dex| - 1);
  }

  /** An evolution that kept its pre-evolution's abilities is re-rolled to the
      same new abilities as its pre-evolution. */
  lemma EvolutionSharesRoll(dex: Dex, allowed: seq<int>, draws: (int, nat) -> nat, i: nat, j: nat)
    requires Keyed(dex) && i < |dex| && j < |dex|
    requires dex[j].preEvolution == Some(dex[i].id) && dex[j].abilities == dex[i].abilities
    requires Head(dex, j).Some?
    requires RollFollowing(dex, allowed, draws).Some?
    ensures RollFollowing(dex, allowed, draws).value[i].abilities ==
            RollFollowing(dex, allowed, draws).value[j].abilities
  {
    EvolutionSharesHead(dex, i, j);
  }

  /** The head keeps the abilities the family started with, so the roll of every
      member begins from the same pair. */
  lemma HeadStartsFromSamePair(dex: Dex, k: nat)
    requires Keyed(dex) && k < |dex| && Head(dex, k).Some?
    ensures Lookup(dex, Head(dex, k).value).value.abilities == dex[k].abilities
  {
    LookupKeyed(dex, k);
    HeadHasSameAbilities(dex, dex[k].id, |dex|);
  }

  // ---------------------------------------------------------------- the pass

  datatype AbilitiesMode = Vanilla | Randomized | FollowEvolutions

  /** `randomize_abilities`. */
  function RandomizeAbilities(
    dex: Dex, mode: AbilitiesMode, c: AbilityConstants, blacklist: seq<int>, draws: (int, nat) -> nat
  ): (r: Result<Dex, AbilityError>)
    ensures mode == Vanilla ==> r == Success(dex)
    ensures mode != Vanilla && AllowedAbilities(c, blacklist).Failure? ==>
      r == Failure(AllowedAbilities(c, blacklist).error)
    ensures r.Success? ==> |r.value| == |dex| && forall k :: 0 <= k < |dex| ==>
      && r.value[k] == dex[k].(abilities := r.value[k].abilities)
      && (dex[k].abilities.0 == 0 ==> r.value[k].abilities.0 == 0)
      && (dex[k].abilities.1 == 0 ==> r.value[k].abilities.1 == 0)
    ensures r.Success? && mode != Vanilla ==> forall k :: 0 <= k < |dex| ==>
      var a := r.value[k].abilities;
      && (a.0 == dex[k].abilities.0 || (0 <= a.0 < c.count && a.0 != c.none && a.0 != c.cacophony && a.0 !in blacklist))
      && (a.1 == dex[k].abilities.1 || (0 <= a.1 < c.count && a.1 != c.none && a.1 != c.cacophony && a.1 !in blacklist))
    ensures r.Success? && mode == Randomized ==> forall k :: 0 <= k < |dex| ==>
      var a := r.value[k].abilities;
      && (dex[k].abilities.0 != 0 ==> 0 <= a.0 < c.count && a.0 != c.none && a.0 != c.cacophony && a.0 !in blacklist)
      && (dex[k].abilities.1 != 0 ==> 0 <= a.1 < c.count && a.1 != c.none && a.1 != c.cacophony && a.1 !in blacklist)
  {
    if mode == Vanilla then Success(dex)
    else
      var allowed :- AllowedAbilities(c, blacklist);
      var rolled := if mode == Randomized then RollEach(dex, allowed, draws) else RollFollowing(dex, allowed, draws);
      if rolled.None? then Failure(NoAllowedAbility) else Success(rolled.value)
  }
}

=== FILE: bits.dfy ===
/** Bytes and bit fields as the client reads and writes them: the flag array of
    the save block, the caught-species bitmap, the event bitfield it reports
    and the little-endian integers it exchanges with the game. */
module Bits {
  import opened Wrappers

  type Byte = b: int | 0 <= b < 256

  /** `x & (1 << i) != 0` for a non-negative `x`. */
  predicate Bit(x: nat, i: nat)
    decreases i
  {
    if i == 0 then x % 2 == 1 else Bit(x / 2, i - 1)
  }

  function Pow2(i: nat): (r: nat)
    ensures r >= 1
  {
    if i == 0 then 1 else 2 * Pow2(i - 1)
  }

  /** Appending a low bit shifts every other bit up by one. */
  lemma BitOfDouble(b: nat, x: nat, i: nat)
    requires b < 2
    ensures Bit(b + 2 * x, 0) <==> b == 1
    ensures Bit(b + 2 * x, i + 1) <==> Bit(x, i)
  {
    assert (b + 2 * x) / 2 == x;
  }

  /** No bit at or above `i` is set in a number below `2^i`. */
  lemma {:induction false} NoBitsAbove(x: nat, i: nat, j: nat)
    requires x < Pow2(i) && i <= j
    ensures !Bit(x, j)
    decreases j
  {
    if j == 0 {
      assert x == 0;
    } else if i == 0 {
      assert x == 0;
      assert x / 2 == 0;
      NoBitsAbove(x / 2, 0, j - 1);
    } else {
      assert x / 2 < Pow2(i - 1);
      NoBitsAbove(x / 2, i - 1, j - 1);
    }
  }

  // ---------------------------------------------------------------- flag arrays

  /** The ids `base + j` of the set bits `j >= i` of `b`, in increasing order. */
  function ByteFlags(b: Byte, base: nat, i: nat): (r: seq<nat>)
    requires i <= 8
    ensures forall j :: 0 <= j < |r| ==> base + i <= r[j] < base + 8
    ensures forall j, l :: 0 <= j < l < |r| ==> r[j] < r[l]
    decreases 8 - i
  {
    if i == 8 then [] else (if Bit(b, i) then [base + i] else []) + ByteFlags(b, base, i + 1)
  }

  lemma {:induction false} ByteFlagsMembers(b: Byte, base: nat, i: nat, id: nat)
    requires i <= 8
    ensures id in ByteFlags(b, base, i) <==> base + i <= id < base + 8 && Bit(b, id - base)
    decreases 8 - i
  {
    if i < 8 {
      ByteFlagsMembers(b, base, i + 1, id);
    }
  }

  /** The flags set in `bytes[k..]`: bit `i` of byte `n` is flag `8 * n + i`. */
  function FlagsFrom(bytes: seq<Byte>, k: nat): (r: seq<nat>)
    requires k <= |bytes|
    ensures forall j :: 0 <= j < |r| ==> 8 * k <= r[j] < 8 * |bytes|
    ensures forall j, l :: 0 <= j < l < |r| ==> r[j] < r[l]
    decreases |bytes| - k
  {
    if k == |bytes| then []
    else
      var head := ByteFlags(bytes[k], 8 * k, 0);
      var rest := FlagsFrom(bytes, k + 1);
      IncreasingConcat(head, rest, 8 * k, 8 * k + 8, 8 * |bytes|);
      head + rest
  }

  /** Two increasing runs, the first wholly below the second, join into one. */
  lemma IncreasingConcat(a: seq<nat>, b: seq<nat>, lo: nat, mid: nat, hi: nat)
    requires forall j :: 0 <= j < |a| ==> lo <= a[j] < mid
    requires forall j :: 0 <= j < |b| ==> mid <= b[j] < hi
    requires forall j, l :: 0 <= j < l < |a| ==> a[j] < a[l]
    requires forall j, l :: 0 <= j < l < |b| ==> b[j] < b[l]
    requires lo <= mid <= hi
    ensures forall j :: 0 <= j < |a + b| ==> lo <= (a + b)[j] < hi
    ensures forall j, l :: 0 <= j < l < |a + b| ==> (a + b)[j] < (a + b)[l]
  {
    var ab := a + b;
    forall j | 0 <= j < |ab|
      ensures lo <= ab[j] < hi
    {
      if j < |a| {
        assert ab[j] == a[j];
      } else {
        assert ab[j] == b[j - |a|];
      }
    }
    forall j, l | 0 <= j < l < |ab|
      ensures ab[j] < ab[l]
    {
      if l < |a| {
        assert ab[j] == a[j] && ab[l] == a[l];
      } else if j < |a| {
        assert ab[j] == a[j] && ab[l] == b[l - |a|];
      } else {
        assert ab[j] == b[j - |a|] && ab[l] == b[l - |a|];
      }
    }
  }

  lemma ByteOfFlag(k: nat, id: nat)
    requires 8 * k <= id < 8 * k + 8
    ensures id / 8 == k && id % 8 == id - 8 * k
  {
  }

  /** Flag `id` is set in the bytes. */
  predicate FlagSet(bytes: seq<Byte>, id: nat) {
    id < 8 * |bytes| && Bit(bytes[id / 8], id % 8)
  }

  lemma FlagSetInByte(bytes: seq<Byte>, k: nat, id: nat)
    requires k < |bytes| && 8 * k <= id < 8 * k + 8
    ensures FlagSet(bytes, id) <==> Bit(bytes[k], id - 8 * k)
  {
    ByteOfFlag(k, id);
  }

  lemma {:induction false} FlagsFromMembers(bytes: seq<Byte>, k: nat, id: nat)
    requires k <= |bytes|
    ensures id in FlagsFrom(bytes, k) <==> 8 * k <= id && FlagSet(bytes, id)
    decreases |bytes| - k
  {
    if k == |bytes| {
      assert FlagsFrom(bytes, k) == [];
    } else {
      var head := ByteFlags(bytes[k], 8 * k, 0);
      var rest := FlagsFrom(bytes, k + 1);
      assert FlagsFrom(bytes, k) == head + rest;
      FlagsFromMembers(bytes, k + 1, id);
      if 8 * k <= id < 8 * k + 8 {
        assert id !in rest;
        ByteFlagsMembers(bytes[k], 8 * k, 0, id);
        FlagSetInByte(bytes, k, id);
      } else {
        ByteFlagsMembers(bytes[k], 8 * k, 0, id);
        assert id in rest <==> 8 * k <= id && FlagSet(bytes, id);
      }
    }
  }

  /** The flag ids a poll reads out of the flag bytes, in increasing order:
      exactly the set bits. */
  function SetFlags(bytes: seq<Byte>): (r: seq<nat>)
    ensures forall id: nat :: id in r <==> id < 8 * |bytes| && Bit(bytes[id / 8], id % 8)
    ensures forall j, l :: 0 <= j < l < |r| ==> r[j] < r[l]
  {
    forall id: nat ensures id in FlagsFrom(bytes, 0) <==> id < 8 * |bytes| && Bit(bytes[id / 8], id % 8) {
      FlagsFromMembers(bytes, 0, id);
      assert FlagSet(bytes, id) <==> id < 8 * |bytes| && Bit(bytes[id / 8], id % 8);
    }
    FlagsFrom(bytes, 0)
  }

  // ---------------------------------------------------------------- popcount

  function ByteCount(b: Byte, i: nat): nat
    requires i <= 8
    decreases 8 - i
  {
    if i == 8 then 0 else (if Bit(b, i) then 1 else 0) + ByteCount(b, i + 1)
  }

  /** The caught-species count: one for every set bit of every byte. */
  function PopCount(bytes: seq<Byte>): nat {
    if |bytes| == 0 then 0 else ByteCount(bytes[0], 0) + PopCount(bytes[1..])
  }

  lemma {:induction false} ByteCountIsFlags(b: Byte, base: nat, i: nat)
    requires i <= 8
    ensures ByteCount(b, i) == |ByteFlags(b, base, i)|
    decreases 8 - i
  {
    if i < 8 {
      ByteCountIsFlags(b, base, i + 1);
    }
  }

  lemma {:induction false} PopCountFrom(bytes: seq<Byte>, k: nat)
    requires k <= |bytes|
    ensures PopCount(bytes[k..]) == |FlagsFrom(bytes, k)|
    decreases |bytes| - k
  {
    if k < |bytes| {
      PopCountFrom(bytes, k + 1);
      ByteCountIsFlags(bytes[k], 8 * k, 0);
      PopCountSuffix(bytes, k);
      FlagsFromLength(bytes, k);
    }
  }

  lemma PopCountSuffix(bytes: seq<Byte>, k: nat)
    requires k < |bytes|
    ensures PopCount(bytes[k..]) == ByteCount(bytes[k], 0) + PopCount(bytes[k + 1..])
  {
    assert bytes[k..][0] == bytes[k];
    assert bytes[k..][1..] == bytes[k + 1..];
  }

  lemma FlagsFromLength(bytes: seq<Byte>, k: nat)
    requires k < |bytes|
    ensures |FlagsFrom(bytes, k)| == |ByteFlags(bytes[k], 8 * k, 0)| + |FlagsFrom(bytes, k + 1)|
  {
  }

  /** The count is the number of distinct set bits, so at most eight a byte. */
  lemma PopCountIsSetBits(bytes: seq<Byte>)
    ensures PopCount(bytes) == |SetFlags(bytes)|
    ensures PopCount(bytes) <= 8 * |bytes|
  {
    PopCountFrom(bytes, 0);
    assert bytes[0..] == bytes;
    var r := SetFlags(bytes);
    assert forall j :: 0 <= j < |r| ==> r[j] < 8 * |bytes|;
    BelowBound(r, 8 * |bytes|);
  }

  /** An increasing sequence of naturals below `n` has at most `n` members. */
  lemma {:induction false} BelowBound(r: seq<nat>, n: nat)
    requires forall j, l :: 0 <= j < l < |r| ==> r[j] < r[l]
    requires forall j :: 0 <= j < |r| ==> r[j] < n
    ensures |r| <= n
    decreases n
  {
    if |r| > 0 {
      var init := r[..|r| - 1];
      assert forall j :: 0 <= j < |init| ==> init[j] < r[|r| - 1] <= n - 1;
      BelowBound(init, n - 1);
    }
  }

  // ---------------------------------------------------------------- bit fields

  /** `sum(1 << i for i, b in enumerate(bits) if b)`. */
  function Bitfield(bits: seq<bool>): (r: nat)
    ensures r < Pow2(|bits|)
  {
    if |bits| == 0 then 0 else (if bits[0] then 1 else 0) + 2 * Bitfield(bits[1..])
  }

  /** The server reads bit `i` of the field as `bits[i]`; no bit beyond the
      list is set. */
  lemma {:induction false} BitfieldDecodes(bits: seq<bool>, i: nat)
    ensures i < |bits| ==> (Bit(Bitfield(bits), i) <==> bits[i])
    ensures i >= |bits| ==> !Bit(Bitfield(bits), i)
  {
    if i >= |bits| {
      NoBitsAbove(Bitfield(bits), |bits|, i);
    } else {
      var b := if bits[0] then 1 else 0;
      if i == 0 {
        BitOfDouble(b, Bitfield(bits[1..]), 0);
      } else {
        BitOfDouble(b, Bitfield(bits[1..]), i - 1);
        BitfieldDecodes(bits[1..], i - 1);
      }
    }
  }

  /** Two event vectors of one length with the same bitfield are the same: the
      field loses nothing. */
  lemma BitfieldInjective(a: seq<bool>, b: seq<bool>)
    requires |a| == |b| && Bitfield(a) == Bitfield(b)
    ensures a == b
  {
    forall i | 0 <= i < |a| ensures a[i] == b[i] {
      BitfieldDecodes(a, i);
      BitfieldDecodes(b, i);
    }
  }

  // ---------------------------------------------------------------- little-endian integers

  function Pow256(w: nat): (r: nat)
    ensures r >= 1
  {
    if w == 0 then 1 else 256 * Pow256(w - 1)
  }

  /** `int.from_bytes(bytes, "little")`. */
  function FromLittleEndian(bytes: seq<Byte>): (r: nat)
    ensures r < Pow256(|bytes|)
  {
    if |bytes| == 0 then 0 else bytes[0] + 256 * FromLittleEndian(bytes[1..])
  }

  function Digits(n: nat, w: nat): (r: seq<Byte>)
    ensures |r| == w
  {
    if w == 0 then [] else [n % 256] + Digits(n / 256, w - 1)
  }

  /** `n.to_bytes(w, "little")`; `None` is the `OverflowError` of a negative
      or too wide `n`. Reading the bytes back gives `n`. */
  function LittleEndian(n: int, w: nat): (r: Option<seq<Byte>>)
    ensures r.Some? <==> 0 <= n < Pow256(w)
    ensures r.Some? ==> |r.value| == w && FromLittleEndian(r.value) == n
  {
    if 0 <= n < Pow256(w) then
      DigitsRoundTrip(n, w);
      Some(Digits(n, w))
    else None
  }

  lemma {:induction false} DigitsRoundTrip(n: nat, w: nat)
    requires n < Pow256(w)
    ensures FromLittleEndian(Digits(n, w)) == n
  {
    if w > 0 {
      assert n / 256 < Pow256(w - 1);
      DigitsRoundTrip(n / 256, w - 1);
      assert Digits(n, w)[1..] == Digits(n / 256, w - 1);
    }
  }

  /** Writing back what was read gives the same bytes. */
  lemma {:induction false} LittleEndianOfRead(bytes: seq<Byte>)
    ensures LittleEndian(FromLittleEndian(bytes), |bytes|) == Some(bytes)
  {
    if |bytes| > 0 {
      var m := FromLittleEndian(bytes[1..]);
      var n := FromLittleEndian(bytes);
      LowByte(bytes[0], m);
      LittleEndianOfRead(bytes[1..]);
      assert Digits(m, |bytes| - 1) == bytes[1..];
      assert Digits(n, |bytes|) == [bytes[0]] + bytes[1..] == bytes;
      assert LittleEndian(n, |bytes|) == Some(Digits(n, |bytes|));
    }
  }

  lemma LowByte(b: Byte, m: nat)
    ensures (b + 256 * m) % 256 == b && (b + 256 * m) / 256 == m
  {
  }
}

=== FILE: client.dfy ===
/** The decisions of the BizHawk client (`PokemonFRLGClient`) with the emulator
    and the server connection taken out: reads of game memory arrive as
    `Option`s (`None` is a guarded read whose guard failed), and what the
    client would write to the game or send to the server is returned. */
module Client {
  import opened Wrappers
  import opened Seqs
  import opened Strings
  import opened Bits

  // ---------------------------------------------------------------- item delivery

  /** An item the server has sent to this slot. */
  datatype NetworkItem = NetworkItem(item: int, location: int, player: int, flags: nat)

  /** A write of `bytes` to game memory at `address`. */
  datatype Write = Write(address: int, bytes: seq<Byte>)

  /** The guarded read of `handle_received_items`: the save block's
      received-items counter (two bytes) and the pending-item byte. */
  datatype ItemRead = ItemRead(counter: seq<Byte>, pending: Byte)

  /** `Overflow` is the `OverflowError` of `to_bytes(2, "little")` on a value
      that does not fit two bytes. */
  datatype Delivery = Idle | Deliver(writes: seq<Write>) | Overflow

  /** The display flag: set for a progression item (bit 0 of the item flags)
      and for an item the player found in their own world. */
  function ShouldDisplay(item: NetworkItem, slot: Option<int>): (r: Byte)
    ensures r < 2
  {
    if Bit(item.flags, 0) || slot == Some(item.player) then 1 else 0
  }

  /** `handle_received_items`: when the game has taken the previous item (the
      pending byte is 0) and the server has sent more items than the game has
      counted, the next one is written with the counter one higher, the
      pending byte set and the display flag. `itemValue` is
      `reverse_offset_item_value`, the mapping of item ids to game values. */
  function DeliverNext(read: Option<ItemRead>, items: seq<NetworkItem>, slot: Option<int>, address: int, itemValue: int -> int)
    : (r: Delivery)
    ensures !r.Idle? <==> read.Some? && FromLittleEndian(read.value.counter) < |items| && read.value.pending == 0
    ensures r.Deliver? ==>
      var n := FromLittleEndian(read.value.counter);
      && |r.writes| == 4
      && r.writes[0].address == address && |r.writes[0].bytes| == 2
      && FromLittleEndian(r.writes[0].bytes) == itemValue(items[n].item)
      && r.writes[1].address == address + 2 && |r.writes[1].bytes| == 2
      && FromLittleEndian(r.writes[1].bytes) == n + 1
      && r.writes[2] == Write(address + 4, [1])
      && r.writes[3].address == address + 5
      && (r.writes[3].bytes == [1] <==> Bit(items[n].flags, 0) || slot == Some(items[n].player))
      && (r.writes[3].bytes == [0] <==> !(Bit(items[n].flags, 0) || slot == Some(items[n].player)))
    ensures r.Overflow? ==>
      var n := FromLittleEndian(read.value.counter);
      !(0 <= itemValue(items[n].item) < 0x1_0000) || n + 1 >= 0x1_0000
  {
    if read.None? then Idle
    else
      var n := FromLittleEndian(read.value.counter);
      if !(n < |items| && read.value.pending == 0) then Idle
      else
        var next := items[n];
        var value := LittleEndian(itemValue(next.item), 2);
        var counter := LittleEndian(n + 1, 2);
        if value.None? || counter.None? then Overflow
        else Deliver([
          Write(address, value.value),
          Write(address + 2, counter.value),
          Write(address + 4, [1]),
          Write(address + 5, [ShouldDisplay(next, slot)])])
  }

  /** While the game has not taken the written item, nothing more is written. */
  lemma PendingBlocksDelivery(counter: seq<Byte>, items: seq<NetworkItem>, slot: Option<int>, address: int, itemValue: int -> int)
    ensures DeliverNext(Some(ItemRead(counter, 1)), items, slot, address, itemValue) == Idle
  {
  }

  /** Items go to the game in the server's order, each once: once the game has
      stored the written counter and cleared the pending byte, the next poll
      writes the following item with the counter one higher again. */
  lemma DeliveryInOrder(read: ItemRead, items: seq<NetworkItem>, slot: Option<int>, address: int, itemValue: int -> int)
    requires DeliverNext(Some(read), items, slot, address, itemValue).Deliver?
    ensures var ws := DeliverNext(Some(read), items, slot, address, itemValue).writes;
      var n := FromLittleEndian(read.counter);
      var next := DeliverNext(Some(ItemRead(ws[1].bytes, 0)), items, slot, address, itemValue);
      && (n + 1 < |items| <==> !next.Idle?)
      && (next.Deliver? ==>
            && FromLittleEndian(next.writes[0].bytes) == itemValue(items[n + 1].item)
            && FromLittleEndian(next.writes[1].bytes) == n + 2)
  {
  }

  // ---------------------------------------------------------------- one poll's observation

  /** The tables the poll consults: `offset_flag` (flag id to location id),
      `DEFEATED_CHAMPION_FLAGS`, `FLAG_DEFEATED_CHAMP`, and the flag id of each
      name of `TRACKER_EVENT_FLAGS` in order. */
  datatype FlagTables = FlagTables(offsetFlag: int -> int, championFlags: set<int>, champFlag: int, trackerFlags: seq<int>)

  /** `EVENT_FLAG_MAP`: flag id to the position of its tracker name. A flag id
      listed twice keeps its last position, as a dict display does. */
  function EventFlagMap(flags: seq<int>): (m: map<int, nat>)
    ensures forall f :: f in m <==> f in flags
    ensures forall f :: f in m ==> m[f] < |flags| && flags[m[f]] == f
    ensures forall f, j :: f in m && m[f] < j < |flags| ==> flags[j] != f
  {
    if |flags| == 0 then map[]
    else
      var init := flags[..|flags| - 1];
      assert forall f :: f in flags <==> f in init || f == flags[|flags| - 1];
      EventFlagMap(init)[flags[|flags| - 1] := |flags| - 1]
  }

  /** `local_set_events`, by tracker position: a name is set when its flag is
      set and the flag map leads back to it. */
  function TrackedEvents(flagsOn: seq<nat>, trackerFlags: seq<int>): (r: seq<bool>)
    ensures |r| == |trackerFlags|
    ensures forall i :: 0 <= i < |r| && r[i] ==> trackerFlags[i] in flagsOn
  {
    var m := EventFlagMap(trackerFlags);
    seq(|trackerFlags|, i requires 0 <= i < |trackerFlags| => trackerFlags[i] in flagsOn && m[trackerFlags[i]] == i)
  }

  /** With distinct tracker flags, event `i` is set exactly when its flag is. */
  lemma TrackedEventsOfDistinct(flagsOn: seq<nat>, trackerFlags: seq<int>, i: nat)
    requires Distinct(trackerFlags) && i < |trackerFlags|
    ensures TrackedEvents(flagsOn, trackerFlags)[i] <==> trackerFlags[i] in flagsOn
  {
    var m := EventFlagMap(trackerFlags);
    assert trackerFlags[m[trackerFlags[i]]] == trackerFlags[i];
  }

  /** What one poll reads out of game memory. */
  datatype Observation = Observation(checked: set<int>, events: seq<bool>, gameClear: bool, caught: nat)

  /** `local_checked_locations`: the location of every set flag that the
      server counts as a location of this slot. */
  function CheckedLocations(flags: seq<nat>, offsetFlag: int -> int, serverLocations: set<int>): (r: set<int>)
    ensures forall loc :: loc in r <==> loc in serverLocations && exists f :: f in flags && offsetFlag(f) == loc
  {
    set f | f in flags && offsetFlag(f) in serverLocations :: offsetFlag(f)
  }

  /** `game_clear`: some set flag is a champion-defeat flag. */
  predicate GameClear(flags: seq<nat>, t: FlagTables) {
    exists f :: f in flags && (f in t.championFlags || f == t.champFlag)
  }

  /** The flag and caught-species loops of `game_watcher`: the set flags are
      `SetFlags(flagBytes)`, and the caught count is the number of set bits of
      the caught bitmap. */
  function Observe(flagBytes: seq<Byte>, caughtBytes: seq<Byte>, serverLocations: set<int>, t: FlagTables): (r: Observation)
    ensures forall loc :: loc in r.checked <==>
      loc in serverLocations && exists f :: f in SetFlags(flagBytes) && t.offsetFlag(f) == loc
    ensures r.gameClear <==> GameClear(SetFlags(flagBytes), t)
    ensures |r.events| == |t.trackerFlags|
    ensures forall i :: 0 <= i < |r.events| && r.events[i] ==> t.trackerFlags[i] in SetFlags(flagBytes)
    ensures r.caught == |SetFlags(caughtBytes)|
  {
    var flags := SetFlags(flagBytes);
    PopCountIsSetBits(caughtBytes);
    Observation(CheckedLocations(flags, t.offsetFlag, serverLocations), TrackedEvents(flags, t.trackerFlags),
      GameClear(flags, t), PopCount(caughtBytes))
  }

  // ---------------------------------------------------------------- reconciliation

  /** What the client knows of the server connection. */
  datatype Session = Session(serverLocations: set<int>, finishedGame: bool, slot: Option<int>, team: int)

  /** The client's record of what it last sent; `events` is `None` before the
      first send (the empty dict the client starts with). */
  datatype Cache = Cache(checked: set<int>, events: Option<seq<bool>>, caught: nat)

  const FreshCache := Cache({}, None, 0)

  /** `LocationChecks`, the goal `StatusUpdate`, the `or` of the event
      bitfield into `pokemon_frlg_events_<team>_<slot>` and the `replace` of
      `pokemon_frlg_pokedex_<team>_<slot>`. */
  datatype Message =
    | LocationChecks(locations: set<int>)
    | Goal
    | OrEvents(team: int, slot: int, bits: nat)
    | ReplacePokedex(team: int, slot: int, count: nat)

  /** Messages sent so far, and whether a send raised. */
  datatype Outbox = Outbox(sent: seq<Message>, raised: bool)

  /** Send number `raisesAt` raises and ends the poll. */
  function Send(o: Outbox, m: Message, raisesAt: Option<nat>): Outbox {
    if o.raised then o
    else if raisesAt == Some(|o.sent|) then o.(raised := true)
    else o.(sent := o.sent + [m])
  }

  function EventsChanged(cache: Cache, obs: Observation, s: Session): bool {
    Some(obs.events) != cache.events && s.slot.Some?
  }

  function CaughtChanged(cache: Cache, obs: Observation, s: Session): bool {
    obs.caught != cache.caught && s.slot.Some?
  }

  /** The messages of a poll in which no send raises, in the order they go
      out: changed locations, the goal while the game is clear and not yet
      finished, a changed event vector and a changed caught count, the last
      two only with a slot. */
  function Outgoing(cache: Cache, obs: Observation, s: Session): seq<Message> {
    (if obs.checked != cache.checked then [LocationChecks(obs.checked)] else []) +
    (if !s.finishedGame && obs.gameClear then [Goal] else []) +
    (if EventsChanged(cache, obs, s) then [OrEvents(s.team, s.slot.value, Bitfield(obs.events))] else []) +
    (if CaughtChanged(cache, obs, s) then [ReplacePokedex(s.team, s.slot.value, obs.caught)] else [])
  }

  /** The send-on-change tail of `game_watcher`. The location cache is
      replaced before its message is sent; the event and Pokédex caches only
      after theirs. */
  function Reconcile(cache: Cache, obs: Observation, s: Session, raisesAt: Option<nat>): (r: (seq<Message>, Cache))
    ensures r.1.checked == obs.checked
    ensures raisesAt.None? ==> r.0 == Outgoing(cache, obs, s)
    ensures raisesAt.None? ==> r.1.events == (if s.slot.Some? then Some(obs.events) else cache.events)
    ensures raisesAt.None? ==> r.1.caught == (if s.slot.Some? then obs.caught else cache.caught)
  {
    var o0 := Outbox([], false);
    var locationsChanged := obs.checked != cache.checked;
    var c1 := cache.(checked := obs.checked);
    var o1 := if locationsChanged then Send(o0, LocationChecks(obs.checked), raisesAt) else o0;
    if o1.raised then (o1.sent, c1)
    else
      var o2 := if !s.finishedGame && obs.gameClear then Send(o1, Goal, raisesAt) else o1;
      if o2.raised then (o2.sent, c1)
      else
        var eventsChanged := EventsChanged(cache, obs, s);
        var o3 := if eventsChanged then Send(o2, OrEvents(s.team, s.slot.value, Bitfield(obs.events)), raisesAt) else o2;
        if o3.raised then (o3.sent, c1)
        else
          var c3 := if eventsChanged then c1.(events := Some(obs.events)) else c1;
          var caughtChanged := CaughtChanged(cache, obs, s);
          var o4 := if caughtChanged then Send(o3, ReplacePokedex(s.team, s.slot.value, obs.caught), raisesAt) else o3;
          if o4.raised then (o4.sent, c3)
          else (o4.sent, if caughtChanged then c3.(caught := obs.caught) else c3)
  }

  /** Once a poll has gone through, a poll that reads the same memory sends
      nothing but, until the server marks the game finished, the goal again. */
  lemma ReconcileSettles(cache: Cache, obs: Observation, s: Session)
    requires s.slot.Some?
    ensures var after := Reconcile(cache, obs, s, None).1;
      Reconcile(after, obs, s, None).0 == (if !s.finishedGame && obs.gameClear then [Goal] else [])
  {
  }

  /** A poll sends the locations exactly when they differ from the cache, and
      the event bitfield it sends reports the event vector bit for bit. */
  lemma ReconcileReports(cache: Cache, obs: Observation, s: Session)
    ensures var sent := Reconcile(cache, obs, s, None).0;
      && (LocationChecks(obs.checked) in sent <==> obs.checked != cache.checked)
      && (Goal in sent <==> !s.finishedGame && obs.gameClear)
      && forall m :: m in sent && m.OrEvents? ==> forall i: nat :: i < |obs.events| ==> (Bit(m.bits, i) <==> obs.events[i])
  {
    var sent := Reconcile(cache, obs, s, None).0;
    forall m | m in sent && m.OrEvents?
      ensures forall i: nat :: i < |obs.events| ==> (Bit(m.bits, i) <==> obs.events[i])
    {
      forall i: nat | i < |obs.events| ensures Bit(m.bits, i) <==> obs.events[i] {
        BitfieldDecodes(obs.events, i);
      }
    }
  }

  /** The order of the cache updates matters when a send raises: locations
      whose send raised are already in the cache and are not sent again by a
      later poll that reads the same flags, while an event vector whose send
      raised is sent again. */
  lemma RaisedSendsDiffer(cache: Cache, obs: Observation, s: Session)
    requires obs.checked != cache.checked
    ensures var after := Reconcile(cache, obs, s, Some(0)).1;
      && Reconcile(cache, obs, s, Some(0)).0 == []
      && LocationChecks(obs.checked) !in Reconcile(after, obs, s, None).0
    ensures s.slot.Some? && Some(obs.events) != cache.events ==>
      var k := if !s.finishedGame && obs.gameClear then 2 else 1;
      var after := Reconcile(cache, obs, s, Some(k)).1;
      OrEvents(s.team, s.slot.value, Bitfield(obs.events)) in Reconcile(after, obs, s, None).0
  {
  }

  // ---------------------------------------------------------------- one poll

  /** The guarded reads of one `game_watcher` pass: the item counter and
      pending byte, the two chunks of the flag array, the caught bitmap. */
  datatype PollReads = PollReads(
    items: Option<ItemRead>, flags: Option<seq<Byte>>, moreFlags: Option<seq<Byte>>, caught: Option<seq<Byte>>)

  datatype PollOutcome = PollOutcome(delivery: Delivery, sent: seq<Message>, cache: Cache)

  /** One pass of `game_watcher`: the item delivery, then, when the first flag
      chunk and the caught bitmap were read, the reconciliation over both flag
      chunks (the second one only if it was read). A failed read ends the
      pass with the cache as it was, and so does an `OverflowError` in the
      delivery: it escapes `handle_received_items` before any flag is read. */
  function Poll(
    cache: Cache, memory: PollReads, s: Session, items: seq<NetworkItem>, address: int,
    itemValue: int -> int, t: FlagTables, raisesAt: Option<nat>
  ) : (r: PollOutcome)
    ensures r.delivery == DeliverNext(memory.items, items, s.slot, address, itemValue)
    ensures r.delivery.Overflow? || memory.flags.None? || memory.caught.None? ==> r.sent == [] && r.cache == cache
    ensures !r.delivery.Overflow? && memory.flags.Some? && memory.caught.Some? ==>
      var flagBytes := memory.flags.value + (if memory.moreFlags.Some? then memory.moreFlags.value else []);
      (r.sent, r.cache) == Reconcile(cache, Observe(flagBytes, memory.caught.value, s.serverLocations, t), s, raisesAt)
  {
    var delivery := DeliverNext(memory.items, items, s.slot, address, itemValue);
    if delivery.Overflow? || memory.flags.None? || memory.caught.None? then PollOutcome(delivery, [], cache)
    else
      var flagBytes := memory.flags.value + (if memory.moreFlags.Some? then memory.moreFlags.value else []);
      var obs := Observe(flagBytes, memory.caught.value, s.serverLocations, t);
      var (sent, next) := Reconcile(cache, obs, s, raisesAt);
      PollOutcome(delivery, sent, next)
  }

  // ---------------------------------------------------------------- ROM names

  const BaseFireRed: string := "pokemon red version"
  const BaseLeafGreen: string := "pokemon green version"

  datatype RomVersion = FireRed | LeafGreen | FireRedRev1 | LeafGreenRev1

  /** `EXPECTED_ROM_NAME`. */
  function ExpectedName(v: RomVersion): string {
    match v
    case FireRed => "pokemon red version / AP"
    case LeafGreen => "pokemon green version / AP"
    case FireRedRev1 => "pokemon red version / AP Rev 1"
    case LeafGreenRev1 => "pokemon green version / AP Rev 1"
  }

  /** The outcomes of `validate_rom`; only `Accepted` returns `True`.
      `Accepted(None)` keeps the version the client had before. */
  datatype RomCheck = ReadFailed | NotAscii | NotFrlg | Unpatched | Incompatible | Accepted(version: Option<RomVersion>)

  /** The ROM-name bytes with the zero bytes dropped. */
  function NonZero(raw: seq<Byte>): (r: seq<Byte>)
    ensures forall i :: 0 <= i < |r| ==> r[i] != 0
    ensures forall b :: b in r <==> b in raw && b != 0
  {
    if |raw| == 0 then []
    else
      assert forall b :: b in raw <==> b == raw[0] || b in raw[1..];
      (if raw[0] != 0 then [raw[0]] else []) + NonZero(raw[1..])
  }

  /** `bytes.decode("ascii")`; `None` is the `UnicodeDecodeError`. */
  function Ascii(bytes: seq<Byte>): (r: Option<string>)
    ensures r.Some? <==> forall i :: 0 <= i < |bytes| ==> bytes[i] < 128
    ensures r.Some? ==> |r.value| == |bytes| && forall i :: 0 <= i < |bytes| ==> r.value[i] as int == bytes[i]
  {
    if forall i :: 0 <= i < |bytes| ==> bytes[i] < 128 then
      Some(seq(|bytes|, i requires 0 <= i < |bytes| && bytes[i] < 128 => bytes[i] as char))
    else None
  }

  /** The name `validate_rom` compares: the read bytes without their zeros,
      decoded as ASCII. */
  function RomName(read: seq<Byte>): Option<string> {
    Ascii(NonZero(read))
  }

  /** A name with an archipelago prefix has the base prefix of its game and is
      longer than either base name. */
  lemma ExpectedPrefixes(name: string)
    ensures StartsWith(name, ExpectedName(FireRed)) ==>
      StartsWith(name, BaseFireRed) && name != BaseFireRed && name != BaseLeafGreen
    ensures StartsWith(name, ExpectedName(LeafGreen)) ==>
      StartsWith(name, BaseLeafGreen) && name != BaseFireRed && name != BaseLeafGreen
  {
    assert ExpectedName(FireRed)[..|BaseFireRed|] == BaseFireRed;
    assert ExpectedName(LeafGreen)[..|BaseLeafGreen|] == BaseLeafGreen;
    if StartsWith(name, ExpectedName(FireRed)) {
      assert name[..|BaseFireRed|] == name[..|ExpectedName(FireRed)|][..|BaseFireRed|];
    }
    if StartsWith(name, ExpectedName(LeafGreen)) {
      assert name[..|BaseLeafGreen|] == name[..|ExpectedName(LeafGreen)|][..|BaseLeafGreen|];
    }
  }

  /** Each expected name has the archipelago prefix of its game, and no two
      are equal. */
  lemma ExpectedNamesDiffer(v: RomVersion, w: RomVersion)
    ensures StartsWith(ExpectedName(v), ExpectedName(FireRed)) || StartsWith(ExpectedName(v), ExpectedName(LeafGreen))
    ensures ExpectedName(v) == ExpectedName(w) ==> v == w
  {
    assert ExpectedName(FireRedRev1)[..|ExpectedName(FireRed)|] == ExpectedName(FireRed);
    assert ExpectedName(LeafGreenRev1)[..|ExpectedName(LeafGreen)|] == ExpectedName(LeafGreen);
  }

  /** The name checks of `validate_rom`, in order: a base Fire Red or Leaf
      Green prefix, not the bare base name, then an archipelago prefix; the
      version is recorded on an exact match only. */
  function ClassifyRom(read: Option<seq<Byte>>): (r: RomCheck)
    ensures r.Accepted? <==> (read.Some? && RomName(read.value).Some? &&
      (StartsWith(RomName(read.value).value, ExpectedName(FireRed)) ||
       StartsWith(RomName(read.value).value, ExpectedName(LeafGreen))))
    ensures r == Unpatched <==> (read.Some? && RomName(read.value).Some? &&
      (RomName(read.value).value == BaseFireRed || RomName(read.value).value == BaseLeafGreen))
    ensures r.Accepted? ==> forall v :: r.version == Some(v) <==> RomName(read.value) == Some(ExpectedName(v))
  {
    if read.None? then ReadFailed
    else
      match RomName(read.value)
      case None => NotAscii
      case Some(name) =>
        ExpectedPrefixes(name);
        if !(StartsWith(name, BaseFireRed) || StartsWith(name, BaseLeafGreen)) then NotFrlg
        else if name == BaseFireRed || name == BaseLeafGreen then Unpatched
        else if !(StartsWith(name, ExpectedName(FireRed)) || StartsWith(name, ExpectedName(LeafGreen))) then Incompatible
        else
          var version :=
            if name == ExpectedName(FireRed) then Some(FireRed)
            else if name == ExpectedName(LeafGreen) then Some(LeafGreen)
            else if name == ExpectedName(FireRedRev1) then Some(FireRedRev1)
            else if name == ExpectedName(LeafGreenRev1) then Some(LeafGreenRev1)
            else None;
          assert forall v, w :: ExpectedName(v) == ExpectedName(w) ==> v == w by {
            forall v, w ensures ExpectedName(v) == ExpectedName(w) ==> v == w {
              ExpectedNamesDiffer(v, w);
            }
          }
          Accepted(version)
  }

  /** The low bytes of a name's characters, padded with zeros to the ROM
      field: its ASCII bytes when it is ASCII. */
  function Encode(name: string, padding: nat): (r: seq<Byte>)
    ensures |r| == |name| + padding
  {
    seq(|name|, i requires 0 <= i < |name| => ((name[i] as int) % 256) as Byte) + seq(padding, _ => 0)
  }

  lemma {:induction false} NonZeroOfEncode(name: string, padding: nat)
    requires forall i :: 0 <= i < |name| ==> 0 < name[i] as int < 128
    ensures NonZero(Encode(name, padding)) == seq(|name|, i requires 0 <= i < |name| => name[i] as int as Byte)
  {
    var text := seq(|name|, i requires 0 <= i < |name| => name[i] as int as Byte);
    assert Encode(name, padding) == text + seq(padding, _ => 0);
    NonZeroOfZeros(padding);
    NonZeroOfText(text);
    NonZeroAppend(text, seq(padding, _ => 0));
  }

  lemma {:induction false} NonZeroOfZeros(n: nat)
    ensures NonZero(seq(n, _ => 0)) == []
  {
    if n > 0 {
      assert seq(n, _ => 0)[1..] == seq(n - 1, _ => 0);
      NonZeroOfZeros(n - 1);
    }
  }

  lemma {:induction false} NonZeroOfText(text: seq<Byte>)
    requires forall i :: 0 <= i < |text| ==> text[i] != 0
    ensures NonZero(text) == text
  {
    if |text| > 0 {
      NonZeroOfText(text[1..]);
    }
  }

  lemma {:induction false} NonZeroAppend(a: seq<Byte>, b: seq<Byte>)
    ensures NonZero(a + b) == NonZero(a) + NonZero(b)
  {
    if |a| > 0 {
      assert (a + b)[1..] == a[1..] + b;
      NonZeroAppend(a[1..], b);
    } else {
      assert a + b == b;
    }
  }

  /** Every expected name, padded with zeros, is accepted as its own version. */
  lemma ExpectedNamesAccepted(v: RomVersion, padding: nat)
    ensures ClassifyRom(Some(Encode(ExpectedName(v), padding))) == Accepted(Some(v))
  {
    ExpectedNameAscii(v);
    AsciiOfEncode(ExpectedName(v), padding);
    AcceptedExactly(Encode(ExpectedName(v), padding), v);
  }

  lemma ExpectedNameAscii(v: RomVersion)
    ensures forall i :: 0 <= i < |ExpectedName(v)| ==> 0 < ExpectedName(v)[i] as int < 128
  {
    match v
    case FireRed =>
    case LeafGreen =>
    case FireRedRev1 =>
    case LeafGreenRev1 =>
  }

  lemma AcceptedExactly(read: seq<Byte>, v: RomVersion)
    requires RomName(read) == Some(ExpectedName(v))
    ensures ClassifyRom(Some(read)) == Accepted(Some(v))
  {
    ExpectedNamesDiffer(v, v);
    var r := ClassifyRom(Some(read));
    assert r.Accepted?;
    assert r.version == Some(v);
  }

  /** The bare base names, padded with zeros, are the unpatched ROMs. */
  lemma BaseNamesUnpatched(padding: nat)
    ensures ClassifyRom(Some(Encode(BaseFireRed, padding))) == Unpatched
    ensures ClassifyRom(Some(Encode(BaseLeafGreen, padding))) == Unpatched
  {
    AsciiOfEncode(BaseFireRed, padding);
    AsciiOfEncode(BaseLeafGreen, padding);
  }

  lemma AsciiOfEncode(name: string, padding: nat)
    requires forall i :: 0 <= i < |name| ==> 0 < name[i] as int < 128
    ensures RomName(Encode(name, padding)) == Some(name)
  {
    NonZeroOfEncode(name, padding);
    var text := NonZero(Encode(name, padding));
    assert Ascii(text).value == name;
  }
}

=== FILE: draws.dfy ===
/** The randomizer's calls into Python's `Random`, with every draw supplied by
    the caller. A draw is any natural number; a call uses it modulo the size of
    the range it draws from, so quantifying over draws covers every outcome the
    generator can produce. */
module Draws {
  import opened Wrappers
  import opened Seqs

  /** `random.choice(xs)`; `None` is the `IndexError` on an empty list. */
  function Choice<T>(xs: seq<T>, d: nat): (r: Option<T>)
    ensures r.Some? <==> |xs| > 0
    ensures r.Some? ==> r.value in xs
  {
    if |xs| == 0 then None else Some(xs[d % |xs|])
  }

  /** `random.choice(xs)` on a list known to be non-empty. */
  function Pick<T>(xs: seq<T>, d: nat): (r: T)
    requires |xs| > 0
    ensures r in xs
    ensures Choice(xs, d) == Some(r)
  {
    xs[d % |xs|]
  }

  /** Every element of a non-empty list is a possible choice. */
  lemma ChoiceReachesAll<T>(xs: seq<T>, k: nat)
    requires k < |xs|
    ensures Choice(xs, k) == Some(xs[k]) && Pick(xs, k) == xs[k]
  {
  }

  function Swap<T>(xs: seq<T>, i: nat, j: nat): (r: seq<T>)
    requires i < |xs| && j < |xs|
    ensures |r| == |xs| && r[i] == xs[j] && r[j] == xs[i]
    ensures forall k :: 0 <= k < |xs| && k != i && k != j ==> r[k] == xs[k]
    ensures multiset(r) == multiset(xs)
  {
    if i == j then xs
    else
      var r := xs[i := xs[j]][j := xs[i]];
      assert multiset(xs[i := xs[j]]) == multiset(xs) - multiset{xs[i]} + multiset{xs[j]};
      r
  }

  /** The steps of `random.shuffle` for positions `n - 1` down to `1`: position
      `i` is swapped with position `draws(i) % (i + 1)`. */
  function ShuffleDown<T>(xs: seq<T>, n: nat, draws: nat -> nat): (r: seq<T>)
    requires n <= |xs|
    ensures |r| == |xs|
    ensures multiset(r) == multiset(xs)
    decreases n
  {
    if n <= 1 then xs
    else ShuffleDown(Swap(xs, n - 1, draws(n - 1) % n), n - 1, draws)
  }

  /** `random.shuffle(xs)` (Fisher-Yates). */
  function Shuffle<T>(xs: seq<T>, draws: nat -> nat): (r: seq<T>)
    ensures |r| == |xs|
    ensures multiset(r) == multiset(xs)
  {
    ShuffleDown(xs, |xs|, draws)
  }

  function Remove<T>(xs: seq<T>, i: nat): (r: seq<T>)
    requires i < |xs|
    ensures |r| == |xs| - 1
    ensures multiset(r) == multiset(xs) - multiset{xs[i]}
  {
    assert xs == xs[..i] + [xs[i]] + xs[i + 1..];
    xs[..i] + xs[i + 1..]
  }

  /** `random.sample(xs, k)`: `k` entries at distinct positions of `xs`, in draw
      order; `None` is the `ValueError` when `k` exceeds the population. */
  function Sample<T>(xs: seq<T>, k: nat, draws: nat -> nat): (r: Option<seq<T>>)
    ensures r.Some? <==> k <= |xs|
    ensures r.Some? ==> |r.value| == k && multiset(r.value) <= multiset(xs)
    decreases k
  {
    if k > |xs| then None
    else if k == 0 then Some([])
    else
      var i := draws(0) % |xs|;
      var rest := Sample(Remove(xs, i), k - 1, n => draws(n + 1));
      Some([xs[i]] + rest.value)
  }

  /** A sample of a list without repeats has no repeats. */
  lemma SampleDistinct<T>(xs: seq<T>, k: nat, draws: nat -> nat)
    requires Distinct(xs) && k <= |xs|
    ensures Distinct(Sample(xs, k, draws).value)
  {
    var s := Sample(xs, k, draws).value;
    forall x
      ensures multiset(s)[x] <= 1
    {
      DistinctMultiplicity(xs, x);
    }
    forall i, j | 0 <= i < j < |s|
      ensures s[i] != s[j]
    {
      if s[i] == s[j] {
        TwoOccurrences(s, i, j);
      }
    }
  }
}

=== FILE: loading.dfy ===
/** The checks `_init` runs over already-parsed JSON while building the static
    data: region files merged without repeated names, locations and encoded warps
    claimed by exactly one region, sorted per-region lists, item classification
    names, the pre-evolution back-links and the misc-Pokémon level. */
module Loading {
  import opened Wrappers
  import opened Seqs
  import opened Strings
  import opened Species
  import Warps

  datatype LoadError =
    | DuplicateRegion(name: string)
    | DuplicateLocation(location: string)
    | DuplicateWarp(encoded: string)
    | BadWarp(encoded: string, why: Warps.DecodeError)
    | UnknownClassification(item: string, classification: string)
    | MissingSpecies(speciesId: int)

  /** Adds `items` one at a time to `claimed`, stopping at the first one that is
      already there (the `AssertionError` of a double claim). */
  function Claim(items: seq<string>, claimed: set<string>): (r: Result<set<string>, string>)
    ensures r.Success? <==> Distinct(items) && forall x :: x in items ==> x !in claimed
    ensures r.Success? ==> r.value == claimed + (set x | x in items)
    ensures r.Failure? ==> r.error in items
    decreases |items|
  {
    if |items| == 0 then Success(claimed)
    else if items[0] in claimed then Failure(items[0])
    else
      assert items == [items[0]] + items[1..];
      DistinctConcat([items[0]], items[1..]);
      Claim(items[1..], claimed + {items[0]})
  }

  // ---------------------------------------------------------------- regions

  datatype RegionJson = RegionJson(
    name: string,
    parentMap: string,
    locations: seq<string>,
    events: seq<string>,
    exits: seq<string>,
    warps: seq<string>)

  function Names(entries: seq<(string, RegionJson)>): (r: seq<string>)
    ensures |r| == |entries|
    ensures forall i :: 0 <= i < |entries| ==> r[i] == entries[i].0
  {
    seq(|entries|, i requires 0 <= i < |entries| => entries[i].0)
  }

  /** Region files are merged in order into one dict; a region name defined in
      two files is an `AssertionError`. */
  function MergeRegionFiles(files: seq<seq<(string, RegionJson)>>): (r: Result<seq<(string, RegionJson)>, LoadError>)
    ensures r.Success? <==> Distinct(Names(Flatten(files)))
    ensures r.Success? ==> r.value == Flatten(files)
    ensures r.Failure? ==> r.error.DuplicateRegion? && r.error.name in Names(Flatten(files))
  {
    var all := Flatten(files);
    match Claim(Names(all), {})
    case Success(_) => Success(all)
    case Failure(name) => Failure(DuplicateRegion(name))
  }

  datatype Region = Region(
    id: string,
    name: string,
    parentMap: string,
    locations: seq<string>,
    events: seq<string>,
    exits: seq<string>,
    warps: seq<string>)

  datatype PlacedWarp = PlacedWarp(warp: Warps.Warp, parentRegion: string)

  datatype Loaded = Loaded(
    regions: seq<Region>,
    claimedLocations: set<string>,
    claimedWarps: set<string>,
    locationRegion: map<string, string>,
    warps: map<string, PlacedWarp>)

  lemma LexLePreorder()
    ensures TotalPreorder(LexLe)
  {
    forall a: string, b: string
      ensures LexLe(a, b) || LexLe(b, a)
    {
      LexLeTotal(a, b);
    }
    forall a: string, b: string, c: string | LexLe(a, b) && LexLe(b, c)
      ensures LexLe(a, c)
    {
      LexLeTransitive(a, b, c);
    }
  }

  /** `list.sort()` on strings. */
  function SortStrings(xs: seq<string>): (r: seq<string>)
    ensures SortedBy(r, LexLe) && multiset(r) == multiset(xs)
  {
    LexLePreorder();
    SortBy(xs, LexLe)
  }

  /** Claims and decodes a region's warps in order: a warp claimed before is an
      `AssertionError`, one that does not decode a `ValueError`. */
  function ClaimWarps(items: seq<string>, claimed: set<string>,
                      decode: Decoder): (r: Result<set<string>, LoadError>)
    ensures r.Success? <==>
      && Distinct(items)
      && (forall x :: x in items ==> x !in claimed)
      && (forall x :: x in items ==> decode(x).Success?)
    ensures r.Success? ==> r.value == claimed + (set x | x in items)
    decreases |items|
  {
    if |items| == 0 then Success(claimed)
    else if items[0] in claimed then Failure(DuplicateWarp(items[0]))
    else if decode(items[0]).Failure? then Failure(BadWarp(items[0], decode(items[0]).error))
    else
      assert items == [items[0]] + items[1..];
      DistinctConcat([items[0]], items[1..]);
      ClaimWarps(items[1..], claimed + {items[0]}, decode)
  }

  /** The region an entry builds: its lists sorted, everything else as read. */
  predicate RegionFrom(region: Region, entry: (string, RegionJson)) {
    && region.id == entry.0
    && region.name == entry.1.name
    && region.parentMap == entry.1.parentMap
    && region.exits == entry.1.exits
    && SortedBy(region.locations, LexLe) && multiset(region.locations) == multiset(entry.1.locations)
    && SortedBy(region.events, LexLe) && multiset(region.events) == multiset(entry.1.events)
    && SortedBy(region.warps, LexLe) && multiset(region.warps) == multiset(entry.1.warps)
  }

  function MakeRegion(entry: (string, RegionJson)): (r: Region)
    ensures RegionFrom(r, entry)
  {
    var (id, json) := entry;
    Region(id, json.name, json.parentMap, SortStrings(json.locations),
           SortStrings(json.events), json.exits, SortStrings(json.warps))
  }

  /** The warp decoder. The loop is stated for any decoder so that proofs about
      claims need not unfold the grammar; `LoadRegions` instantiates it with
      `Warps.Decode`. */
  type Decoder = string -> Result<Warps.Warp, Warps.DecodeError>

  /** One iteration of the region loop. */
  function BuildRegion(prev: Loaded, entry: (string, RegionJson), decode: Decoder): (r: Result<Loaded, LoadError>)
    ensures r.Success? ==> r.value.regions == prev.regions + [MakeRegion(entry)]
  {
    var (id, json) := entry;
    match Claim(json.locations, prev.claimedLocations)
    case Failure(location) => Failure(DuplicateLocation(location))
    case Success(locations) =>
      var locationRegion := prev.locationRegion + map x | x in json.locations :: id;
      match ClaimWarps(json.warps, prev.claimedWarps, decode)
      case Failure(e) => Failure(e)
      case Success(claimed) =>
        var placed := prev.warps + map x | x in json.warps && decode(x).Success? ::
          PlacedWarp(decode(x).value, id);
        Success(Loaded(prev.regions + [MakeRegion(entry)], locations, claimed, locationRegion, placed))
  }

  /** A region is admitted exactly when its own lists repeat nothing, nothing in
      them was claimed before, and each of its warps decodes. */
  lemma BuildRegionSucceeds(prev: Loaded, entry: (string, RegionJson), decode: Decoder)
    ensures BuildRegion(prev, entry, decode).Success? <==>
      && Distinct(entry.1.locations) && (forall x :: x in entry.1.locations ==> x !in prev.claimedLocations)
      && Distinct(entry.1.warps) && (forall x :: x in entry.1.warps ==> x !in prev.claimedWarps)
      && (forall x :: x in entry.1.warps ==> decode(x).Success?)
  {
  }

  /** What an admitted region adds: its claims, and back-links from its
      locations and warps to itself; earlier entries are kept. */
  lemma BuildRegionClaims(prev: Loaded, entry: (string, RegionJson), decode: Decoder)
    requires BuildRegion(prev, entry, decode).Success?
    ensures var r := BuildRegion(prev, entry, decode).value;
      && (forall x :: x in r.claimedLocations <==> x in prev.claimedLocations || x in entry.1.locations)
      && (forall x :: x in r.claimedWarps <==> x in prev.claimedWarps || x in entry.1.warps)
      && (forall x :: x in entry.1.locations ==> x in r.locationRegion && r.locationRegion[x] == entry.0)
      && (forall x :: x in prev.locationRegion && x !in entry.1.locations ==>
            x in r.locationRegion && r.locationRegion[x] == prev.locationRegion[x])
      && (forall x :: x in entry.1.warps ==>
            decode(x).Success? && x in r.warps && r.warps[x] == PlacedWarp(decode(x).value, entry.0))
      && (forall x :: x in prev.warps && x !in entry.1.warps ==> x in r.warps && r.warps[x] == prev.warps[x])
  {
    BuildRegionSucceeds(prev, entry, decode);
  }

  /** Every location claim, region by region, in loop order. */
  function AllLocations(rs: seq<(string, RegionJson)>): seq<string> {
    if |rs| == 0 then [] else AllLocations(rs[..|rs| - 1]) + rs[|rs| - 1].1.locations
  }

  /** Every warp claim, region by region, in loop order. */
  function AllWarps(rs: seq<(string, RegionJson)>): seq<string> {
    if |rs| == 0 then [] else AllWarps(rs[..|rs| - 1]) + rs[|rs| - 1].1.warps
  }

  const NothingLoaded := Loaded([], {}, {}, map[], map[])

  /** The region loop of `_init` over the merged region dict. */
  function BuildRegions(rs: seq<(string, RegionJson)>, decode: Decoder): (r: Result<Loaded, LoadError>)
    ensures r.Success? ==> |r.value.regions| == |rs|
    decreases |rs|
  {
    if |rs| == 0 then Success(NothingLoaded)
    else
      var init := rs[..|rs| - 1];
      var last := rs[|rs| - 1];
      match BuildRegions(init, decode)
      case Failure(e) => Failure(e)
      case Success(prev) =>
        BuildRegion(prev, last, decode)
  }

  /** Region `i` of the result is built from entry `i`: its lists sorted. */
  lemma {:induction false} RegionsBuilt(rs: seq<(string, RegionJson)>, decode: Decoder, i: nat)
    requires BuildRegions(rs, decode).Success? && i < |rs|
    ensures BuildRegions(rs, decode).value.regions[i] == MakeRegion(rs[i])
    ensures RegionFrom(BuildRegions(rs, decode).value.regions[i], rs[i])
    decreases |rs|
  {
    var init := rs[..|rs| - 1];
    if i < |rs| - 1 {
      assert init[i] == rs[i];
      RegionsBuilt(init, decode, i);
    }
  }

  /** The claimed sets are exactly the locations and warps of every region so far. */
  lemma {:induction false} ClaimedSets(rs: seq<(string, RegionJson)>, decode: Decoder)
    requires BuildRegions(rs, decode).Success?
    ensures forall x :: x in BuildRegions(rs, decode).value.claimedLocations <==> x in AllLocations(rs)
    ensures forall x :: x in BuildRegions(rs, decode).value.claimedWarps <==> x in AllWarps(rs)
    decreases |rs|
  {
    if |rs| > 0 {
      ClaimedSets(rs[..|rs| - 1], decode);
      BuildRegionClaims(BuildRegions(rs[..|rs| - 1], decode).value, rs[|rs| - 1], decode);
    }
  }

  /** Loading succeeds exactly when no location and no encoded warp is claimed
      twice (within a region or across regions) and every warp decodes. */
  lemma {:induction false} BuildRegionsSucceeds(rs: seq<(string, RegionJson)>, decode: Decoder)
    ensures BuildRegions(rs, decode).Success? <==>
      && Distinct(AllLocations(rs))
      && Distinct(AllWarps(rs))
      && forall i, x :: 0 <= i < |rs| && x in rs[i].1.warps ==> decode(x).Success?
    decreases |rs|
  {
    if |rs| > 0 {
      var init := rs[..|rs| - 1];
      var last := rs[|rs| - 1];
      BuildRegionsSucceeds(init, decode);
      if BuildRegions(init, decode).Success? {
        ClaimedSets(init, decode);
        BuildRegionSucceeds(BuildRegions(init, decode).value, last, decode);
      }
      DistinctConcat(AllLocations(init), last.1.locations);
      DistinctConcat(AllWarps(init), last.1.warps);
      assert rs == init + [last];
      WarpsDecodeSplit(rs, init, last, decode);
    }
  }

  /** Every warp of `rs` decodes iff every warp of all but the last region
      does and every warp of the last one does. */
  lemma WarpsDecodeSplit(rs: seq<(string, RegionJson)>, init: seq<(string, RegionJson)>, last: (string, RegionJson), decode: Decoder)
    requires rs == init + [last]
    ensures (forall i, x :: 0 <= i < |rs| && x in rs[i].1.warps ==> decode(x).Success?) <==>
      && (forall i, x :: 0 <= i < |init| && x in init[i].1.warps ==> decode(x).Success?)
      && (forall x :: x in last.1.warps ==> decode(x).Success?)
  {
    assert forall i :: 0 <= i < |init| ==> init[i] == rs[i];
    assert rs[|init|] == last;
  }

  /** The region loop with the grammar of `Warp.decode` as its decoder: it
      succeeds exactly when nothing is claimed twice and every warp parses. */
  function LoadRegions(rs: seq<(string, RegionJson)>): (r: Result<Loaded, LoadError>)
    ensures r.Success? <==>
      && Distinct(AllLocations(rs))
      && Distinct(AllWarps(rs))
      && forall i, x :: 0 <= i < |rs| && x in rs[i].1.warps ==> Warps.Decode(x).Success?
  {
    BuildRegionsSucceeds(rs, Warps.Decode);
    BuildRegions(rs, Warps.Decode)
  }

  /** Every claimed location points back at the region that claimed it. */
  lemma {:induction false} LocationsPointToTheirRegion(rs: seq<(string, RegionJson)>, decode: Decoder, i: nat, x: string)
    requires BuildRegions(rs, decode).Success?
    requires i < |rs| && x in rs[i].1.locations
    ensures x in BuildRegions(rs, decode).value.locationRegion
    ensures BuildRegions(rs, decode).value.locationRegion[x] == rs[i].0
    decreases |rs|
  {
    var init := rs[..|rs| - 1];
    var last := rs[|rs| - 1];
    var prev := BuildRegions(init, decode).value;
    BuildRegionClaims(prev, last, decode);
    if i < |rs| - 1 {
      assert init[i] == rs[i];
      ClaimedSets(init, decode);
      LocationsPointToTheirRegion(init, decode, i, x);
      BuildRegionsSucceeds(rs, decode);
      DistinctConcat(AllLocations(init), last.1.locations);
      ClaimedLocation(init, i, x);
      assert x !in last.1.locations;
      assert x in prev.locationRegion && prev.locationRegion[x] == rs[i].0;
    }
  }

  lemma {:induction false} ClaimedLocation(rs: seq<(string, RegionJson)>, i: nat, x: string)
    requires i < |rs| && x in rs[i].1.locations
    ensures x in AllLocations(rs)
    decreases |rs|
  {
    var init := rs[..|rs| - 1];
    if i < |rs| - 1 {
      assert init[i] == rs[i];
      ClaimedLocation(init, i, x);
    }
  }

  // ---------------------------------------------------------------- items

  datatype Classification = Progression | Useful | Filler | Trap

  function ClassificationName(c: Classification): string {
    match c
    case Progression => "PROGRESSION"
    case Useful => "USEFUL"
    case Filler => "FILLER"
    case Trap => "TRAP"
  }

  /** The classification string of an item entry; anything but the four names
      is a `ValueError`. */
  function Classify(item: string, name: string): (r: Result<Classification, LoadError>)
    ensures r.Success? <==> name in {"PROGRESSION", "USEFUL", "FILLER", "TRAP"}
    ensures r.Success? ==> ClassificationName(r.value) == name
    ensures r.Failure? ==> r.error == UnknownClassification(item, name)
  {
    if name == "PROGRESSION" then Success(Progression)
    else if name == "USEFUL" then Success(Useful)
    else if name == "FILLER" then Success(Filler)
    else if name == "TRAP" then Success(Trap)
    else Failure(UnknownClassification(item, name))
  }

  lemma ClassifyRoundTrip(item: string, c: Classification)
    ensures Classify(item, ClassificationName(c)) == Success(c)
  {
  }

  // ---------------------------------------------------------------- pre-evolutions

  /** The evolution edges of one species, `(parent id, target id)`, in order. */
  function PairsOf(s: Species): (r: seq<(int, int)>)
    ensures forall p :: p in r <==> exists e :: e in s.evolutions && p == (s.id, e.speciesId)
  {
    var r := seq(|s.evolutions|, i requires 0 <= i < |s.evolutions| => (s.id, s.evolutions[i].speciesId));
    assert forall e :: e in s.evolutions ==> (s.id, e.speciesId) in r by {
      forall e | e in s.evolutions
        ensures (s.id, e.speciesId) in r
      {
        var i :| 0 <= i < |s.evolutions| && s.evolutions[i] == e;
        assert r[i] == (s.id, e.speciesId);
      }
    }
    r
  }

  /** Every evolution edge of the table, in the order the linking loop visits them. */
  function EvolutionPairs(dex: Dex): (r: seq<(int, int)>)
    ensures forall p :: p in r <==> exists s :: s in dex && p in PairsOf(s)
  {
    if |dex| == 0 then []
    else
      var init := dex[..|dex| - 1];
      assert forall s :: s in dex <==> s in init || s == dex[|dex| - 1];
      EvolutionPairs(init) + PairsOf(dex[|dex| - 1])
  }

  /** The parent of the last edge into `target`: the last writer of the back-link. */
  function LastParent(pairs: seq<(int, int)>, target: int): (r: Option<int>)
    ensures r.Some? <==> exists p :: p in pairs && p.1 == target
    ensures r.Some? ==> (r.value, target) in pairs
    ensures r.Some? ==> exists i :: 0 <= i < |pairs| && pairs[i] == (r.value, target) && LastInto(pairs, target, i)
  {
    if |pairs| == 0 then None
    else if pairs[|pairs| - 1].1 == target then
      assert LastInto(pairs, target, |pairs| - 1);
      Some(pairs[|pairs| - 1].0)
    else
      var init := pairs[..|pairs| - 1];
      assert forall p :: p in pairs <==> p in init || p == pairs[|pairs| - 1];
      var r := LastParent(init, target);
      if r.Some? then
        var i :| 0 <= i < |init| && init[i] == (r.value, target) && LastInto(init, target, i);
        assert pairs[i] == init[i];
        assert LastInto(pairs, target, i);
        r
      else r
  }

  /** No edge after position `i` enters `target`. */
  predicate LastInto(pairs: seq<(int, int)>, target: int, i: nat) {
    forall j :: i < j < |pairs| ==> pairs[j].1 != target
  }

  /** The back-link a species ends with. */
  function LinkedPre(pairs: seq<(int, int)>, s: Species): Option<int> {
    match LastParent(pairs, s.id)
    case None => s.preEvolution
    case Some(p) => Some(p)
  }

  /** `data.species[target].pre_evolution = parent`. */
  function SetPre(table: Dex, target: int, parent: int): (r: Result<Dex, LoadError>)
    ensures r.Success? <==> HasId(table, target)
    ensures r.Success? ==> |r.value| == |table|
    ensures r.Success? ==> forall k :: 0 <= k < |table| ==>
      r.value[k] == (if table[k].id == target then table[k].(preEvolution := Some(parent)) else table[k])
  {
    if !HasId(table, target) then Failure(MissingSpecies(target))
    else Success(seq(|table|, k requires 0 <= k < |table| =>
      if table[k].id == target then table[k].(preEvolution := Some(parent)) else table[k]))
  }

  function LinkPairs(table: Dex, pairs: seq<(int, int)>): (r: Result<Dex, LoadError>)
    ensures r.Success? <==> forall p :: p in pairs ==> HasId(table, p.1)
    ensures r.Success? ==> |r.value| == |table|
    ensures r.Success? ==> forall k :: 0 <= k < |table| ==>
      r.value[k] == table[k].(preEvolution := LinkedPre(pairs, table[k]))
    decreases |pairs|
  {
    if |pairs| == 0 then Success(table)
    else
      var init := pairs[..|pairs| - 1];
      var last := pairs[|pairs| - 1];
      assert forall p :: p in pairs <==> p in init || p == last;
      match LinkPairs(table, init)
      case Failure(e) => Failure(e)
      case Success(linked) =>
        assert forall k :: 0 <= k < |table| ==> linked[k].id == table[k].id;
        assert HasId(linked, last.1) <==> HasId(table, last.1) by {
          if HasId(table, last.1) {
            var k :| 0 <= k < |table| && table[k].id == last.1;
            assert linked[k].id == last.1;
          }
        }
        SetPre(linked, last.1, last.0)
  }

  /** The back-link pass: for every species in table order and every evolution of
      it, the target's `pre_evolution` becomes the species' id. A target missing
      from the table is a `KeyError`. */
  function LinkPreEvolutions(dex: Dex): (r: Result<Dex, LoadError>)
    ensures r.Success? <==> forall s, e :: s in dex && e in s.evolutions ==> HasId(dex, e.speciesId)
    ensures r.Success? ==> |r.value| == |dex|
    ensures r.Success? ==> forall k :: 0 <= k < |dex| ==>
      r.value[k] == dex[k].(preEvolution := LinkedPre(EvolutionPairs(dex), dex[k]))
  {
    var pairs := EvolutionPairs(dex);
    var r := LinkPairs(dex, pairs);
    assert r.Success? <==> forall s, e :: s in dex && e in s.evolutions ==> HasId(dex, e.speciesId) by {
      if r.Success? {
        forall s, e | s in dex && e in s.evolutions
          ensures HasId(dex, e.speciesId)
        {
          assert (s.id, e.speciesId) in PairsOf(s);
        }
      }
    }
    r
  }

  /** After linking, the target of every evolution points back at a species that
      evolves into it: the parent of the last edge into it, in table order;
      when that species is the target's only parent, at it. */
  lemma LinkedTargetsPointBack(dex: Dex, s: Species, e: Evolution, k: nat)
    requires LinkPreEvolutions(dex).Success?
    requires s in dex && e in s.evolutions
    requires k < |dex| && dex[k].id == e.speciesId
    ensures var linked := LinkPreEvolutions(dex).value[k];
      linked.preEvolution.Some? &&
      exists p :: p in dex && p.id == linked.preEvolution.value &&
        exists f :: f in p.evolutions && f.speciesId == e.speciesId
    ensures (forall p, f :: p in dex && f in p.evolutions && f.speciesId == e.speciesId ==> p.id == s.id) ==>
      LinkPreEvolutions(dex).value[k].preEvolution == Some(s.id)
  {
    var pairs := EvolutionPairs(dex);
    assert (s.id, e.speciesId) in PairsOf(s);
    var parent := LastParent(pairs, e.speciesId).value;
    assert (parent, e.speciesId) in pairs;
    var p :| p in dex && (parent, e.speciesId) in PairsOf(p);
  }

  /** The back-link of an evolution target is written by the last edge into
      it in table order: it is `LastParent` of the edge list, whose contract
      says no later edge enters the same target. */
  lemma LinkedByLastEdge(dex: Dex, s: Species, e: Evolution, k: nat)
    requires LinkPreEvolutions(dex).Success?
    requires s in dex && e in s.evolutions
    requires k < |dex| && dex[k].id == e.speciesId
    ensures LastParent(EvolutionPairs(dex), e.speciesId).Some?
    ensures LinkPreEvolutions(dex).value[k].preEvolution == LastParent(EvolutionPairs(dex), e.speciesId)
  {
    var pairs := EvolutionPairs(dex);
    EdgeListed(dex, s, e);
    var linked := LinkPreEvolutions(dex).value;
    assert linked[k] == dex[k].(preEvolution := LinkedPre(pairs, dex[k]));
  }

  /** Every evolution of a species in the table is one of its listed edges. */
  lemma EdgeListed(dex: Dex, s: Species, e: Evolution)
    requires s in dex && e in s.evolutions
    ensures (s.id, e.speciesId) in EvolutionPairs(dex)
  {
    assert (s.id, e.speciesId) in PairsOf(s);
  }

  /** A species that is nobody's evolution keeps the back-link it was built with. */
  lemma UnlinkedKeepPre(dex: Dex, k: nat)
    requires LinkPreEvolutions(dex).Success?
    requires k < |dex|
    requires forall s, e :: s in dex && e in s.evolutions ==> e.speciesId != dex[k].id
    ensures LinkPreEvolutions(dex).value[k].preEvolution == dex[k].preEvolution
  {
    var pairs := EvolutionPairs(dex);
    forall p | p in pairs
      ensures p.1 != dex[k].id
    {
      var s :| s in dex && p in PairsOf(s);
      var e :| e in s.evolutions && p == (s.id, e.speciesId);
    }
  }

  // ---------------------------------------------------------------- misc Pokémon

  datatype MiscPokemon = MiscPokemon(speciesId: int, level: Option<int>)

  /** A misc Pokémon's level as read: 0 means "no fixed level". */
  function MiscLevel(json: int): (r: Option<int>)
    ensures r.None? <==> json == 0
    ensures r.Some? ==> r.value == json
  {
    if json != 0 then Some(json) else None
  }

  /** The level as it is written to the JSON data. */
  function JsonLevel(level: Option<int>): int {
    match level
    case None => 0
    case Some(l) => l
  }

  lemma MiscLevelRoundTrip(json: int, level: Option<int>)
    ensures JsonLevel(MiscLevel(json)) == json
    ensures level != Some(0) ==> MiscLevel(JsonLevel(level)) == level
  {
  }
}

=== FILE: moves_pass.dfy ===
/** `randomize_moves` and its two draw helpers: every species' level-up learnset
    is rewritten move by move, keeping the levels. */
module MovesPass {
  import opened Wrappers
  import opened Seqs
  import opened Species
  import opened Draws
  import TypesPass

  /** The damaging moves, in the order the draw list enumerates them. */
  const DamagingMoves: seq<int> := [
    1, 2, 3, 4, 5, 6, 7, 8, 9, 10,
    11, 13, 16, 17, 20, 21, 22, 23, 24, 25,
    26, 27, 29, 30, 31, 33, 34, 35, 36, 37,
    38, 40, 41, 42, 44, 49, 51, 52, 53, 55,
    56, 58, 59, 60, 61, 62, 63, 64, 65, 66,
    67, 69, 71, 72, 75, 76, 80, 82, 83, 84,
    85, 87, 88, 89, 91, 93, 94, 98, 99, 101,
    121, 122, 123, 124, 125, 126, 128, 129, 130, 131,
    132, 136, 140, 141, 143, 145, 146, 149, 152, 154,
    155, 157, 158, 161, 162, 163, 167, 168, 172, 175,
    177, 179, 181, 183, 185, 188, 189, 190, 192, 196,
    198, 200, 202, 205, 209, 210, 211, 216, 217, 218,
    221, 222, 223, 224, 225, 228, 229, 231, 232, 233,
    237, 238, 239, 242, 245, 246, 247, 248, 250, 251,
    253, 257, 263, 265, 267, 276, 279, 280, 282, 284,
    290, 292, 295, 296, 299, 301, 302, 304, 305, 306,
    307, 308, 309, 310, 311, 314, 315, 317, 318, 323,
    324, 325, 326, 327, 328, 330, 331, 332, 333, 337,
    338, 340, 341, 342, 343, 344, 345, 348, 350, 351,
    352, 353, 354]

  /** Moves taught by HMs: never placed in a learnset. */
  const HmMoves: set<int> := {15, 19, 57, 70, 127, 148, 249, 291}

  /** `MOVE_NONE` and Struggle. */
  const MoveBlacklist: set<int> := {0, 165}

  /** A move `_get_random_move` may return for this blacklist. */
  predicate AllowedMove(m: int, movesCount: nat, blacklist: set<int>) {
    0 <= m < movesCount && m !in HmMoves && m !in MoveBlacklist && m !in blacklist
  }

  /** `_get_random_move`: a choice among `range(MOVES_COUNT)` less the HM moves,
      `MOVE_NONE`, Struggle and `blacklist`; `None` when nothing is left. */
  function RandomMove(movesCount: nat, blacklist: set<int>, d: nat): (r: Option<int>)
    ensures r.Some? <==> exists m :: 0 <= m < movesCount && AllowedMove(m, movesCount, blacklist)
    ensures r.Some? ==> AllowedMove(r.value, movesCount, blacklist)
  {
    var all := TypesPass.Range(movesCount);
    var allowed := Filter(all, m => AllowedMove(m, movesCount, blacklist));
    assert |allowed| > 0 <==> exists m :: 0 <= m < movesCount && AllowedMove(m, movesCount, blacklist) by {
      if |allowed| > 0 {
        assert allowed[0] in allowed;
      }
      if exists m :: 0 <= m < movesCount && AllowedMove(m, movesCount, blacklist) {
        var m :| 0 <= m < movesCount && AllowedMove(m, movesCount, blacklist);
        assert all[m] == m && all[m] in all;
        assert m in allowed;
      }
    }
    Choice(allowed, d)
  }

  /** `_get_random_damaging_move` over the list `damaging`: a choice among its
      moves not in `blacklist`. */
  function RandomDamagingMove(damaging: seq<int>, blacklist: set<int>, d: nat): (r: Option<int>)
    ensures r.Some? <==> exists m :: m in damaging && m !in blacklist
    ensures r.Some? ==> r.value in damaging && r.value !in blacklist
  {
    var allowed := Filter(damaging, m => m !in blacklist);
    assert |allowed| > 0 <==> exists m :: m in damaging && m !in blacklist by {
      if |allowed| > 0 {
        assert allowed[0] in allowed;
      }
      if exists m :: m in damaging && m !in blacklist {
        var m :| m in damaging && m !in blacklist;
        assert m in allowed;
      }
    }
    Choice(allowed, d)
  }

  /** The move ids of a learnset as a set. */
  function MoveIds(moves: seq<LearnsetMove>): (r: set<int>)
    ensures forall m :: m in r <==> exists k :: 0 <= k < |moves| && moves[k].moveId == m
  {
    set k | 0 <= k < |moves| :: moves[k].moveId
  }

  /** `IndexError` on a learnset without a nonzero move (the leading-zero scan
      runs off the end), or on a draw from an empty list at position `index`. */
  datatype MoveError = NoRealMove | NothingToDraw(index: nat)

  /** The number of leading `MOVE_NONE` slots. */
  function LeadingZeros(moves: seq<LearnsetMove>): (z: nat)
    ensures z <= |moves|
    ensures forall k :: 0 <= k < z ==> moves[k].moveId == 0
    ensures z < |moves| ==> moves[z].moveId != 0
  {
    if |moves| == 0 || moves[0].moveId != 0 then 0
    else 1 + LeadingZeros(moves[1..])
  }

  /** What slot `k` of a rewritten learnset may hold, `z` being the number of
      leading zero slots: a leading slot stays 0, or with `startWithFour` gets an
      allowed move; slot 3 after the leading ones gets a damaging move; every
      other slot gets an allowed move. */
  predicate SlotOk(
    k: nat, m: int, z: nat, startWithFour: bool, damaging: seq<int>, movesCount: nat, blacklist: set<int>)
  {
    if k < z then (if startWithFour then AllowedMove(m, movesCount, blacklist) else m == 0)
    else if k == 3 then m in damaging
    else AllowedMove(m, movesCount, blacklist)
  }

  /** No nonzero move appears twice. */
  predicate NoRepeatedMove(moves: seq<LearnsetMove>) {
    forall i, j :: 0 <= i < j < |moves| && moves[i].moveId != 0 ==> moves[i].moveId != moves[j].moveId
  }

  /** One species' learnset, `damaging` being the damaging-move list
      (`DamagingMoves` in the game). Slot `k` draws with `draws(k)`; each draw
      excludes the moves already placed. */
  method RandomizeLearnset(
    learnset: seq<LearnsetMove>, startWithFour: bool, damaging: seq<int>, movesCount: nat, blacklist: set<int>,
    draws: nat -> nat
  ) returns (r: Result<seq<LearnsetMove>, MoveError>)
    ensures r == Failure(NoRealMove) <==> forall k :: 0 <= k < |learnset| ==> learnset[k].moveId == 0
    ensures r.Success? ==> |r.value| == |learnset|
    ensures r.Success? ==> forall k :: 0 <= k < |learnset| ==> r.value[k].level == learnset[k].level
    ensures r.Success? ==> forall k :: 0 <= k < |learnset| ==>
      SlotOk(k, r.value[k].moveId, LeadingZeros(learnset), startWithFour, damaging, movesCount, blacklist)
    ensures r.Success? ==> NoRepeatedMove(r.value)
  {
    var z := LeadingZeros(learnset);
    if z == |learnset| {
      return Failure(NoRealMove);
    }
    var acc: seq<LearnsetMove> := [];
    var i := 0;
    while i < |learnset|
      invariant 0 <= i <= |learnset| && |acc| == i
      invariant forall k :: 0 <= k < i ==> acc[k].level == learnset[k].level
      invariant forall k :: 0 <= k < i ==> SlotOk(k, acc[k].moveId, z, startWithFour, damaging, movesCount, blacklist)
      invariant NoRepeatedMove(acc)
    {
      var used := MoveIds(acc);
      var m: Option<int>;
      if i < z {
        m := if startWithFour then RandomMove(movesCount, used + blacklist, draws(i)) else Some(0);
      } else if i == 3 {
        m := RandomDamagingMove(damaging, used, draws(i));
      } else {
        m := RandomMove(movesCount, used + blacklist, draws(i));
      }
      if m.None? {
        return Failure(NothingToDraw(i));
      }
      assert m.value != 0 ==> m.value !in used;
      acc := acc + [LearnsetMove(learnset[i].level, m.value)];
      i := i + 1;
    }
    return Success(acc);
  }

  datatype MovesMode = Vanilla | Randomized | StartWithFourMoves

  /** `randomize_moves`: every species' learnset in table order, species `k`
      drawing from `draws(k, _)`; the first failure stops the pass. */
  method RandomizeMoves(dex: Dex, mode: MovesMode, movesCount: nat, blacklist: set<int>, draws: (int, nat) -> nat)
    returns (r: Result<Dex, MoveError>)
    ensures mode == Vanilla ==> r == Success(dex)
    ensures r.Success? ==> |r.value| == |dex|
    ensures r.Success? ==> forall k :: 0 <= k < |dex| ==> r.value[k] == dex[k].(learnset := r.value[k].learnset)
    ensures r.Success? && mode != Vanilla ==> forall k :: 0 <= k < |dex| ==>
      var before, after := dex[k].learnset, r.value[k].learnset;
      && |after| == |before|
      && (forall i :: 0 <= i < |before| ==> after[i].level == before[i].level)
      && (forall i :: 0 <= i < |before| ==> SlotOk(i, after[i].moveId, LeadingZeros(before),
            mode == StartWithFourMoves, DamagingMoves, movesCount, blacklist))
      && NoRepeatedMove(after)
      && LeadingZeros(before) < |before|
  {
    if mode == Vanilla {
      return Success(dex);
    }
    var done: Dex := [];
    var k := 0;
    while k < |dex|
      invariant 0 <= k <= |dex| && |done| == k
      invariant forall j :: 0 <= j < k ==> done[j] == dex[j].(learnset := done[j].learnset)
      invariant forall j :: 0 <= j < k ==>
        var before, after := dex[j].learnset, done[j].learnset;
        && |after| == |before|
        && (forall i :: 0 <= i < |before| ==> after[i].level == before[i].level)
        && (forall i :: 0 <= i < |before| ==> SlotOk(i, after[i].moveId, LeadingZeros(before),
              mode == StartWithFourMoves, DamagingMoves, movesCount, blacklist))
        && NoRepeatedMove(after)
        && LeadingZeros(before) < |before|
    {
      var learnset := RandomizeLearnset(dex[k].learnset, mode == StartWithFourMoves, DamagingMoves,
        movesCount, blacklist, n => draws(k, n));
      if learnset.Failure? {
        return Failure(learnset.error);
      }
      done := done + [dex[k].(learnset := learnset.value)];
      k := k + 1;
    }
    return Success(done);
  }
}

=== FILE: selection.dfy ===
/** The two candidate-narrowing steps the placement passes share: the
    base-stat-total proximity filter (`_filter_species_by_nearby_bst`) and the
    merging of prioritised blacklists. */
module Selection {
  import opened Wrappers
  import opened Seqs
  import opened Species
  import opened Draws

  function Abs(x: int): nat {
    if x < 0 then -x else x
  }

  /** `abs(sum(base_stats) - target)`. */
  function Distance(s: Species, target: int): nat {
    Abs(s.baseStats.Total() - target)
  }

  function CloserTo(target: int): (Species, Species) -> bool {
    (a: Species, b: Species) => Distance(a, target) <= Distance(b, target)
  }

  lemma CloserToIsPreorder(target: int)
    ensures TotalPreorder(CloserTo(target))
  {
  }

  /** `sorted(species, key=distance)`: stable, closest first. */
  function ByDistance(species: seq<Species>, target: int): (r: seq<Species>)
    ensures |r| == |species| && multiset(r) == multiset(species)
    ensures forall i, j :: 0 <= i < j < |r| ==> Distance(r[i], target) <= Distance(r[j], target)
  {
    CloserToIsPreorder(target);
    var r := SortBy(species, CloserTo(target));
    assert SortedBy(r, CloserTo(target));
    r
  }

  /** The sort is stable: species at the same distance keep their order. */
  lemma ByDistanceStable(species: seq<Species>, target: int, d: nat)
    ensures var atD := (s: Species) => Distance(s, target) == d;
      Filter(ByDistance(species, target), atD) == Filter(species, atD)
  {
    var atD := (s: Species) => Distance(s, target) == d;
    CloserToIsPreorder(target);
    assert Tied(CloserTo(target), atD);
    SortByStable(species, CloserTo(target), atD);
  }

  /** `distance < target * (percent / 100)`, the float test written over the
      integers. */
  predicate Within(distance: nat, target: int, percent: int) {
    100 * distance < target * percent
  }

  /** The first percentage of `start, start + 10, ...` below 10000 whose
      threshold admits `distance`. */
  function FirstThresholdFrom(distance: nat, target: int, start: nat): (r: Option<nat>)
    requires start % 10 == 0 && start >= 10
    ensures r.Some? ==> start <= r.value < 10000 && r.value % 10 == 0 && Within(distance, target, r.value)
    ensures r.Some? ==> r.value == start || !Within(distance, target, r.value - 10)
    ensures r.None? && start <= 9990 ==> !Within(distance, target, 9990)
    decreases 10000 - start
  {
    if start >= 10000 then None
    else if Within(distance, target, start) then Some(start)
    else FirstThresholdFrom(distance, target, start + 10)
  }

  /** The percentage (10, 20, ... 9990) at which the filter stops widening: the
      first one that admits the closest species. */
  function Threshold(sorted: seq<Species>, target: int): Option<nat> {
    if |sorted| == 0 then None else FirstThresholdFrom(Distance(sorted[0], target), target, 10)
  }

  /** The inner scan: the length of the leading run of `sorted` within
      `percent`. */
  method CountWithin(sorted: seq<Species>, target: int, percent: int) returns (cutoff: nat)
    ensures cutoff <= |sorted|
    ensures forall i :: 0 <= i < cutoff ==> Within(Distance(sorted[i], target), target, percent)
    ensures cutoff < |sorted| ==> !Within(Distance(sorted[cutoff], target), target, percent)
  {
    cutoff := 0;
    while cutoff < |sorted| && Within(Distance(sorted[cutoff], target), target, percent)
      invariant 0 <= cutoff <= |sorted|
      invariant forall i :: 0 <= i < cutoff ==> Within(Distance(sorted[i], target), target, percent)
    {
      cutoff := cutoff + 1;
    }
  }

  /** The widening loop: the scan length at the first percentage that admits
      the closest species, or 0 when none does. */
  method FindCutoff(sorted: seq<Species>, target: int) returns (cutoff: nat)
    ensures cutoff <= |sorted|
    ensures Threshold(sorted, target).None? ==> cutoff == 0
    ensures Threshold(sorted, target).Some? ==>
      var p := Threshold(sorted, target).value;
      && cutoff > 0
      && (forall i :: 0 <= i < cutoff ==> Within(Distance(sorted[i], target), target, p))
      && (cutoff < |sorted| ==> !Within(Distance(sorted[cutoff], target), target, p))
  {
    var n := |sorted|;
    cutoff := 0;
    var percent := 10;
    var last := 0;
    while cutoff == 0 && percent < 10000
      invariant 10 <= percent <= 10000 && percent % 10 == 0 && 0 <= cutoff <= n
      invariant cutoff == 0 && n > 0 ==>
        FirstThresholdFrom(Distance(sorted[0], target), target, percent) == Threshold(sorted, target)
      invariant cutoff > 0 ==> Threshold(sorted, target) == Some(last)
      invariant cutoff > 0 ==> forall i :: 0 <= i < cutoff ==> Within(Distance(sorted[i], target), target, last)
      invariant cutoff > 0 && cutoff < n ==> !Within(Distance(sorted[cutoff], target), target, last)
      invariant n == 0 ==> cutoff == 0
    {
      cutoff := CountWithin(sorted, target, percent);
      if n > 0 {
        ThresholdStep(Distance(sorted[0], target), target, percent);
      }
      last := percent;
      percent := percent + 10;
    }
  }

  lemma ThresholdStep(distance: nat, target: int, percent: nat)
    requires percent % 10 == 0 && 10 <= percent < 10000
    ensures Within(distance, target, percent) ==> FirstThresholdFrom(distance, target, percent) == Some(percent)
    ensures !Within(distance, target, percent) ==>
      FirstThresholdFrom(distance, target, percent) == FirstThresholdFrom(distance, target, percent + 10)
  {
  }

  /** The length of the leading run of `sorted` within `percent` of `target`. */
  function LeadingWithin(sorted: seq<Species>, target: int, percent: int): (n: nat)
    ensures n <= |sorted|
    ensures forall i :: 0 <= i < n ==> Within(Distance(sorted[i], target), target, percent)
    ensures n < |sorted| ==> !Within(Distance(sorted[n], target), target, percent)
  {
    if |sorted| == 0 || !Within(Distance(sorted[0], target), target, percent) then 0
    else 1 + LeadingWithin(sorted[1..], target, percent)
  }

  /** The leading run is the only length whose prefix lies within the
      threshold while the next species does not. */
  lemma LeadingWithinUnique(sorted: seq<Species>, target: int, percent: int, c: nat)
    requires c <= |sorted|
    requires forall i :: 0 <= i < c ==> Within(Distance(sorted[i], target), target, percent)
    requires c < |sorted| ==> !Within(Distance(sorted[c], target), target, percent)
    ensures LeadingWithin(sorted, target, percent) == c
  {
  }

  /** What `_filter_species_by_nearby_bst` keeps, stated without its loops: the
      distance-sorted species up to and including the first one outside the
      first admitting threshold, or the closest one alone when no threshold
      below 10000% admits it. */
  function BstKept(species: seq<Species>, target: int): (r: seq<Species>)
    ensures |r| > 0 <==> |species| > 0
    ensures |r| <= |species| && r == ByDistance(species, target)[..|r|]
  {
    var sorted := ByDistance(species, target);
    var run := match Threshold(sorted, target)
      case None => 0
      case Some(p) => LeadingWithin(sorted, target, p);
    if |sorted| == 0 then [] else sorted[..if run + 1 <= |sorted| then run + 1 else |sorted|]
  }

  /** Every input species strictly closer to the target than a kept one lies
      within the first admitting threshold: the filter keeps the near end of
      the input and at most one species past the threshold. */
  lemma BstKeptNear(species: seq<Species>, target: int, x: Species, y: Species)
    requires x in BstKept(species, target) && y in species
    requires Distance(y, target) < Distance(x, target)
    ensures Threshold(ByDistance(species, target), target).Some?
    ensures Within(Distance(y, target), target, Threshold(ByDistance(species, target), target).value)
  {
    var sorted := ByDistance(species, target);
    var kept := BstKept(species, target);
    var i :| 0 <= i < |kept| && kept[i] == x;
    assert sorted[i] == x;
    PermutationMembers(sorted, species, y);
    var j :| 0 <= j < |sorted| && sorted[j] == y;
    CloserComesFirst(sorted, target, i, j);
    var run := if Threshold(sorted, target).Some? then LeadingWithin(sorted, target, Threshold(sorted, target).value) else 0;
    assert |kept| <= run + 1;
    assert j < run;
  }

  /** In a list ordered by distance, a strictly closer species sits earlier. */
  lemma CloserComesFirst(sorted: seq<Species>, target: int, i: nat, j: nat)
    requires forall a, b :: 0 <= a < b < |sorted| ==> Distance(sorted[a], target) <= Distance(sorted[b], target)
    requires i < |sorted| && j < |sorted|
    requires Distance(sorted[j], target) < Distance(sorted[i], target)
    ensures j < i
  {
  }

  /** `_filter_species_by_nearby_bst`: sorts by distance to `target`, widens the
      threshold in steps of 10% until some species is strictly within it, and
      keeps the species within it plus the next one. */
  method BstFilter(species: seq<Species>, target: int) returns (r: seq<Species>)
    ensures |r| <= |species|
    ensures var sorted := ByDistance(species, target);
      && r == sorted[..|r|]
      && (|r| > 0 <==> |species| > 0)
      && (|species| > 0 && Threshold(sorted, target).None? ==> |r| == 1)
      && (Threshold(sorted, target).Some? ==>
            var p := Threshold(sorted, target).value;
            && (forall i :: 0 <= i < |r| - 1 ==> Within(Distance(sorted[i], target), target, p))
            && (|r| < |sorted| ==> !Within(Distance(sorted[|r| - 1], target), target, p))
            && (|r| >= 2 || |sorted| == 1))
    ensures r == BstKept(species, target)
  {
    var sorted := ByDistance(species, target);
    var cutoff := FindCutoff(sorted, target);
    if Threshold(sorted, target).Some? {
      LeadingWithinUnique(sorted, target, Threshold(sorted, target).value, cutoff);
    }
    if cutoff + 1 <= |sorted| {
      r := sorted[..cutoff + 1];
      assert |r| == cutoff + 1;
    } else {
      r := sorted;
      assert sorted == sorted[..|sorted|];
      assert Threshold(sorted, target).Some? ==> cutoff == |sorted|;
    }
  }

  /** A prefix of the distance-sorted list holds every species strictly closer
      than its last member: the filter never skips a closer species for a
      farther one. */
  lemma PrefixHoldsCloser(species: seq<Species>, target: int, r: seq<Species>, x: Species)
    requires 0 < |r| <= |species| && r == ByDistance(species, target)[..|r|]
    requires x in species && Distance(x, target) < Distance(r[|r| - 1], target)
    ensures x in r
  {
    var sorted := ByDistance(species, target);
    PermutationMembers(sorted, species, x);
    var j :| 0 <= j < |sorted| && sorted[j] == x;
    forall k | |r| <= k < |sorted|
      ensures Distance(r[|r| - 1], target) <= Distance(sorted[k], target)
    {
      assert r[|r| - 1] == sorted[|r| - 1];
    }
    assert r[j] == x;
  }

  /** The filter only narrows: it keeps species of its input, each at most as
      often as the input has it. */
  lemma PrefixFromInput(species: seq<Species>, target: int, r: seq<Species>)
    requires |r| <= |species| && r == ByDistance(species, target)[..|r|]
    ensures multiset(r) <= multiset(species)
  {
    var sorted := ByDistance(species, target);
    assert sorted == r + sorted[|r|..];
  }

  // ---------------------------------------------------------------- blacklists

  /** The union of a list of sets. */
  function Union(tiers: seq<set<int>>): (r: set<int>)
    ensures forall x :: x in r <==> exists i :: 0 <= i < |tiers| && x in tiers[i]
  {
    if |tiers| == 0 then {}
    else
      var init := tiers[..|tiers| - 1];
      var r := Union(init) + tiers[|tiers| - 1];
      assert forall i :: 0 <= i < |init| ==> init[i] == tiers[i];
      r
  }

  /** The union of tiers `0..depth`. */
  function PrefixUnion(tiers: seq<set<int>>, depth: nat): (r: set<int>)
    requires depth < |tiers|
    ensures forall x :: x in r <==> exists i :: 0 <= i <= depth && x in tiers[i]
  {
    var prefix := tiers[..depth + 1];
    assert forall i :: 0 <= i <= depth ==> prefix[i] == tiers[i];
    Union(prefix)
  }

  /** The deepest tier kept when blacklists in priority order (tier 0 first) are
      merged: counting down from the last tier, the first prefix whose union
      has fewer than `limit` ids, or tier 0 alone when none has. */
  function MergeDepth(tiers: seq<set<int>>, limit: nat, depth: nat): (k: nat)
    requires depth < |tiers|
    ensures k <= depth
    ensures |PrefixUnion(tiers, k)| < limit || k == 0
    ensures forall j :: k < j <= depth ==> |PrefixUnion(tiers, j)| >= limit
    decreases depth
  {
    if |PrefixUnion(tiers, depth)| < limit || depth == 0 then depth
    else MergeDepth(tiers, limit, depth - 1)
  }

  /** The merged blacklist of the wild pass: the union of the longest priority
      prefix that stays below `limit`. */
  function MergeTiers(tiers: seq<set<int>>, limit: nat): (r: set<int>)
    requires |tiers| > 0
    ensures tiers[0] <= r
    ensures exists k :: 0 <= k < |tiers| && r == PrefixUnion(tiers, k)
  {
    PrefixUnion(tiers, MergeDepth(tiers, limit, |tiers| - 1))
  }

  /** The merge keeps as many tiers as it can: its result is below `limit`
      unless tier 0 alone is not, and every longer prefix reaches `limit`. */
  lemma MergeTiersMaximal(tiers: seq<set<int>>, limit: nat)
    requires |tiers| > 0
    ensures var k := MergeDepth(tiers, limit, |tiers| - 1);
      && MergeTiers(tiers, limit) == PrefixUnion(tiers, k)
      && (|MergeTiers(tiers, limit)| < limit || k == 0)
      && forall j :: k < j < |tiers| ==> |PrefixUnion(tiers, j)| >= limit
  {
  }

  /** The fallback rule of the starter and trainer passes: `full` unless it
      covers exactly `limit` ids, then `reduced`, then `last`. The test is
      equality, as written, not "at least". */
  function FallBack(full: set<int>, reduced: set<int>, last: set<int>, limit: nat): (r: set<int>)
    ensures r == full || r == reduced || r == last
    ensures |full| != limit ==> r == full
    ensures |full| == limit && |reduced| != limit ==> r == reduced
    ensures |full| == limit && |reduced| == limit ==> r == last
  {
    if |full| != limit then full else if |reduced| != limit then reduced else last
  }

  /** The placement passes' final step: `random.choice` among the species of
      `dex` outside `blacklist`, first narrowed to those nearest `original` in
      base-stat total when asked; `None` is the `IndexError` of an empty list. */
  method ChooseAvoiding(dex: Dex, blacklist: set<int>, original: Species, matchBst: bool, d: nat)
    returns (r: Option<Species>)
    ensures r.Some? <==> |NotIn(dex, blacklist)| > 0
    ensures r.Some? ==> r.value in dex && r.value.id !in blacklist
    ensures r.Some? && matchBst ==> r.value in BstKept(NotIn(dex, blacklist), original.baseStats.Total())
  {
    var candidates := NotIn(dex, blacklist);
    var pool := candidates;
    if matchBst {
      pool := BstFilter(candidates, original.baseStats.Total());
      PrefixFromInput(candidates, original.baseStats.Total(), pool);
    }
    assert forall s :: s in pool ==> s in candidates by {
      forall s | s in pool ensures s in candidates {
        assert s in multiset(pool);
      }
    }
    r := Choice(pool, d);
  }
}

=== FILE: seqs.dfy ===
/** Sequence utilities shared by the loader and the randomization passes:
    distinctness, flattening, and Python's stable `sorted` as an insertion sort. */
module Seqs {

  /** No element occurs twice. */
  predicate Distinct<T(==)>(xs: seq<T>) {
    forall i, j :: 0 <= i < j < |xs| ==> xs[i] != xs[j]
  }

  /** Concatenation of a sequence of sequences. */
  function Flatten<T>(xss: seq<seq<T>>): (r: seq<T>)
    ensures |xss| == 0 ==> r == []
  {
    if |xss| == 0 then [] else Flatten(xss[..|xss| - 1]) + xss[|xss| - 1]
  }

  lemma FlattenAppend<T>(xss: seq<seq<T>>, xs: seq<T>)
    ensures Flatten(xss + [xs]) == Flatten(xss) + xs
  {
    assert (xss + [xs])[..|xss|] == xss;
  }

  /** A concatenation is distinct iff both halves are and they share nothing. */
  lemma DistinctConcat<T>(a: seq<T>, b: seq<T>)
    ensures Distinct(a + b) <==>
      Distinct(a) && Distinct(b) && forall x :: x in a ==> x !in b
  {
    var ab := a + b;
    if Distinct(a) && Distinct(b) && forall x :: x in a ==> x !in b {
      forall i, j | 0 <= i < j < |ab|
        ensures ab[i] != ab[j]
      {
        if i < |a| && j >= |a| {
          assert ab[i] in a && ab[j] == b[j - |a|];
        } else if i >= |a| {
          assert ab[i] == b[i - |a|] && ab[j] == b[j - |a|];
        }
      }
    }
    if Distinct(ab) {
      forall i, j | 0 <= i < j < |b|
        ensures b[i] != b[j]
      {
        assert ab[i + |a|] == b[i] && ab[j + |a|] == b[j];
      }
      forall x | x in a
        ensures x !in b
      {
        var i :| 0 <= i < |a| && a[i] == x;
        assert forall j :: 0 <= j < |b| ==> ab[j + |a|] == b[j] && ab[i] != ab[j + |a|];
      }
      assert forall i, j :: 0 <= i < j < |a| ==> a[i] == ab[i] && a[j] == ab[j];
    }
  }

  /** A distinct sequence counts every value at most once. */
  lemma {:induction false} DistinctMultiplicity<T>(xs: seq<T>, x: T)
    requires Distinct(xs)
    ensures multiset(xs)[x] <= 1
  {
    if |xs| > 0 {
      var init := xs[..|xs| - 1];
      assert xs == init + [xs[|xs| - 1]];
      DistinctMultiplicity(init, x);
      if xs[|xs| - 1] == x {
        assert forall k :: 0 <= k < |init| ==> init[k] == xs[k] != xs[|xs| - 1];
        assert x !in init;
      }
    }
  }

  lemma TwoOccurrences<T>(xs: seq<T>, i: nat, j: nat)
    requires i < j < |xs| && xs[i] == xs[j]
    ensures multiset(xs)[xs[i]] >= 2
  {
    assert xs == xs[..j] + [xs[j]] + xs[j + 1..];
    assert xs[..j][i] == xs[i];
  }

  /** Rearranging a distinct sequence keeps it distinct. */
  lemma PermutationKeepsDistinct<T>(xs: seq<T>, ys: seq<T>)
    requires multiset(xs) == multiset(ys)
    requires Distinct(ys)
    ensures Distinct(xs)
  {
    forall i, j | 0 <= i < j < |xs|
      ensures xs[i] != xs[j]
    {
      if xs[i] == xs[j] {
        TwoOccurrences(xs, i, j);
        DistinctMultiplicity(ys, xs[i]);
      }
    }
  }

  // ---------------------------------------------------------------- sorting

  /** `le` is a total preorder: the comparisons Python's `sorted` needs. */
  ghost predicate TotalPreorder<T(!new)>(le: (T, T) -> bool) {
    && (forall a, b :: le(a, b) || le(b, a))
    && (forall a, b, c :: le(a, b) && le(b, c) ==> le(a, c))
  }

  predicate SortedBy<T>(xs: seq<T>, le: (T, T) -> bool) {
    forall i, j :: 0 <= i < j < |xs| ==> le(xs[i], xs[j])
  }

  /** Inserts `x` after every leading element that does not exceed it. */
  function Insert<T(!new)>(x: T, xs: seq<T>, le: (T, T) -> bool): (r: seq<T>)
    requires TotalPreorder(le)
    requires SortedBy(xs, le)
    ensures SortedBy(r, le)
    ensures multiset(r) == multiset(xs) + multiset{x}
    ensures |r| == |xs| + 1
  {
    if |xs| == 0 || !le(xs[0], x) then
      [x] + xs
    else
      var rest := Insert(x, xs[1..], le);
      assert xs == [xs[0]] + xs[1..];
      assert forall k :: 0 <= k < |rest| ==> le(xs[0], rest[k]) by {
        forall k | 0 <= k < |rest|
          ensures le(xs[0], rest[k])
        {
          assert rest[k] in multiset(rest);
          assert rest[k] == x || rest[k] in multiset(xs[1..]);
          if rest[k] != x {
            var m :| 0 <= m < |xs[1..]| && xs[1..][m] == rest[k];
            assert xs[m + 1] == rest[k];
          }
        }
      }
      [xs[0]] + rest
  }

  /** Python's stable `sorted(xs, key=...)`, with `le` comparing keys. */
  function SortBy<T(!new)>(xs: seq<T>, le: (T, T) -> bool): (r: seq<T>)
    requires TotalPreorder(le)
    ensures SortedBy(r, le)
    ensures multiset(r) == multiset(xs)
    ensures |r| == |xs|
  {
    if |xs| == 0 then []
    else
      assert xs == xs[..|xs| - 1] + [xs[|xs| - 1]];
      Insert(xs[|xs| - 1], SortBy(xs[..|xs| - 1], le), le)
  }

  /** In a list without repeats no entry occurs before its own position. */
  lemma DistinctNotBefore<T>(xs: seq<T>, i: nat)
    requires Distinct(xs) && i < |xs|
    ensures xs[i] !in xs[..i]
  {
  }

  /** Elements of a rearrangement are the elements of the original. */
  lemma PermutationMembers<T>(xs: seq<T>, ys: seq<T>, x: T)
    requires multiset(xs) == multiset(ys)
    ensures x in xs <==> x in ys
  {
    assert x in xs <==> x in multiset(xs);
    assert x in ys <==> x in multiset(ys);
  }

  /** `[x for x in xs if p(x)]`. */
  function Filter<T(!new)>(xs: seq<T>, p: T -> bool): (r: seq<T>)
    ensures forall x :: x in r <==> x in xs && p(x)
    ensures |r| <= |xs|
  {
    if |xs| == 0 then []
    else
      assert forall x :: x in xs <==> x == xs[0] || x in xs[1..];
      (if p(xs[0]) then [xs[0]] else []) + Filter(xs[1..], p)
  }

  lemma {:induction false} FilterAppend<T(!new)>(a: seq<T>, b: seq<T>, p: T -> bool)
    ensures Filter(a + b, p) == Filter(a, p) + Filter(b, p)
  {
    if |a| > 0 {
      assert (a + b)[0] == a[0] && (a + b)[1..] == a[1..] + b;
      FilterAppend(a[1..], b, p);
    } else {
      assert a + b == b;
    }
  }

  lemma {:induction false} FilterNone<T(!new)>(xs: seq<T>, p: T -> bool)
    requires forall k :: 0 <= k < |xs| ==> !p(xs[k])
    ensures Filter(xs, p) == []
  {
    if |xs| > 0 {
      FilterNone(xs[1..], p);
    }
  }

  /** `p` picks out elements that `le` cannot tell apart. */
  ghost predicate Tied<T(!new)>(le: (T, T) -> bool, p: T -> bool) {
    forall a, b :: p(a) && p(b) ==> le(a, b)
  }

  lemma ConcatAssoc<T>(a: seq<T>, b: seq<T>, c: seq<T>)
    ensures a + (b + c) == (a + b) + c
  {
  }

  lemma FilterCons<T(!new)>(x: T, xs: seq<T>, p: T -> bool)
    ensures Filter([x] + xs, p) == (if p(x) then [x] else []) + Filter(xs, p)
  {
    assert ([x] + xs)[0] == x && ([x] + xs)[1..] == xs;
  }

  /** In a sorted list that starts above `x`, nothing ties with `x`. */
  lemma NoTieAbove<T(!new)>(x: T, xs: seq<T>, le: (T, T) -> bool, p: T -> bool)
    requires TotalPreorder(le) && SortedBy(xs, le) && Tied(le, p)
    requires p(x) && |xs| > 0 && !le(xs[0], x)
    ensures forall k :: 0 <= k < |xs| ==> !p(xs[k])
  {
    forall k | 0 <= k < |xs|
      ensures !p(xs[k])
    {
      assert le(xs[0], xs[k]);
      assert !le(xs[k], x);
    }
  }

  lemma SortedTail<T>(xs: seq<T>, le: (T, T) -> bool)
    requires SortedBy(xs, le) && |xs| > 0
    ensures SortedBy(xs[1..], le)
  {
    assert forall i :: 0 <= i < |xs| - 1 ==> xs[1..][i] == xs[i + 1];
  }

  /** Inserting below every element: `x` goes first, and no element ties
      with it. */
  lemma FilterInsertFront<T(!new)>(x: T, xs: seq<T>, le: (T, T) -> bool, p: T -> bool)
    requires TotalPreorder(le) && SortedBy(xs, le) && Tied(le, p)
    requires |xs| == 0 || !le(xs[0], x)
    ensures Filter(Insert(x, xs, le), p) == Filter(xs, p) + (if p(x) then [x] else [])
  {
    assert Insert(x, xs, le) == [x] + xs;
    if p(x) {
      if |xs| > 0 {
        NoTieAbove(x, xs, le, p);
      }
      FilterTiedFront(x, xs, p);
    } else {
      FilterUntiedFront(x, xs, p);
    }
  }

  lemma FilterTiedFront<T(!new)>(x: T, xs: seq<T>, p: T -> bool)
    requires p(x) && forall k :: 0 <= k < |xs| ==> !p(xs[k])
    ensures Filter([x] + xs, p) == Filter(xs, p) + [x]
  {
    FilterCons(x, xs, p);
    FilterNone(xs, p);
    assert Filter(xs, p) + [x] == [x];
  }

  lemma FilterUntiedFront<T(!new)>(x: T, xs: seq<T>, p: T -> bool)
    requires !p(x)
    ensures Filter([x] + xs, p) == Filter(xs, p) + []
  {
    FilterCons(x, xs, p);
    assert Filter(xs, p) + [] == Filter(xs, p);
  }

  /** `Insert` places `x` after every element it ties with, so among tied
      elements it comes last. */
  lemma {:induction false} FilterInsert<T(!new)>(x: T, xs: seq<T>, le: (T, T) -> bool, p: T -> bool)
    requires TotalPreorder(le) && SortedBy(xs, le) && Tied(le, p)
    ensures Filter(Insert(x, xs, le), p) == Filter(xs, p) + (if p(x) then [x] else [])
  {
    if |xs| == 0 || !le(xs[0], x) {
      FilterInsertFront(x, xs, le, p);
    } else {
      var tail := xs[1..];
      var rest := Insert(x, tail, le);
      assert Insert(x, xs, le) == [xs[0]] + rest;
      SortedTail(xs, le);
      FilterInsert(x, tail, le, p);
      FilterCons(xs[0], rest, p);
      FilterCons(xs[0], tail, p);
      assert [xs[0]] + tail == xs;
      ConcatAssoc(if p(xs[0]) then [xs[0]] else [], Filter(tail, p), if p(x) then [x] else []);
    }
  }

  /** `SortBy` is stable: the elements `le` ties together keep their order. */
  lemma {:induction false} SortByStable<T(!new)>(xs: seq<T>, le: (T, T) -> bool, p: T -> bool)
    requires TotalPreorder(le) && Tied(le, p)
    ensures Filter(SortBy(xs, le), p) == Filter(xs, p)
  {
    if |xs| > 0 {
      var init := xs[..|xs| - 1];
      var last := xs[|xs| - 1];
      assert xs == init + [last];
      SortByStable(init, le, p);
      FilterInsert(last, SortBy(init, le), le, p);
      FilterAppend(init, [last], p);
      assert Filter([last], p) == (if p(last) then [last] else []) by {
        assert [last][1..] == [];
      }
    }
  }

  predicate Increasing(xs: seq<int>) {
    forall i, j :: 0 <= i < j < |xs| ==> xs[i] < xs[j]
  }

  /** Inserts `x` into an increasing sequence unless it is already there. */
  function InsertSorted(x: int, xs: seq<int>): (r: seq<int>)
    requires Increasing(xs)
    ensures Increasing(r)
    ensures forall y :: y in r <==> y == x || y in xs
  {
    if |xs| == 0 then [x]
    else if x == xs[0] then xs
    else if x < xs[0] then [x] + xs
    else
      var rest := InsertSorted(x, xs[1..]);
      assert forall y :: y in xs <==> y == xs[0] || y in xs[1..];
      assert forall k :: 0 <= k < |rest| ==> xs[0] < rest[k] by {
        forall k | 0 <= k < |rest|
          ensures xs[0] < rest[k]
        {
          assert rest[k] in rest;
        }
      }
      [xs[0]] + rest
  }

  /** `sorted(set(xs))`: the distinct values of `xs` in increasing order. */
  function SortedDistinct(xs: seq<int>): (r: seq<int>)
    ensures Increasing(r)
    ensures forall y :: y in r <==> y in xs
  {
    if |xs| == 0 then []
    else
      var init := xs[..|xs| - 1];
      assert forall y :: y in xs <==> y == xs[|xs| - 1] || y in init;
      InsertSorted(xs[|xs| - 1], SortedDistinct(init))
  }

  lemma HeadIsLeast(xs: seq<int>, y: int)
    requires Increasing(xs) && y in xs
    ensures xs[0] <= y
  {
    var k :| 0 <= k < |xs| && xs[k] == y;
    assert k == 0 || xs[0] < xs[k];
  }

  /** An increasing sequence is determined by its members, so `SortedDistinct`
      is the one sorted list of distinct values Python's `sorted(set(...))`
      produces. */
  lemma {:induction false} IncreasingUnique(a: seq<int>, b: seq<int>)
    requires Increasing(a) && Increasing(b)
    requires forall y :: y in a <==> y in b
    ensures a == b
    decreases |a|
  {
    if |a| == 0 {
      assert multiset(b) == multiset{} by {
        forall y
          ensures multiset(b)[y] == 0
        {
          assert y !in a;
        }
      }
      assert |b| == |multiset(b)|;
    } else {
      assert a[0] in a && a[0] in b;
      assert b[0] in b;
      HeadIsLeast(a, b[0]);
      HeadIsLeast(b, a[0]);
      forall y
        ensures y in a[1..] <==> y in b[1..]
      {
        assert y in a <==> y == a[0] || y in a[1..];
        assert y in b <==> y == b[0] || y in b[1..];
        if y in a[1..] {
          var k :| 0 <= k < |a[1..]| && a[1..][k] == y;
          assert a[0] < a[k + 1];
        }
        if y in b[1..] {
          var k :| 0 <= k < |b[1..]| && b[1..][k] == y;
          assert b[0] < b[k + 1];
        }
      }
      IncreasingUnique(a[1..], b[1..]);
      assert a == [a[0]] + a[1..] && b == [b[0]] + b[1..];
    }
  }

  lemma IncreasingDistinct(xs: seq<int>)
    requires Increasing(xs)
    ensures Distinct(xs)
  {
  }
}

=== FILE: species.dfy ===
/** Species records as the loader builds them, the evolution-method table, and
    lookups over the species table (an insertion-ordered dict keyed by species id,
    modelled as a sequence whose ids are distinct). */
module Species {
  import opened Wrappers
  import opened Seqs

  /** Species 1..386: the national dex the randomizer draws from. */
  const NumRealSpecies: nat := 386

  datatype BaseStats = BaseStats(
    hp: int, attack: int, defense: int, speed: int, specialAttack: int, specialDefense: int)
  {
    /** `sum(base_stats)`. */
    function Total(): int {
      hp + attack + defense + speed + specialAttack + specialDefense
    }
  }

  datatype EvolutionMethod =
    | Level | LevelAtkLtDef | LevelAtkEqDef | LevelAtkGtDef
    | LevelSilcoon | LevelCascoon | LevelNinjask | LevelShedinja
    | Item | Friendship

  /** The enum member's name, as it appears in the extracted data. */
  function MethodName(m: EvolutionMethod): string {
    match m
    case Level => "LEVEL"
    case LevelAtkLtDef => "LEVEL_ATK_LT_DEF"
    case LevelAtkEqDef => "LEVEL_ATK_EQ_DEF"
    case LevelAtkGtDef => "LEVEL_ATK_GT_DEF"
    case LevelSilcoon => "LEVEL_SILCOON"
    case LevelCascoon => "LEVEL_CASCOON"
    case LevelNinjask => "LEVEL_NINJASK"
    case LevelShedinja => "LEVEL_SHEDINJA"
    case Item => "ITEM"
    case Friendship => "FRIENDSHIP"
  }

  /** The nine names the string table recognises; `"ITEM"` is not among them. */
  const MappedNames: set<string> := {
    "LEVEL", "LEVEL_ATK_LT_DEF", "LEVEL_ATK_EQ_DEF", "LEVEL_ATK_GT_DEF",
    "LEVEL_SILCOON", "LEVEL_CASCOON", "LEVEL_NINJASK", "LEVEL_SHEDINJA", "FRIENDSHIP"
  }

  /** `_str_to_evolution_method`: a chain of string comparisons; a string that
      matches none of them (including `"ITEM"`) falls off the end and yields no
      value. */
  function StrToEvolutionMethod(s: string): (r: Option<EvolutionMethod>)
    ensures r.Some? <==> s in MappedNames
    ensures r.Some? ==> MethodName(r.value) == s && r.value != Item
  {
    if s == "LEVEL" then Some(Level)
    else if s == "LEVEL_ATK_LT_DEF" then Some(LevelAtkLtDef)
    else if s == "LEVEL_ATK_EQ_DEF" then Some(LevelAtkEqDef)
    else if s == "LEVEL_ATK_GT_DEF" then Some(LevelAtkGtDef)
    else if s == "LEVEL_SILCOON" then Some(LevelSilcoon)
    else if s == "LEVEL_CASCOON" then Some(LevelCascoon)
    else if s == "LEVEL_NINJASK" then Some(LevelNinjask)
    else if s == "LEVEL_SHEDINJA" then Some(LevelShedinja)
    else if s == "FRIENDSHIP" then Some(Friendship)
    else None
  }

  /** Every member but `ITEM` is recovered from its own name. */
  lemma EvolutionMethodRoundTrip(m: EvolutionMethod)
    ensures StrToEvolutionMethod(MethodName(m)) == (if m == Item then None else Some(m))
  {
  }

  datatype Evolution = Evolution(how: Option<EvolutionMethod>, param: int, speciesId: int)

  datatype LearnsetMove = LearnsetMove(level: int, moveId: int)

  /** A species record. `tmHm` is the compatibility word viewed as its bit array,
      bit `i` first. */
  datatype Species = Species(
    id: int,
    name: string,
    baseStats: BaseStats,
    types: (int, int),
    abilities: (int, int),
    evolutions: seq<Evolution>,
    preEvolution: Option<int>,
    learnset: seq<LearnsetMove>,
    tmHm: seq<bool>)

  /** Species tables keyed by id. */
  type Dex = seq<Species>

  function Ids(dex: Dex): (r: seq<int>)
    ensures |r| == |dex|
    ensures forall k :: 0 <= k < |dex| ==> r[k] == dex[k].id
  {
    if |dex| == 0 then [] else Ids(dex[..|dex| - 1]) + [dex[|dex| - 1].id]
  }

  predicate Keyed(dex: Dex) {
    Distinct(Ids(dex))
  }

  predicate HasId(dex: Dex, id: int) {
    exists k :: 0 <= k < |dex| && dex[k].id == id
  }

  /** `dex[id]`, or `None` where the dict lookup raises `KeyError`. */
  function Lookup(dex: Dex, id: int): (r: Option<Species>)
    ensures r.Some? <==> HasId(dex, id)
    ensures r.Some? ==> r.value in dex && r.value.id == id
  {
    if |dex| == 0 then None
    else if dex[0].id == id then Some(dex[0])
    else
      var r := Lookup(dex[1..], id);
      assert HasId(dex[1..], id) ==> HasId(dex, id) by {
        if HasId(dex[1..], id) {
          var k :| 0 <= k < |dex[1..]| && dex[1..][k].id == id;
          assert dex[k + 1].id == id;
        }
      }
      assert HasId(dex, id) ==> HasId(dex[1..], id) by {
        if HasId(dex, id) {
          var k :| 0 <= k < |dex| && dex[k].id == id;
          assert dex[1..][k - 1] == dex[k];
        }
      }
      r
  }

  /** In a keyed table the lookup finds the one entry holding the id. */
  lemma LookupKeyed(dex: Dex, k: nat)
    requires Keyed(dex) && k < |dex|
    ensures Lookup(dex, dex[k].id) == Some(dex[k])
  {
    var r := Lookup(dex, dex[k].id);
    var j :| 0 <= j < |dex| && dex[j] == r.value;
    assert Ids(dex)[j] == Ids(dex)[k];
    assert j == k;
  }

  /** Two species share a type: `bool(set(a.types) & set(b.types))`. */
  predicate ShareType(a: Species, b: Species) {
    a.types.0 == b.types.0 || a.types.0 == b.types.1 ||
    a.types.1 == b.types.0 || a.types.1 == b.types.1
  }

  /** The ids of the species in `dex` that share no type with `original`: the
      type-matching blacklist every placement pass builds. */
  function TypeBlacklist(dex: Dex, original: Species): (r: set<int>)
    ensures forall id :: id in r <==> exists s :: s in dex && s.id == id && !ShareType(s, original)
  {
    set s | s in dex && !ShareType(s, original) :: s.id
  }

  /** The species of `dex`, in table order, whose id is not in `blacklist`. */
  function NotIn(dex: Dex, blacklist: set<int>): (r: Dex)
    ensures forall s :: s in r <==> s in dex && s.id !in blacklist
    ensures |r| <= |dex|
  {
    if |dex| == 0 then []
    else
      var rest := NotIn(dex[1..], blacklist);
      assert forall s :: s in dex <==> s == dex[0] || s in dex[1..];
      if dex[0].id in blacklist then rest else [dex[0]] + rest
  }
}

=== FILE: starters.dfy ===
/** `randomize_starters`: new starters chosen one after another, each avoiding
    the ones already chosen, then written with their evolutions into the
    rival's parties. */
module Starters {
  import opened Wrappers
  import opened Seqs
  import opened Species
  import opened Draws
  import opened Selection
  import opened TrainerMoves

  datatype StarterOptions = StarterOptions(matchBst: bool, matchType: bool, blacklist: set<int>)

  /** `KeyError`s on species and trainer ids, the `IndexError` of an empty
      candidate list, of a rival table shorter than the starter list, of a
      party shorter than a rival slot's index, of a stage beyond the third and
      of a compatibility bit past the TM/HM move table. */
  datatype StarterError =
    | UnknownSpecies(speciesId: int)
    | NoCandidate
    | MissingRivalEntry(starter: nat)
    | UnknownTrainer(trainerId: int)
    | PartyTooShort(trainerId: int, index: nat)
    | NoSuchStage(stage: nat)
    | TmHmIndex(speciesId: int)

  /** The ids of the species chosen so far. */
  function IdSet(chosen: seq<Species>): (r: set<int>)
    ensures forall id :: id in r <==> exists i :: 0 <= i < |chosen| && chosen[i].id == id
  {
    set i | 0 <= i < |chosen| :: chosen[i].id
  }

  /** The blacklist for the next starter: the chosen ones, the player's list
      and the type blacklist, dropping the type blacklist and then the player's
      list when the union covers exactly `NUM_REAL_SPECIES` ids. */
  function StarterBlacklist(chosen: set<int>, user: set<int>, typeBlacklist: set<int>): (r: set<int>)
    ensures chosen <= r
    ensures |chosen + user + typeBlacklist| != NumRealSpecies ==> user <= r && typeBlacklist <= r
  {
    FallBack(chosen + user + typeBlacklist, chosen + user, chosen, NumRealSpecies)
  }

  /** One starter. It is never one already chosen; unless the fallback fired it
      avoids the player's list and, with type matching, shares a type with the
      starter it replaces. */
  method ChooseStarter(chosen: set<int>, original: Species, dex: Dex, opts: StarterOptions, d: nat)
    returns (r: Result<Species, StarterError>)
    ensures var typeBl := if opts.matchType then TypeBlacklist(dex, original) else {};
      && (r.Success? <==> |NotIn(dex, StarterBlacklist(chosen, opts.blacklist, typeBl))| > 0)
      && (r.Success? ==> r.value in dex && r.value.id !in chosen)
      && (r.Success? && |chosen + opts.blacklist + typeBl| != NumRealSpecies ==>
            && r.value.id !in opts.blacklist
            && (opts.matchType ==> ShareType(r.value, original)))
      && (r.Success? && opts.matchBst ==>
            r.value in BstKept(NotIn(dex, StarterBlacklist(chosen, opts.blacklist, typeBl)), original.baseStats.Total()))
    ensures r.Failure? ==> r.error == NoCandidate
  {
    var typeBl := if opts.matchType then TypeBlacklist(dex, original) else {};
    var merged := StarterBlacklist(chosen, opts.blacklist, typeBl);
    var pick := ChooseAvoiding(dex, merged, original, opts.matchBst, d);
    if pick.None? {
      return Failure(NoCandidate);
    }
    return Success(pick.value);
  }

  /** The starter loop: `starters` holds the current starter species ids,
      `original` is the baseline species table and `dex` the current one.
      Starter `i` draws with `draws(i)`. The new starters are pairwise
      distinct. */
  method ChooseStarters(starters: seq<int>, original: Dex, dex: Dex, opts: StarterOptions, draws: nat -> nat)
    returns (r: Result<seq<Species>, StarterError>)
    ensures r.Success? ==> |r.value| == |starters|
    ensures r.Success? ==> forall i :: 0 <= i < |r.value| ==> r.value[i] in dex
    ensures r.Success? ==> forall i, j :: 0 <= i < j < |r.value| ==> r.value[i].id != r.value[j].id
    ensures r.Success? ==> forall i :: 0 <= i < |r.value| ==> PickedAt(r.value, i, starters, original, dex, opts)
  {
    var chosen: seq<Species> := [];
    var i := 0;
    while i < |starters|
      invariant 0 <= i <= |starters| && |chosen| == i
      invariant forall k :: 0 <= k < i ==> chosen[k] in dex
      invariant forall a, b :: 0 <= a < b < i ==> chosen[a].id != chosen[b].id
      invariant forall k :: 0 <= k < i ==> PickedAt(chosen, k, starters, original, dex, opts)
    {
      var orig := Lookup(original, starters[i]);
      if orig.None? {
        return Failure(UnknownSpecies(starters[i]));
      }
      var ids := IdSet(chosen);
      var next :- ChooseStarter(ids, orig.value, dex, opts, draws(i));
      AppendFreshId(chosen, next, dex);
      PickedAppend(chosen, next, starters, original, dex, opts);
      chosen := chosen + [next];
      i := i + 1;
    }
    return Success(chosen);
  }

  /** What `ChooseStarter` promised for starter `k`, given the ones chosen
      before it: the starter it replaces is in the baseline table, the new one
      is not an earlier pick, avoids the player's list and shares a type when
      asked (unless the fallback fired), and is one of the nearest in
      base-stat total when asked. */
  predicate PickedAt(chosen: seq<Species>, k: nat, starters: seq<int>, original: Dex, dex: Dex, opts: StarterOptions)
    requires k < |chosen| && k < |starters|
  {
    Lookup(original, starters[k]).Some? &&
    var orig := Lookup(original, starters[k]).value;
    var earlier := IdSet(chosen[..k]);
    var typeBl := if opts.matchType then TypeBlacklist(dex, orig) else {};
    && chosen[k] in dex && chosen[k].id !in earlier
    && (|earlier + opts.blacklist + typeBl| != NumRealSpecies ==>
          chosen[k].id !in opts.blacklist && (opts.matchType ==> ShareType(chosen[k], orig)))
    && (opts.matchBst ==>
          chosen[k] in BstKept(NotIn(dex, StarterBlacklist(earlier, opts.blacklist, typeBl)), orig.baseStats.Total()))
  }

  lemma PickedAppend(chosen: seq<Species>, next: Species, starters: seq<int>, original: Dex, dex: Dex, opts: StarterOptions)
    requires |chosen| < |starters|
    requires forall k :: 0 <= k < |chosen| ==> PickedAt(chosen, k, starters, original, dex, opts)
    requires Lookup(original, starters[|chosen|]).Some?
    requires var orig := Lookup(original, starters[|chosen|]).value;
      var typeBl := if opts.matchType then TypeBlacklist(dex, orig) else {};
      && next in dex && next.id !in IdSet(chosen)
      && (|IdSet(chosen) + opts.blacklist + typeBl| != NumRealSpecies ==>
            next.id !in opts.blacklist && (opts.matchType ==> ShareType(next, orig)))
      && (opts.matchBst ==>
            next in BstKept(NotIn(dex, StarterBlacklist(IdSet(chosen), opts.blacklist, typeBl)), orig.baseStats.Total()))
    ensures forall k :: 0 <= k <= |chosen| ==> PickedAt(chosen + [next], k, starters, original, dex, opts)
  {
    var c := chosen + [next];
    forall k | 0 <= k <= |chosen|
      ensures PickedAt(c, k, starters, original, dex, opts)
    {
      assert c[..k] == chosen[..k];
      if k < |chosen| {
        assert c[k] == chosen[k];
        assert PickedAt(chosen, k, starters, original, dex, opts);
      } else {
        assert c[..k] == chosen;
      }
    }
  }

  /** A species whose id was not yet chosen keeps the chosen ids pairwise
      distinct. */
  lemma AppendFreshId(chosen: seq<Species>, next: Species, dex: Dex)
    requires forall k :: 0 <= k < |chosen| ==> chosen[k] in dex
    requires forall a, b :: 0 <= a < b < |chosen| ==> chosen[a].id != chosen[b].id
    requires next in dex && next.id !in IdSet(chosen)
    ensures forall k :: 0 <= k < |chosen + [next]| ==> (chosen + [next])[k] in dex
    ensures forall a, b :: 0 <= a < b < |chosen + [next]| ==> (chosen + [next])[a].id != (chosen + [next])[b].id
  {
    var c := chosen + [next];
    forall a, b | 0 <= a < b < |c|
      ensures c[a].id != c[b].id
    {
      assert c[a] == chosen[a];
      if b == |chosen| {
        assert chosen[a].id in IdSet(chosen);
      } else {
        assert c[b] == chosen[b];
      }
    }
    forall k | 0 <= k < |c|
      ensures c[k] in dex
    {
      if k < |chosen| { assert c[k] == chosen[k]; }
    }
  }

  /** The three stages written into the rival's parties: the starter, then an
      evolution chosen at random (and an evolution of that), repeating the
      last stage where a species does not evolve. */
  function Stages(dex: Dex, base: Species, d1: nat, d2: nat): (r: Result<seq<Species>, StarterError>)
    ensures r.Success? ==> |r.value| == 3 && r.value[0] == base
    ensures |base.evolutions| == 0 ==> r == Success([base, base, base])
    ensures r.Success? && |base.evolutions| > 0 ==>
      && r.value[1] in dex
      && (exists e :: e in base.evolutions && e.speciesId == r.value[1].id)
      && (|r.value[1].evolutions| == 0 ==> r.value[2] == r.value[1])
      && (|r.value[1].evolutions| > 0 ==>
            r.value[2] in dex && exists e :: e in r.value[1].evolutions && e.speciesId == r.value[2].id)
    ensures r.Failure? ==> r.error.UnknownSpecies?
  {
    if |base.evolutions| == 0 then Success([base, base, base])
    else
      var e1 := Pick(base.evolutions, d1);
      match Lookup(dex, e1.speciesId)
      case None => Failure(UnknownSpecies(e1.speciesId))
      case Some(s1) =>
        if |s1.evolutions| == 0 then Success([base, s1, s1])
        else
          var e2 := Pick(s1.evolutions, d2);
          match Lookup(dex, e2.speciesId)
          case None => Failure(UnknownSpecies(e2.speciesId))
          case Some(s2) => Success([base, s1, s2])
  }

  /** A `_RIVAL_STARTER_POKEMON` entry: which party slot of which trainer holds
      the rival's starter, at which stage. */
  datatype RivalSlot = RivalSlot(trainerId: int, index: nat, stage: nat)


  /** One rival slot rewritten: the stage's species, the old level, fresh
      moves, and locked so the trainer pass leaves it alone. */
  method SetRivalSlot(
    parties: Parties, slot: RivalSlot, stages: seq<Species>, dex: Dex, table: seq<int>,
    cache: PoolCache, moves: MoveOracle
  ) returns (r: Result<(Parties, PoolCache), StarterError>)
    requires |stages| == 3 && forall k :: 0 <= k < 3 ==> stages[k] in dex
    requires Keyed(dex) && CacheFresh(cache, dex, table)
    ensures r.Success? ==>
      var (after, newCache) := r.value;
      && slot.trainerId in parties && slot.index < |parties[slot.trainerId]| && slot.stage < 3
      && slot.trainerId in after && after == parties[slot.trainerId := after[slot.trainerId]]
      && |after[slot.trainerId]| == |parties[slot.trainerId]|
      && (forall j :: 0 <= j < |parties[slot.trainerId]| && j != slot.index ==>
            after[slot.trainerId][j] == parties[slot.trainerId][j])
      && var p := after[slot.trainerId][slot.index];
      && p.speciesId == stages[slot.stage].id
      && p.level == parties[slot.trainerId][slot.index].level
      && p.locked && |p.moves| == 4
      && CacheFresh(newCache, dex, table)
      && BitsFit(stages[slot.stage].tmHm, table)
    ensures r.Failure? ==>
      || r.error in {UnknownTrainer(slot.trainerId), PartyTooShort(slot.trainerId, slot.index), NoSuchStage(slot.stage)}
      || (slot.stage < 3 && r.error == TmHmIndex(stages[slot.stage].id) && !BitsFit(stages[slot.stage].tmHm, table))
  {
    if slot.trainerId !in parties {
      return Failure(UnknownTrainer(slot.trainerId));
    }
    var party := parties[slot.trainerId];
    if slot.stage >= 3 {
      return Failure(NoSuchStage(slot.stage));
    }
    if slot.index >= |party| {
      return Failure(PartyTooShort(slot.trainerId, slot.index));
    }
    var species := stages[slot.stage];
    var rival := party[slot.index];
    var k :| 0 <= k < |dex| && dex[k] == species;
    var computed := MovesFor(dex, k, rival.level, table, cache, moves);
    if computed.None? {
      return Failure(TmHmIndex(species.id));
    }
    var (newMoves, newCache) := computed.value;
    var member := TrainerPokemon(species.id, rival.level, newMoves, true);
    return Success((parties[slot.trainerId := party[slot.index := member]], newCache));
  }

  /** The party slots the rival entries of the first `n` starters name. */
  predicate Targeted(rivals: seq<seq<RivalSlot>>, n: nat, t: int, index: nat) {
    exists i, j :: 0 <= i < n && i < |rivals| && 0 <= j < |rivals[i]| &&
      rivals[i][j].trainerId == t && rivals[i][j].index == index
  }

  /** Parties with the same trainers and party sizes, and the same level in
      every slot. */
  predicate SameShape(before: Parties, after: Parties) {
    && after.Keys == before.Keys
    && forall t :: t in before ==>
         && |after[t]| == |before[t]|
         && forall j :: 0 <= j < |before[t]| ==> after[t][j].level == before[t][j].level
  }

  /** The slots named by the first `n` entries are locked and hold species of
      the dex; every other slot is as it was. */
  predicate RivalsWritten(before: Parties, after: Parties, rivals: seq<seq<RivalSlot>>, n: nat, dex: Dex)
    requires SameShape(before, after)
  {
    forall t, j :: t in before && 0 <= j < |before[t]| ==>
      if Targeted(rivals, n, t, j)
      then after[t][j].locked && |after[t][j].moves| == 4 && exists s :: s in dex && s.id == after[t][j].speciesId
      else after[t][j] == before[t][j]
  }

  /** Entry `y` of list `i` is among the first `n` lists and the first `j`
      entries of list `n`, the ones written so far. */
  predicate Counted(rivals: seq<seq<RivalSlot>>, n: nat, j: nat, i: int, y: int) {
    0 <= i < |rivals| && 0 <= y < |rivals[i]| && (i < n || (i == n && y < j))
  }

  predicate Names(slot: RivalSlot, t: int, x: int) {
    slot.trainerId == t && slot.index == x
  }

  /** Entry `y` of list `i` is the last of the entries written so far that
      names slot `x` of trainer `t`: the write that stays. */
  ghost predicate LastWrite(rivals: seq<seq<RivalSlot>>, n: nat, j: nat, t: int, x: int, i: int, y: int) {
    && Counted(rivals, n, j, i, y) && Names(rivals[i][y], t, x)
    && forall i2, y2 :: Counted(rivals, n, j, i2, y2) && (i < i2 || (i == i2 && y < y2)) ==> !Names(rivals[i2][y2], t, x)
  }

  /** Every written slot holds the species its last write asked for: stage
      `rivals[i][y].stage` of `stages[i]`, the stages of starter `i`. */
  ghost predicate StagesWritten(before: Parties, after: Parties, rivals: seq<seq<RivalSlot>>, stages: seq<seq<Species>>, n: nat, j: nat)
    requires SameShape(before, after)
  {
    forall t, x, i, y :: t in before && 0 <= x < |before[t]| && LastWrite(rivals, n, j, t, x, i, y) ==>
      && i < |stages| && |stages[i]| == 3 && rivals[i][y].stage < 3
      && after[t][x].speciesId == stages[i][rivals[i][y].stage].id
  }

  /** Writing entry `j` of list `i` makes it the last write of its slot and
      leaves every other slot's last write as it was. */
  lemma StagesStep(
    before: Parties, cur: Parties, after: Parties, rivals: seq<seq<RivalSlot>>, stages: seq<seq<Species>>, i: nat, j: nat
  )
    requires i < |rivals| && j < |rivals[i]| && i < |stages| && |stages[i]| == 3
    requires SameShape(before, cur) && SameShape(before, after) && StagesWritten(before, cur, rivals, stages, i, j)
    requires var slot := rivals[i][j];
      && slot.trainerId in cur && slot.index < |cur[slot.trainerId]| && slot.stage < 3
      && (forall t, x :: t in before && 0 <= x < |before[t]| && !Names(slot, t, x) ==> after[t][x] == cur[t][x])
      && after[slot.trainerId][slot.index].speciesId == stages[i][slot.stage].id
    ensures StagesWritten(before, after, rivals, stages, i, j + 1)
  {
    forall t, x, i1, y1 | t in before && 0 <= x < |before[t]| && LastWrite(rivals, i, j + 1, t, x, i1, y1)
      ensures i1 < |stages| && |stages[i1]| == 3 && rivals[i1][y1].stage < 3
      ensures after[t][x].speciesId == stages[i1][rivals[i1][y1].stage].id
    {
      if Names(rivals[i][j], t, x) {
        assert Counted(rivals, i, j + 1, i, j);
        assert i1 == i && y1 == j;
      } else {
        assert LastWrite(rivals, i, j, t, x, i1, y1);
      }
    }
  }

  /** Finishing list `n` and starting list `n + 1` name the same writes. */
  lemma StagesNextList(before: Parties, after: Parties, rivals: seq<seq<RivalSlot>>, stages: seq<seq<Species>>, n: nat)
    requires n < |rivals| && SameShape(before, after)
    requires StagesWritten(before, after, rivals, stages, n, |rivals[n]|)
    ensures StagesWritten(before, after, rivals, stages, n + 1, 0)
  {
    var m: nat := n + 1;
    forall t, x, i, y | t in before && 0 <= x < |before[t]| && LastWrite(rivals, m, 0, t, x, i, y)
      ensures i < |stages| && |stages[i]| == 3 && rivals[i][y].stage < 3
      ensures after[t][x].speciesId == stages[i][rivals[i][y].stage].id
    {
      assert Counted(rivals, n, |rivals[n]|, i, y);
      forall i2, y2 | Counted(rivals, n, |rivals[n]|, i2, y2)
        ensures Counted(rivals, n + 1, 0, i2, y2)
      {
      }
      assert LastWrite(rivals, n, |rivals[n]|, t, x, i, y);
    }
  }

  /** The stages of later starters do not matter to the writes made so far. */
  lemma StagesExtend(before: Parties, after: Parties, rivals: seq<seq<RivalSlot>>, stages: seq<seq<Species>>, s: seq<Species>, n: nat)
    requires |stages| == n && SameShape(before, after)
    requires StagesWritten(before, after, rivals, stages, n, 0)
    ensures StagesWritten(before, after, rivals, stages + [s], n, 0)
  {
    forall t, x, i, y | t in before && 0 <= x < |before[t]| && LastWrite(rivals, n, 0, t, x, i, y)
      ensures (stages + [s])[i] == stages[i]
    {
    }
  }

  /** The entries of one starter's stages, in table order. */
  method SetRivalSlots(
    before: Parties, parties: Parties, rivals: seq<seq<RivalSlot>>, i: nat, stages: seq<Species>,
    dex: Dex, table: seq<int>, cache: PoolCache, moves: (nat, nat) -> MoveOracle, done: seq<seq<Species>>
  ) returns (r: Result<(Parties, PoolCache), StarterError>)
    requires i < |rivals|
    requires |stages| == 3 && forall k :: 0 <= k < 3 ==> stages[k] in dex
    requires Keyed(dex) && CacheFresh(cache, dex, table)
    requires SameShape(before, parties) && RivalsWritten(before, parties, rivals, i, dex)
    requires |done| == i && StagesWritten(before, parties, rivals, done, i, 0)
    ensures r.Success? ==>
      && SameShape(before, r.value.0) && RivalsWritten(before, r.value.0, rivals, i + 1, dex)
      && StagesWritten(before, r.value.0, rivals, done + [stages], i + 1, 0)
      && CacheFresh(r.value.1, dex, table)
  {
    var all := done + [stages];
    StagesExtend(before, parties, rivals, done, stages, i);
    var cur := parties;
    var c := cache;
    var j := 0;
    while j < |rivals[i]|
      invariant 0 <= j <= |rivals[i]|
      invariant SameShape(before, cur) && CacheFresh(c, dex, table)
      invariant PartlyWritten(before, cur, rivals, i, j, dex)
      invariant StagesWritten(before, cur, rivals, all, i, j)
    {
      var slot := rivals[i][j];
      var next :- SetRivalSlot(cur, slot, stages, dex, table, c, moves(i, j));
      WriteStep(before, cur, next.0, rivals, i, j, stages, dex);
      StagesStep(before, cur, next.0, rivals, all, i, j);
      cur, c := next.0, next.1;
      j := j + 1;
    }
    StagesNextList(before, cur, rivals, all, i);
    WrittenNextList(before, cur, rivals, i, dex);
    return Success((cur, c));
  }

  /** The slots named by the entry lists of the first `i` starters and by the
      first `j` entries of list `i` are written; every other slot is as it was. */
  predicate PartlyWritten(before: Parties, cur: Parties, rivals: seq<seq<RivalSlot>>, i: nat, j: nat, dex: Dex)
    requires i < |rivals| && j <= |rivals[i]| && SameShape(before, cur)
  {
    forall t, x :: t in before && 0 <= x < |before[t]| ==>
      if Targeted(rivals, i, t, x) || exists y :: 0 <= y < j && rivals[i][y].trainerId == t && rivals[i][y].index == x
      then cur[t][x].locked && |cur[t][x].moves| == 4 && exists s :: s in dex && s.id == cur[t][x].speciesId
      else cur[t][x] == before[t][x]
  }

  /** Once every entry of list `i` is written, the first `i + 1` lists are. */
  lemma WrittenNextList(before: Parties, cur: Parties, rivals: seq<seq<RivalSlot>>, i: nat, dex: Dex)
    requires i < |rivals| && SameShape(before, cur) && PartlyWritten(before, cur, rivals, i, |rivals[i]|, dex)
    ensures RivalsWritten(before, cur, rivals, i + 1, dex)
  {
    forall t, x | t in before && 0 <= x < |before[t]| && Targeted(rivals, i + 1, t, x)
      ensures Targeted(rivals, i, t, x) || exists y :: 0 <= y < |rivals[i]| && rivals[i][y].trainerId == t && rivals[i][y].index == x
    {
    }
  }

  /** Writing entry `j` of list `i` extends the written slots by that one. */
  lemma WriteStep(
    before: Parties, cur: Parties, after: Parties, rivals: seq<seq<RivalSlot>>, i: nat, j: nat,
    stages: seq<Species>, dex: Dex
  )
    requires i < |rivals| && j < |rivals[i]| && |stages| == 3 && forall k :: 0 <= k < 3 ==> stages[k] in dex
    requires SameShape(before, cur) && PartlyWritten(before, cur, rivals, i, j, dex)
    requires var slot := rivals[i][j];
      && slot.trainerId in cur && slot.index < |cur[slot.trainerId]| && slot.stage < 3
      && slot.trainerId in after && after == cur[slot.trainerId := after[slot.trainerId]]
      && |after[slot.trainerId]| == |cur[slot.trainerId]|
      && (forall y :: 0 <= y < |cur[slot.trainerId]| && y != slot.index ==>
            after[slot.trainerId][y] == cur[slot.trainerId][y])
      && var p := after[slot.trainerId][slot.index];
      && p.speciesId == stages[slot.stage].id
      && p.level == cur[slot.trainerId][slot.index].level
      && p.locked && |p.moves| == 4
    ensures SameShape(before, after) && PartlyWritten(before, after, rivals, i, j + 1, dex)
  {
    var slot := rivals[i][j];
    forall t, x | t in before && 0 <= x < |before[t]|
      ensures (t, x) == (slot.trainerId, slot.index) ==>
        after[t][x].locked && |after[t][x].moves| == 4 && exists s :: s in dex && s.id == after[t][x].speciesId
      ensures (t, x) != (slot.trainerId, slot.index) ==> after[t][x] == cur[t][x]
    {
      if (t, x) == (slot.trainerId, slot.index) {
        assert stages[slot.stage] in dex;
      }
    }
  }

  /** `randomize_starters` once the option is not vanilla: the starters are
      chosen, then for starter `i` the rival's entries `rivals[i]` get its
      stages. The starters are pairwise distinct; the named slots end up locked
      with their old levels, and nothing else in any party changes. */
  method RandomizeStarters(
    starters: seq<int>, original: Dex, dex: Dex, opts: StarterOptions,
    rivals: seq<seq<RivalSlot>>, parties: Parties, table: seq<int>, cache: PoolCache,
    draws: nat -> nat, stageDraws: (nat, nat) -> nat, moves: (nat, nat) -> MoveOracle
  ) returns (r: Result<(seq<Species>, Parties, PoolCache), StarterError>)
    requires Keyed(dex) && CacheFresh(cache, dex, table)
    ensures r.Success? ==>
      var (chosen, after, newCache) := r.value;
      && |chosen| == |starters|
      && (forall i, j :: 0 <= i < j < |chosen| ==> chosen[i].id != chosen[j].id)
      && SameShape(parties, after)
      && RivalsWritten(parties, after, rivals, |chosen|, dex)
      && CacheFresh(newCache, dex, table)
    ensures r.Success? ==> forall i :: 0 <= i < |r.value.0| ==> PickedAt(r.value.0, i, starters, original, dex, opts)
    ensures r.Success? ==> var (chosen, after, _) := r.value;
      forall t, x, i, y :: t in parties && 0 <= x < |parties[t]| && LastWrite(rivals, |chosen|, 0, t, x, i, y) ==>
        && Stages(dex, chosen[i], stageDraws(i, 0), stageDraws(i, 1)).Success?
        && rivals[i][y].stage < 3
        && after[t][x].speciesId == Stages(dex, chosen[i], stageDraws(i, 0), stageDraws(i, 1)).value[rivals[i][y].stage].id
  {
    var chosen :- ChooseStarters(starters, original, dex, opts, draws);
    var cur := parties;
    var c := cache;
    var all: seq<seq<Species>> := [];
    var i := 0;
    while i < |chosen|
      invariant 0 <= i <= |chosen| && |all| == i
      invariant SameShape(parties, cur) && RivalsWritten(parties, cur, rivals, i, dex)
      invariant StagesWritten(parties, cur, rivals, all, i, 0)
      invariant forall k :: 0 <= k < i ==> Stages(dex, chosen[k], stageDraws(k, 0), stageDraws(k, 1)) == Success(all[k])
      invariant CacheFresh(c, dex, table)
    {
      if i >= |rivals| {
        return Failure(MissingRivalEntry(i));
      }
      var stages :- Stages(dex, chosen[i], stageDraws(i, 0), stageDraws(i, 1));
      var next :- SetRivalSlots(parties, cur, rivals, i, stages, dex, table, c, moves, all);
      cur, c := next.0, next.1;
      all := all + [stages];
      i := i + 1;
    }
    return Success((chosen, cur, c));
  }
}

=== FILE: statics.dfy ===
/** `randomize_legendaries` and `randomize_misc_pokemon`: the species behind
    each fixed encounter is replaced, and the label of the event that hands it
    out is rewritten to name the new species. */
module Statics {
  import opened Wrappers
  import opened Seqs
  import opened Strings
  import opened Species
  import opened Draws
  import opened Selection

  /** `RandomizeLegendaryPokemon`; the misc pass reads this option too. */
  datatype StaticMode = Vanilla | Legendaries | AnySpecies | MatchBst | MatchType | MatchBstAndType

  predicate MatchesBst(m: StaticMode) {
    m == MatchBst || m == MatchBstAndType
  }

  predicate MatchesType(m: StaticMode) {
    m == MatchType || m == MatchBstAndType
  }

  datatype GameVersion = FireRed | LeafGreen

  /** `KeyError` on a species id or an event name, `IndexError` on an empty
      candidate list or an empty label, and the failure to read a label out of
      an event item of the wrong shape. */
  datatype StaticError =
    | UnknownSpecies(speciesId: int)
    | NoCandidate
    | UnknownEvent(name: string)
    | BadItem(name: string)
    | EmptyLabel(name: string)

  /** The species `pool` keeps: those sharing a type with `original` when
      types are matched. */
  function TypeMatched(pool: Dex, original: Species, matchType: bool): (r: Dex)
    ensures forall s :: s in r <==> s in pool && (matchType ==> ShareType(s, original))
  {
    if matchType then Filter(pool, (s: Species) => ShareType(s, original)) else pool
  }

  /** A replacement drawn from `pool`: type-matched and base-stat-matched as
      asked, then `random.choice`. */
  method ChooseStatic(pool: Dex, original: Species, mode: StaticMode, d: nat) returns (r: Option<Species>)
    ensures r.Some? <==> exists s :: s in pool && (MatchesType(mode) ==> ShareType(s, original))
    ensures r.Some? ==> r.value in pool
    ensures r.Some? && MatchesType(mode) ==> ShareType(r.value, original)
    ensures r.Some? && MatchesBst(mode) ==>
      r.value in BstKept(TypeMatched(pool, original, MatchesType(mode)), original.baseStats.Total())
  {
    var candidates := TypeMatched(pool, original, MatchesType(mode));
    assert |candidates| > 0 <==> exists s :: s in pool && (MatchesType(mode) ==> ShareType(s, original)) by {
      if |candidates| > 0 {
        assert candidates[0] in candidates;
      }
    }
    r := ChooseAvoiding(candidates, {}, original, MatchesBst(mode), d);
    assert NotIn(candidates, {}) == candidates by {
      NotInNothing(candidates);
    }
  }

  lemma {:induction false} NotInNothing(dex: Dex)
    ensures NotIn(dex, {}) == dex
  {
    if |dex| > 0 {
      NotInNothing(dex[1..]);
      assert dex == [dex[0]] + dex[1..];
    }
  }

  /** The species of `dex` that are legendary and not placed yet. */
  function LegendaryPool(dex: Dex, legendary: set<int>, placed: set<int>): (r: Dex)
    ensures forall s :: s in r <==> s in dex && s.id in legendary && s.id !in placed
  {
    Filter(dex, (s: Species) => s.id in legendary && s.id !in placed)
  }

  /** `id` names a species the base-stat filter keeps for `original`: one of
      the (type-matched) table species nearest it in base-stat total. */
  predicate NearInBst(dex: Dex, original: Species, mode: StaticMode, id: int) {
    id in Ids(BstKept(TypeMatched(dex, original, MatchesType(mode)), original.baseStats.Total()))
  }

  lemma IdListed(xs: Dex, s: Species)
    requires s in xs
    ensures s.id in Ids(xs)
  {
    var k :| 0 <= k < |xs| && xs[k] == s;
    assert Ids(xs)[k] == s.id;
  }

  /** One legendary encounter: in legendaries mode the pool is the legendary
      species not placed yet, otherwise the whole table. */
  method PlaceLegendary(dex: Dex, original: Species, mode: StaticMode, legendary: set<int>, placed: set<int>, d: nat)
    returns (r: Result<int, StaticError>)
    requires Keyed(dex)
    ensures r.Success? ==> HasId(dex, r.value)
    ensures r.Success? && mode == Legendaries ==> r.value in legendary && r.value !in placed
    ensures r.Success? && MatchesType(mode) ==> ShareType(Lookup(dex, r.value).value, original)
    ensures r.Success? && MatchesBst(mode) ==> NearInBst(dex, original, mode, r.value)
    ensures r.Failure? ==> r.error == NoCandidate
  {
    var pool := if mode == Legendaries then LegendaryPool(dex, legendary, placed) else dex;
    var pick := ChooseStatic(pool, original, mode, d);
    if pick.None? {
      return Failure(NoCandidate);
    }
    NewSpeciesFacts(dex, pick.value, original, mode);
    if MatchesBst(mode) {
      IdListed(BstKept(TypeMatched(dex, original, MatchesType(mode)), original.baseStats.Total()), pick.value);
    }
    return Success(pick.value.id);
  }

  /** One step of either placement loop: the encounter's species must be in
      the table, and its replacement extends what the loop keeps. */
  method PlaceNext(dex: Dex, mode: StaticMode, legendary: set<int>, placed: set<int>,
                   before: seq<int>, after: seq<int>, b: int, d: nat)
    returns (r: Result<int, StaticError>)
    requires Keyed(dex) && Placed(dex, mode, before, after)
    ensures r.Success? ==> Placed(dex, mode, before + [b], after + [r.value])
    ensures r.Success? && mode == Legendaries ==> r.value in legendary && r.value !in placed
    ensures r.Failure? ==> r.error == (if Lookup(dex, b).None? then UnknownSpecies(b) else NoCandidate)
  {
    var original := Lookup(dex, b);
    if original.None? {
      return Failure(UnknownSpecies(b));
    }
    r := PlaceLegendary(dex, original.value, mode, legendary, placed, d);
    if r.Success? {
      PlacedAppend(dex, mode, before, after, b, r.value);
    }
  }

  /** The placement loop of `randomize_legendaries` over the encounters'
      species ids (for the selected version). In legendaries mode every new
      species is legendary and no two encounters get the same one; with type
      matching each shares a type with the species it replaces. */
  method RandomizeLegendaries(ids: seq<int>, dex: Dex, mode: StaticMode, legendary: set<int>, draws: nat -> nat)
    returns (r: Result<seq<int>, StaticError>)
    requires Keyed(dex)
    ensures mode == Vanilla ==> r == Success(ids)
    ensures r.Success? ==> |r.value| == |ids|
    ensures r.Success? && mode != Vanilla ==> forall i :: 0 <= i < |ids| ==> HasId(dex, r.value[i])
    ensures r.Success? && mode == Legendaries ==> DistinctLegendaries(r.value, legendary)
    ensures r.Success? && MatchesType(mode) ==> TypesKept(dex, ids, r.value)
    ensures r.Success? && MatchesBst(mode) ==> BstKeptFor(dex, ids, r.value, mode)
  {
    if mode == Vanilla {
      return Success(ids);
    }
    var out :- PlaceAll(ids, dex, mode, legendary, draws);
    PlacedFacts(dex, mode, ids, out);
    return Success(out);
  }

  /** The loop itself: every encounter placed in order, legendary ids not
      repeated. */
  method PlaceAll(ids: seq<int>, dex: Dex, mode: StaticMode, legendary: set<int>, draws: nat -> nat)
    returns (r: Result<seq<int>, StaticError>)
    requires Keyed(dex)
    ensures r.Success? ==> Placed(dex, mode, ids, r.value)
    ensures r.Success? && mode == Legendaries ==> DistinctLegendaries(r.value, legendary)
  {
    var placed: set<int> := {};
    var out: seq<int> := [];
    var i := 0;
    while i < |ids|
      invariant 0 <= i <= |ids| && |out| == i
      invariant Placed(dex, mode, ids[..i], out)
      invariant forall x :: x in placed <==> x in out
      invariant mode == Legendaries ==> DistinctLegendaries(out, legendary)
    {
      var id :- PlaceNext(dex, mode, legendary, placed, ids[..i], out, ids[i], draws(i));
      assert ids[..i + 1] == ids[..i] + [ids[i]];
      if mode == Legendaries {
        DistinctLegendariesAppend(out, legendary, id);
      }
      out := out + [id];
      placed := placed + {id};
      i := i + 1;
    }
    assert ids[..i] == ids;
    return Success(out);
  }

  /** Legendary ids, no two equal. */
  predicate DistinctLegendaries(out: seq<int>, legendary: set<int>) {
    (forall k :: 0 <= k < |out| ==> out[k] in legendary) && Distinct(out)
  }

  /** Each new species shares a type with the one it replaced. */
  predicate TypesKept(dex: Dex, before: seq<int>, after: seq<int>) {
    |before| == |after| &&
    forall k :: 0 <= k < |before| ==>
      Lookup(dex, before[k]).Some? && Lookup(dex, after[k]).Some? &&
      ShareType(Lookup(dex, after[k]).value, Lookup(dex, before[k]).value)
  }

  lemma TypesKeptAppend(dex: Dex, before: seq<int>, after: seq<int>, b: int, a: int)
    requires TypesKept(dex, before, after)
    requires Lookup(dex, b).Some? && Lookup(dex, a).Some?
    requires ShareType(Lookup(dex, a).value, Lookup(dex, b).value)
    ensures TypesKept(dex, before + [b], after + [a])
  {
    var b' := before + [b];
    var a' := after + [a];
    forall k | 0 <= k < |b'|
      ensures Lookup(dex, b'[k]).Some? && Lookup(dex, a'[k]).Some?
      ensures ShareType(Lookup(dex, a'[k]).value, Lookup(dex, b'[k]).value)
    {
      if k < |before| {
        assert b'[k] == before[k] && a'[k] == after[k];
      }
    }
  }

  /** Each new species is one the base-stat filter keeps for the species it
      replaced. */
  predicate BstKeptFor(dex: Dex, before: seq<int>, after: seq<int>, mode: StaticMode) {
    |before| == |after| && forall k :: 0 <= k < |before| ==> NearAt(dex, before, after, mode, k)
  }

  /** The base-stat fact for encounter `k` alone. */
  predicate NearAt(dex: Dex, before: seq<int>, after: seq<int>, mode: StaticMode, k: nat)
    requires k < |before| && |before| == |after|
  {
    Lookup(dex, before[k]).Some? && NearInBst(dex, Lookup(dex, before[k]).value, mode, after[k])
  }

  /** What a placement loop keeps of the encounters done so far: every new id
      is in the table, and it obeys the type and base-stat options of `mode`. */
  predicate Placed(dex: Dex, mode: StaticMode, before: seq<int>, after: seq<int>) {
    && |before| == |after|
    && (forall k :: 0 <= k < |after| ==> HasId(dex, after[k]))
    && (MatchesType(mode) ==> TypesKept(dex, before, after))
    && (MatchesBst(mode) ==> BstKeptFor(dex, before, after, mode))
  }

  lemma PlacedAppend(dex: Dex, mode: StaticMode, before: seq<int>, after: seq<int>, b: int, a: int)
    requires Keyed(dex) && Placed(dex, mode, before, after)
    requires Lookup(dex, b).Some? && HasId(dex, a)
    requires MatchesType(mode) ==> ShareType(Lookup(dex, a).value, Lookup(dex, b).value)
    requires MatchesBst(mode) ==> NearInBst(dex, Lookup(dex, b).value, mode, a)
    ensures Placed(dex, mode, before + [b], after + [a])
  {
    var b' := before + [b];
    var a' := after + [a];
    if MatchesType(mode) {
      TypesKeptAppend(dex, before, after, b, a);
    }
    forall k | 0 <= k < |a'|
      ensures HasId(dex, a'[k])
      ensures MatchesBst(mode) ==> NearAt(dex, b', a', mode, k)
    {
      if k < |before| {
        assert b'[k] == before[k] && a'[k] == after[k];
        assert MatchesBst(mode) ==> NearAt(dex, before, after, mode, k);
      }
    }
  }

  lemma PlacedFacts(dex: Dex, mode: StaticMode, before: seq<int>, after: seq<int>)
    requires Placed(dex, mode, before, after)
    ensures forall k :: 0 <= k < |before| ==> HasId(dex, after[k])
    ensures MatchesType(mode) ==> TypesKept(dex, before, after)
    ensures MatchesBst(mode) ==> BstKeptFor(dex, before, after, mode)
  {
  }

  lemma DistinctLegendariesAppend(out: seq<int>, legendary: set<int>, id: int)
    requires DistinctLegendaries(out, legendary) && id in legendary && id !in out
    ensures DistinctLegendaries(out + [id], legendary)
  {
    var o := out + [id];
    forall i, j | 0 <= i < j < |o|
      ensures o[i] != o[j]
    {
      assert o[i] == out[i];
      if j < |out| {
        assert o[j] == out[j];
      }
    }
  }

  /** What the loop needs about a chosen species: the lookup of its id finds a
      species with its types. */
  lemma NewSpeciesFacts(dex: Dex, s: Species, original: Species, mode: StaticMode)
    requires Keyed(dex) && s in dex && (MatchesType(mode) ==> ShareType(s, original))
    ensures HasId(dex, s.id)
    ensures MatchesType(mode) ==> ShareType(Lookup(dex, s.id).value, original)
  {
    var k :| 0 <= k < |dex| && dex[k] == s;
    LookupKeyed(dex, k);
  }

  /** The placement loop of `randomize_misc_pokemon`: any species of the table
      may replace a misc encounter, matched by type and base stats as the
      legendary option (not the misc one) says. */
  method RandomizeMisc(ids: seq<int>, dex: Dex, miscEnabled: bool, mode: StaticMode, draws: nat -> nat)
    returns (r: Result<seq<int>, StaticError>)
    requires Keyed(dex)
    ensures !miscEnabled ==> r == Success(ids)
    ensures r.Success? ==> |r.value| == |ids|
    ensures r.Success? && miscEnabled ==> forall i :: 0 <= i < |ids| ==> HasId(dex, r.value[i])
    ensures r.Success? && miscEnabled && MatchesType(mode) ==> TypesKept(dex, ids, r.value)
    ensures r.Success? && miscEnabled && MatchesBst(mode) ==> BstKeptFor(dex, ids, r.value, mode)
  {
    if !miscEnabled {
      return Success(ids);
    }
    var any := if mode == Legendaries then AnySpecies else mode;
    var out: seq<int> := [];
    var i := 0;
    while i < |ids|
      invariant 0 <= i <= |ids| && |out| == i
      invariant Placed(dex, any, ids[..i], out)
    {
      var id :- PlaceNext(dex, any, {}, {}, ids[..i], out, ids[i], draws(i));
      assert ids[..i + 1] == ids[..i] + [ids[i]];
      out := out + [id];
      i := i + 1;
    }
    assert ids[..i] == ids;
    PlacedFacts(dex, any, ids, out);
    return Success(out);
  }

  // ---------------------------------------------------------------- event labels

  /** The new label of an event handing out `speciesName`: `Static <name>` or
      `Missable <name>` when the old label starts with that word, else the old
      label's first word; `None` is the `IndexError` of a blank label. The
      label keeps its first word. */
  function Label(item: string, speciesName: string): (r: Option<string>)
    ensures r.None? <==> forall i :: 0 <= i < |item| ==> IsSpace(item[i])
    ensures r.Some? <==> FirstWord(item).Some?
    ensures r.Some? ==> FirstWord(r.value) == FirstWord(item)
    ensures r.Some? && FirstWord(item).value in {"Static", "Missable"} ==>
      r.value == FirstWord(item).value + " " + speciesName
    ensures r.Some? && FirstWord(item).value !in {"Static", "Missable"} ==> r.value == FirstWord(item).value
  {
    match FirstWord(item)
    case None => None
    case Some(w) =>
      if w == "Static" || w == "Missable" then
        FirstWordOfPhrase(w, speciesName);
        Some(w + " " + speciesName)
      else
        FirstWordOfWord(w);
        Some(w)
  }

  /** Relabelling a label it produced, for the same species, changes nothing:
      a produced label is a fixed point of the relabelling. */
  lemma LabelIdempotent(item: string, speciesName: string)
    requires Label(item, speciesName).Some?
    ensures Label(Label(item, speciesName).value, speciesName) == Label(item, speciesName)
  {
    var w := FirstWord(item).value;
    var newLabel := Label(item, speciesName).value;
    if w == "Static" || w == "Missable" {
      assert newLabel == w + " " + speciesName;
      FirstWordOfPhrase(w, speciesName);
    } else {
      assert newLabel == w;
      FirstWordOfWord(w);
    }
  }

  /** `EventData.item`: one text, or one per game version. */
  datatype EventItem = Single(text: string) | PerVersion(texts: seq<string>)

  /** An event as both static passes rebuild it: the four `EventData` fields
      and the `tags` the passes copy from the current event. */
  datatype Event = Event(id: string, name: string, item: EventItem, parentRegion: string, tags: seq<string>)

  /** The legendary pass calls `.split()` on the item: a per-version list has
      no such method. */
  function LegendaryItemText(item: EventItem): (r: Option<string>)
    ensures r.Some? <==> item.Single?
    ensures r.Some? ==> r.value == item.text
  {
    match item
    case Single(t) => Some(t)
    case PerVersion(_) => None
  }

  /** The misc pass's text as written: it compares the version's option key (a
      string) with the integer option value, which in Python is never equal,
      so a per-version item always yields its second text. */
  function MiscItemTextAsWritten(item: EventItem, version: GameVersion): (r: Option<string>)
    ensures item.Single? ==> r == Some(item.text)
    ensures item.PerVersion? ==> (r.Some? <==> |item.texts| >= 2) && (r.Some? ==> r.value == item.texts[1])
  {
    match item
    case Single(t) => Some(t)
    case PerVersion(ts) => if |ts| >= 2 then Some(ts[1]) else None
  }

  /** The text for the running version: the first for FireRed, the second for
      LeafGreen. */
  function MiscItemText(item: EventItem, version: GameVersion): (r: Option<string>)
    ensures item.Single? ==> r == Some(item.text)
    ensures item.PerVersion? ==>
      var k := if version == FireRed then 0 else 1;
      (r.Some? <==> k < |item.texts|) && (r.Some? ==> r.value == item.texts[k])
  {
    match item
    case Single(t) => Some(t)
    case PerVersion(ts) =>
      var k := if version == FireRed then 0 else 1;
      if k < |ts| then Some(ts[k]) else None
  }

  /** The as-written text gives a FireRed game the LeafGreen label whenever
      the two differ. */
  lemma MiscItemTextAsWrittenIgnoresVersion(texts: seq<string>)
    requires |texts| >= 2 && texts[0] != texts[1]
    ensures MiscItemTextAsWritten(PerVersion(texts), FireRed) == Some(texts[1])
    ensures MiscItemText(PerVersion(texts), FireRed) == Some(texts[0])
    ensures MiscItemTextAsWritten(PerVersion(texts), FireRed) != MiscItemText(PerVersion(texts), FireRed)
  {
  }

  /** The corrected text follows the version, and agrees with the as-written
      one on LeafGreen and on single texts. */
  lemma MiscItemTextFollowsVersion(item: EventItem, version: GameVersion)
    ensures version == LeafGreen || item.Single? ==> MiscItemText(item, version) == MiscItemTextAsWritten(item, version)
    ensures item.PerVersion? && |item.texts| >= 2 ==>
      MiscItemText(item, version) == Some(item.texts[if version == FireRed then 0 else 1])
  {
  }

  /** Event `ev` hands out the species `id`: its item is the label built from
      the baseline text `baseText` and that species' name. */
  predicate NamesSpecies(ev: Event, baseText: Option<string>, dex: Dex, id: int) {
    && baseText.Some? && Lookup(dex, id).Some?
    && Label(baseText.value, Lookup(dex, id).value.name).Some?
    && ev.item == Single(Label(baseText.value, Lookup(dex, id).value.name).value)
  }

  /** No placement after `k` and before `end` targets the same event: the
      write of placement `k` is the one that stays. */
  predicate LastBefore(placements: seq<(string, int)>, k: nat, end: nat)
    requires k < |placements| && end <= |placements|
  {
    forall j :: k < j < end ==> placements[j].0 != placements[k].0
  }

  /** The event loop of both passes: every placed encounter whose name is an
      event gets a label naming its new species, read off the baseline event's
      item through `text`. Only those events change, and only in their item. */
  method RelabelEvents(
    events: map<string, Event>, baseline: map<string, Event>, placements: seq<(string, int)>,
    dex: Dex, text: EventItem -> Option<string>
  ) returns (r: Result<map<string, Event>, StaticError>)
    ensures r.Success? ==> r.value.Keys == events.Keys
    ensures r.Success? ==> forall n :: n in events ==> r.value[n].(item := events[n].item) == events[n]
    ensures r.Success? ==> forall n :: n in events ==> r.value[n].tags == events[n].tags
    ensures r.Success? ==> forall n :: n in events && (forall k :: 0 <= k < |placements| ==> placements[k].0 != n) ==>
      r.value[n] == events[n]
    ensures r.Success? ==> forall k :: 0 <= k < |placements| && placements[k].0 in events ==>
      var n := placements[k].0;
      && n in baseline && text(baseline[n].item).Some?
      && r.value[n].item.Single?
      && FirstWord(r.value[n].item.text) == FirstWord(text(baseline[n].item).value)
    ensures r.Success? ==> forall k ::
      0 <= k < |placements| && placements[k].0 in events && LastBefore(placements, k, |placements|) ==>
      var n := placements[k].0;
      n in baseline && NamesSpecies(r.value[n], text(baseline[n].item), dex, placements[k].1)
  {
    var cur := events;
    var i := 0;
    while i < |placements|
      invariant 0 <= i <= |placements|
      invariant cur.Keys == events.Keys
      invariant forall n :: n in events ==> cur[n].(item := events[n].item) == events[n]
      invariant forall n :: n in events && (forall k :: 0 <= k < i ==> placements[k].0 != n) ==> cur[n] == events[n]
      invariant forall k :: 0 <= k < i && placements[k].0 in events ==>
        var n := placements[k].0;
        && n in baseline && text(baseline[n].item).Some?
        && cur[n].item.Single?
        && FirstWord(cur[n].item.text) == FirstWord(text(baseline[n].item).value)
      invariant forall k :: 0 <= k < i && placements[k].0 in events && LastBefore(placements, k, i) ==>
        var n := placements[k].0;
        n in baseline && NamesSpecies(cur[n], text(baseline[n].item), dex, placements[k].1)
    {
      var (name, id) := placements[i];
      if name in events {
        var species := Lookup(dex, id);
        if species.None? {
          return Failure(UnknownSpecies(id));
        }
        if name !in baseline {
          return Failure(UnknownEvent(name));
        }
        var t := text(baseline[name].item);
        if t.None? {
          return Failure(BadItem(name));
        }
        var newLabel := Label(t.value, species.value.name);
        if newLabel.None? {
          return Failure(EmptyLabel(name));
        }
        var next := cur[name := cur[name].(item := Single(newLabel.value))];
        assert NamesSpecies(next[name], text(baseline[name].item), dex, id);
        LastWriteStays(cur, next, events, baseline, placements, dex, text, i);
        cur := next;
      } else {
        LastWriteStays(cur, cur, events, baseline, placements, dex, text, i);
      }
      i := i + 1;
    }
    return Success(cur);
  }

  /** No later encounter has the name of encounter `k`. Encounter names are
      the keys of a dict, so in the game data every encounter is its name's last. */
  predicate LastName(names: seq<string>, k: nat)
    requires k < |names|
  {
    forall j :: k < j < |names| ==> names[j] != names[k]
  }

  /** One turn of the event loop keeps the labels of the last writes: an event
      rewritten at turn `i` names placement `i`'s species, and every other
      event keeps its label. */
  lemma LastWriteStays(
    cur: map<string, Event>, next: map<string, Event>, events: map<string, Event>, baseline: map<string, Event>,
    placements: seq<(string, int)>, dex: Dex, text: EventItem -> Option<string>, i: nat
  )
    requires i < |placements| && cur.Keys == events.Keys && next.Keys == cur.Keys
    requires forall n :: n in cur && n != placements[i].0 ==> next[n] == cur[n]
    requires placements[i].0 in events ==>
      placements[i].0 in baseline &&
      NamesSpecies(next[placements[i].0], text(baseline[placements[i].0].item), dex, placements[i].1)
    requires forall k :: 0 <= k < i && placements[k].0 in events && LastBefore(placements, k, i) ==>
      var n := placements[k].0;
      n in baseline && NamesSpecies(cur[n], text(baseline[n].item), dex, placements[k].1)
    requires forall k :: 0 <= k < i && placements[k].0 in events ==>
      var n := placements[k].0;
      && n in baseline && text(baseline[n].item).Some?
      && cur[n].item.Single?
      && FirstWord(cur[n].item.text) == FirstWord(text(baseline[n].item).value)
    ensures forall k :: 0 <= k < i + 1 && placements[k].0 in events && LastBefore(placements, k, i + 1) ==>
      var n := placements[k].0;
      n in baseline && NamesSpecies(next[n], text(baseline[n].item), dex, placements[k].1)
    ensures forall k :: 0 <= k < i + 1 && placements[k].0 in events ==>
      var n := placements[k].0;
      && n in baseline && text(baseline[n].item).Some?
      && next[n].item.Single?
      && FirstWord(next[n].item.text) == FirstWord(text(baseline[n].item).value)
  {
    forall k | 0 <= k < i + 1 && placements[k].0 in events
      ensures placements[k].0 in baseline && text(baseline[placements[k].0].item).Some?
      ensures next[placements[k].0].item.Single?
      ensures FirstWord(next[placements[k].0].item.text) == FirstWord(text(baseline[placements[k].0].item).value)
    {
      var n := placements[k].0;
      if n == placements[i].0 {
        var base := text(baseline[n].item).value;
        assert next[n].item == Single(Label(base, Lookup(dex, placements[i].1).value.name).value);
      } else {
        assert k < i;
      }
    }
    forall k | 0 <= k < i + 1 && placements[k].0 in events && LastBefore(placements, k, i + 1)
      ensures placements[k].0 in baseline
      ensures NamesSpecies(next[placements[k].0], text(baseline[placements[k].0].item), dex, placements[k].1)
    {
      if k < i {
        assert placements[i].0 != placements[k].0;
        assert LastBefore(placements, k, i);
      }
    }
  }

  /** Pairs each encounter name with its new species id. */
  function Zip(names: seq<string>, ids: seq<int>): (r: seq<(string, int)>)
    requires |names| == |ids|
    ensures |r| == |names| && forall k :: 0 <= k < |r| ==> r[k] == (names[k], ids[k])
  {
    seq(|names|, k requires 0 <= k < |names| => (names[k], ids[k]))
  }

  /** `randomize_legendaries`: the placement, then the labels of the events
      that hand out the placed species. Vanilla changes nothing. */
  method RandomizeLegendaryEncounters(
    names: seq<string>, ids: seq<int>, dex: Dex, mode: StaticMode, legendary: set<int>,
    events: map<string, Event>, baseline: map<string, Event>, draws: nat -> nat
  ) returns (r: Result<(seq<int>, map<string, Event>), StaticError>)
    requires |names| == |ids| && Keyed(dex)
    ensures mode == Vanilla ==> r == Success((ids, events))
    ensures r.Success? ==> |r.value.0| == |ids| && r.value.1.Keys == events.Keys
    ensures r.Success? && mode == Legendaries ==> DistinctLegendaries(r.value.0, legendary)
    ensures r.Success? && MatchesType(mode) ==> TypesKept(dex, ids, r.value.0)
    ensures r.Success? && MatchesBst(mode) ==> BstKeptFor(dex, ids, r.value.0, mode)
    ensures r.Success? ==> forall n :: n in events ==> r.value.1[n].(item := events[n].item) == events[n]
    ensures r.Success? && mode != Vanilla ==> forall k :: 0 <= k < |names| && names[k] in events ==>
      && names[k] in baseline && baseline[names[k]].item.Single?
      && r.value.1[names[k]].item.Single?
      && FirstWord(r.value.1[names[k]].item.text) == FirstWord(baseline[names[k]].item.text)
    ensures r.Success? && mode != Vanilla ==> forall k ::
      0 <= k < |names| && names[k] in events && LastName(names, k) ==>
      && names[k] in baseline
      && NamesSpecies(r.value.1[names[k]], LegendaryItemText(baseline[names[k]].item), dex, r.value.0[k])
  {
    if mode == Vanilla {
      return Success((ids, events));
    }
    var placed :- RandomizeLegendaries(ids, dex, mode, legendary, draws);
    var placements := Zip(names, placed);
    assert forall k :: 0 <= k < |names| && LastName(names, k) ==> LastBefore(placements, k, |placements|);
    var relabelled :- RelabelEvents(events, baseline, placements, dex, LegendaryItemText);
    return Success((placed, relabelled));
  }

  /** The misc placement followed by the relabelling of its events, each
      label read off the baseline item through `text`. Disabled changes
      nothing. */
  method MiscEncountersWith(
    names: seq<string>, ids: seq<int>, dex: Dex, miscEnabled: bool, mode: StaticMode,
    events: map<string, Event>, baseline: map<string, Event>, draws: nat -> nat,
    text: EventItem -> Option<string>
  ) returns (r: Result<(seq<int>, map<string, Event>), StaticError>)
    requires |names| == |ids| && Keyed(dex)
    ensures !miscEnabled ==> r == Success((ids, events))
    ensures r.Success? ==> |r.value.0| == |ids| && r.value.1.Keys == events.Keys
    ensures r.Success? && miscEnabled ==> forall i :: 0 <= i < |ids| ==> HasId(dex, r.value.0[i])
    ensures r.Success? && miscEnabled && MatchesType(mode) ==> TypesKept(dex, ids, r.value.0)
    ensures r.Success? && miscEnabled && MatchesBst(mode) ==> BstKeptFor(dex, ids, r.value.0, mode)
    ensures r.Success? ==> forall n :: n in events ==> r.value.1[n].(item := events[n].item) == events[n]
    ensures r.Success? && miscEnabled ==> forall k :: 0 <= k < |names| && names[k] in events ==>
      && names[k] in baseline && text(baseline[names[k]].item).Some?
      && r.value.1[names[k]].item.Single?
      && FirstWord(r.value.1[names[k]].item.text) == FirstWord(text(baseline[names[k]].item).value)
    ensures r.Success? && miscEnabled ==> forall k ::
      0 <= k < |names| && names[k] in events && LastName(names, k) ==>
      && names[k] in baseline
      && NamesSpecies(r.value.1[names[k]], text(baseline[names[k]].item), dex, r.value.0[k])
  {
    if !miscEnabled {
      return Success((ids, events));
    }
    var placed :- RandomizeMisc(ids, dex, miscEnabled, mode, draws);
    var placements := Zip(names, placed);
    assert forall k :: 0 <= k < |names| && LastName(names, k) ==> LastBefore(placements, k, |placements|);
    var relabelled :- RelabelEvents(events, baseline, placements, dex, text);
    return Success((placed, relabelled));
  }

  /** `randomize_misc_pokemon` as written: every per-version label is read
      through `MiscItemTextAsWritten`, so a FireRed game gets the LeafGreen
      text's first word. */
  method RandomizeMiscEncounters(
    names: seq<string>, ids: seq<int>, dex: Dex, miscEnabled: bool, mode: StaticMode, version: GameVersion,
    events: map<string, Event>, baseline: map<string, Event>, draws: nat -> nat
  ) returns (r: Result<(seq<int>, map<string, Event>), StaticError>)
    requires |names| == |ids| && Keyed(dex)
    ensures !miscEnabled ==> r == Success((ids, events))
    ensures r.Success? ==> |r.value.0| == |ids| && r.value.1.Keys == events.Keys
    ensures r.Success? && miscEnabled ==> forall i :: 0 <= i < |ids| ==> HasId(dex, r.value.0[i])
    ensures r.Success? && miscEnabled && MatchesType(mode) ==> TypesKept(dex, ids, r.value.0)
    ensures r.Success? && miscEnabled && MatchesBst(mode) ==> BstKeptFor(dex, ids, r.value.0, mode)
    ensures r.Success? ==> forall n :: n in events ==> r.value.1[n].(item := events[n].item) == events[n]
    ensures r.Success? && miscEnabled ==> forall k :: 0 <= k < |names| && names[k] in events ==>
      && names[k] in baseline && MiscItemTextAsWritten(baseline[names[k]].item, version).Some?
      && r.value.1[names[k]].item.Single?
      && FirstWord(r.value.1[names[k]].item.text) == FirstWord(MiscItemTextAsWritten(baseline[names[k]].item, version).value)
    ensures r.Success? && miscEnabled ==> forall k ::
      0 <= k < |names| && names[k] in events && LastName(names, k) ==>
      && names[k] in baseline
      && NamesSpecies(r.value.1[names[k]], MiscItemTextAsWritten(baseline[names[k]].item, version), dex, r.value.0[k])
  {
    r := MiscEncountersWith(names, ids, dex, miscEnabled, mode, events, baseline, draws,
      (item: EventItem) => MiscItemTextAsWritten(item, version));
  }

  /** `randomize_misc_pokemon` with each per-version label read for the
      running version (see `MiscItemText`). */
  method RandomizeMiscEncountersCorrected(
    names: seq<string>, ids: seq<int>, dex: Dex, miscEnabled: bool, mode: StaticMode, version: GameVersion,
    events: map<string, Event>, baseline: map<string, Event>, draws: nat -> nat
  ) returns (r: Result<(seq<int>, map<string, Event>), StaticError>)
    requires |names| == |ids| && Keyed(dex)
    ensures !miscEnabled ==> r == Success((ids, events))
    ensures r.Success? ==> |r.value.0| == |ids| && r.value.1.Keys == events.Keys
    ensures r.Success? && miscEnabled ==> forall i :: 0 <= i < |ids| ==> HasId(dex, r.value.0[i])
    ensures r.Success? && miscEnabled && MatchesType(mode) ==> TypesKept(dex, ids, r.value.0)
    ensures r.Success? && miscEnabled && MatchesBst(mode) ==> BstKeptFor(dex, ids, r.value.0, mode)
    ensures r.Success? ==> forall n :: n in events ==> r.value.1[n].(item := events[n].item) == events[n]
    ensures r.Success? && miscEnabled ==> forall k :: 0 <= k < |names| && names[k] in events ==>
      && names[k] in baseline && MiscItemText(baseline[names[k]].item, version).Some?
      && r.value.1[names[k]].item.Single?
      && FirstWord(r.value.1[names[k]].item.text) == FirstWord(MiscItemText(baseline[names[k]].item, version).value)
    ensures r.Success? && miscEnabled ==> forall k ::
      0 <= k < |names| && names[k] in events && LastName(names, k) ==>
      && names[k] in baseline
      && NamesSpecies(r.value.1[names[k]], MiscItemText(baseline[names[k]].item, version), dex, r.value.0[k])
  {
    r := MiscEncountersWith(names, ids, dex, miscEnabled, mode, events, baseline, draws,
      (item: EventItem) => MiscItemText(item, version));
  }

  /** Two texts with different first words give different labels, so reading
      the wrong version's text shows in the label. */
  lemma LabelsKeepFirstWordDifference(a: string, b: string, speciesName: string)
    requires FirstWord(a) != FirstWord(b)
    ensures Label(a, speciesName).Some? && Label(b, speciesName).Some? ==>
      Label(a, speciesName) != Label(b, speciesName)
  {
    if Label(a, speciesName).Some? && Label(b, speciesName).Some? {
      assert FirstWord(Label(a, speciesName).value) == FirstWord(a);
      assert FirstWord(Label(b, speciesName).value) == FirstWord(b);
    }
  }

  /** The misc event item `["Static A", "Missable A"]` in a FireRed game: the
      pass as written labels it `Missable <name>`, the corrected pass
      `Static <name>`. */
  lemma MisreadFireRedLabel(speciesName: string)
    ensures var item := PerVersion(["Static A", "Missable A"]);
      && Label(MiscItemTextAsWritten(item, FireRed).value, speciesName) == Some("Missable " + speciesName)
      && Label(MiscItemText(item, FireRed).value, speciesName) == Some("Static " + speciesName)
      && Label(MiscItemTextAsWritten(item, FireRed).value, speciesName) != Label(MiscItemText(item, FireRed).value, speciesName)
  {
    FirstWordOfPhrase("Static", "A");
    FirstWordOfPhrase("Missable", "A");
    assert "Static A" == "Static" + " " + "A";
    assert "Missable A" == "Missable" + " " + "A";
    assert FirstWord("Missable A") == Some("Missable");
    assert "Missable" != "Static" by { assert "Missable"[0] != "Static"[0]; }
    assert "Missable" + " " == "Missable ";
    assert "Static" + " " == "Static ";
    assert ("Missable " + speciesName)[0] != ("Static " + speciesName)[0];
  }
}

=== FILE: strings.dfy ===
/** Python string operations the loader and the client rely on: `str.split(sep)`,
    `"sep".join`, `int(text)`, `str(n)`, `startswith`, whitespace `split()` and
    code-point ordering of strings. */
module Strings {
  import opened Wrappers

  /** Position of the first occurrence of `c` in `s`. */
  function IndexOf(s: string, c: char): (i: nat)
    requires c in s
    ensures i < |s| && s[i] == c
    ensures c !in s[..i]
  {
    if s[0] == c then 0 else 1 + IndexOf(s[1..], c)
  }

  /** `sep.join(parts)` for a one-character separator. */
  function Join(parts: seq<string>, sep: char): string
  {
    if |parts| == 0 then ""
    else if |parts| == 1 then parts[0]
    else parts[0] + [sep] + Join(parts[1..], sep)
  }

  /** `s.split(sep)` for a one-character separator: never empty, the pieces hold
      no separator, and joining them back gives `s`. */
  function Split(s: string, sep: char): (parts: seq<string>)
    ensures |parts| >= 1
    ensures forall i :: 0 <= i < |parts| ==> sep !in parts[i]
    ensures Join(parts, sep) == s
    decreases |s|
  {
    if sep !in s then [s]
    else
      var i := IndexOf(s, sep);
      var rest := Split(s[i + 1..], sep);
      assert s == s[..i] + [sep] + s[i + 1..];
      [s[..i]] + rest
  }

  /** Splitting a join of separator-free pieces gives the pieces back. */
  lemma {:induction false} SplitJoin(parts: seq<string>, sep: char)
    requires |parts| >= 1
    requires forall i :: 0 <= i < |parts| ==> sep !in parts[i]
    ensures Split(Join(parts, sep), sep) == parts
    decreases |parts|
  {
    if |parts| == 1 {
      assert Join(parts, sep) == parts[0];
    } else {
      var tail := Join(parts[1..], sep);
      var s := parts[0] + [sep] + tail;
      assert Join(parts, sep) == s;
      assert sep in s by { assert s[|parts[0]|] == sep; }
      var i := IndexOf(s, sep);
      assert s[..|parts[0]|] == parts[0];
      assert s[|parts[0]|] == sep;
      assert i == |parts[0]|;
      assert s[..i] == parts[0];
      assert s[i + 1..] == tail;
      SplitJoin(parts[1..], sep);
      assert Split(s, sep) == [parts[0]] + parts[1..];
    }
  }

  // ---------------------------------------------------------------- integers

  predicate IsDigit(c: char) {
    '0' <= c <= '9'
  }

  predicate AllDigits(s: string) {
    forall i :: 0 <= i < |s| ==> IsDigit(s[i])
  }

  function DigitValue(c: char): nat
    requires IsDigit(c)
  {
    (c as int - '0' as int) as nat
  }

  function DigitChar(d: nat): (c: char)
    requires d < 10
    ensures IsDigit(c) && DigitValue(c) == d
  {
    (d + '0' as int) as char
  }

  /** Value of a string of decimal digits, most significant first. */
  function DigitsValue(s: string): nat
    requires AllDigits(s)
  {
    if |s| == 0 then 0 else 10 * DigitsValue(s[..|s| - 1]) + DigitValue(s[|s| - 1])
  }

  /** `str(n)` for a natural number. */
  function NatToString(n: nat): (s: string)
    ensures |s| > 0 && AllDigits(s)
  {
    if n < 10 then [DigitChar(n)] else NatToString(n / 10) + [DigitChar(n % 10)]
  }

  /** `str(n)` for an integer. */
  function IntToString(n: int): string
  {
    if n < 0 then "-" + NatToString(-n) else NatToString(n)
  }

  /** `text.strip()` for the ASCII whitespace of `IsSpace`. */
  function Strip(s: string): (r: string)
    ensures |r| <= |s|
    ensures |r| > 0 ==> !IsSpace(r[0]) && !IsSpace(r[|r| - 1])
    ensures |s| > 0 && !IsSpace(s[0]) ==> |r| > 0 && r[0] == s[0]
  {
    if |s| > 0 && IsSpace(s[0]) then Strip(s[1..])
    else if |s| > 0 && IsSpace(s[|s| - 1]) then Strip(s[..|s| - 1])
    else s
  }

  /** Text without surrounding whitespace strips to itself. */
  lemma StripUnspaced(s: string)
    requires |s| == 0 || (!IsSpace(s[0]) && !IsSpace(s[|s| - 1]))
    ensures Strip(s) == s
  {
  }

  /** The digit part `int()` accepts: digits, with single underscores allowed
      between two digits. */
  predicate Underscored(d: string) {
    && |d| > 0 && IsDigit(d[0]) && IsDigit(d[|d| - 1])
    && (forall i :: 0 <= i < |d| ==> IsDigit(d[i]) || d[i] == '_')
    && forall i, j :: 0 <= i < |d| && 0 <= j < |d| && j == i + 1 && d[i] == '_' ==> d[j] != '_'
  }

  /** The digits of `d`, underscores removed. */
  function DropUnderscores(d: string): (r: string)
    requires forall i :: 0 <= i < |d| ==> IsDigit(d[i]) || d[i] == '_'
    ensures AllDigits(r) && |r| <= |d|
    ensures AllDigits(d) ==> r == d
    ensures |d| > 0 && IsDigit(d[0]) ==> |r| > 0 && r[0] == d[0]
  {
    if |d| == 0 then ""
    else if d[0] == '_' then DropUnderscores(d[1..])
    else [d[0]] + DropUnderscores(d[1..])
  }

  /** The unsigned digit part of `int()`'s input. */
  function ParseUnsigned(d: string): (r: Option<nat>)
    ensures r.Some? <==> Underscored(d)
    ensures AllDigits(d) && |d| > 0 ==> r == Some(DigitsValue(d))
  {
    if Underscored(d) then
      assert forall i :: 0 <= i < |d| ==> IsDigit(d[i]) || d[i] == '_';
      Some(DigitsValue(DropUnderscores(d)))
    else None
  }

  /** An optional sign, then the digit part. */
  function ParseSigned(t: string): (r: Option<int>)
    ensures r.Some? ==> |t| > 0
    ensures |t| > 0 && IsDigit(t[0]) ==> r == ParseUnsigned(t)
    ensures |t| > 0 && t[0] == '-' ==> (r.Some? <==> ParseUnsigned(t[1..]).Some?)
    ensures |t| > 0 && t[0] == '-' && r.Some? ==> r.value == -(ParseUnsigned(t[1..]).value as int)
    ensures |t| > 0 && t[0] == '+' ==> (r.Some? <==> ParseUnsigned(t[1..]).Some?)
    ensures |t| > 0 && t[0] == '+' && r.Some? ==> r.value == ParseUnsigned(t[1..]).value as int
    ensures |t| > 0 && !IsDigit(t[0]) && t[0] != '-' && t[0] != '+' ==> r.None?
  {
    if |t| > 0 && (t[0] == '-' || t[0] == '+') then
      match ParseUnsigned(t[1..])
      case None => None
      case Some(v) => Some(if t[0] == '-' then -(v as int) else v as int)
    else
      match ParseUnsigned(t)
      case None => None
      case Some(v) => Some(v as int)
  }

  /** `int(text)` on ASCII text: surrounding whitespace is stripped, then an
      optional sign and decimal digits, single underscores allowed between
      digits. Anything else is the `ValueError` the Python call raises. */
  function ParseInt(s: string): (r: Option<int>)
    ensures r.Some? ==> |s| > 0
    ensures r.Some? && |s| > 0 && IsDigit(s[0]) ==> r.value >= 0
  {
    ParseSigned(Strip(s))
  }

  lemma {:induction false} DigitsOfNat(n: nat)
    ensures DigitsValue(NatToString(n)) == n
  {
    if n >= 10 {
      var s := NatToString(n);
      assert s[..|s| - 1] == NatToString(n / 10);
      DigitsOfNat(n / 10);
    }
  }

  /** `int(str(n)) == n`. */
  lemma ParseIntToString(n: int)
    ensures ParseInt(IntToString(n)) == Some(n)
  {
    if n < 0 {
      NegativeText(n);
    }
    ParseOfText(IntToString(n), n);
  }

  /** `int()` of a text laid out as `str(n)` lays out `n`. */
  lemma ParseOfText(s: string, n: int)
    requires n < 0 ==> |s| > 1 && s[0] == '-' && s[1..] == NatToString(-n)
    requires n >= 0 ==> s == NatToString(n)
    ensures ParseInt(s) == Some(n)
  {
    if n < 0 {
      var m: nat := -n;
      DigitsOfNat(m);
      var value: int := DigitsValue(s[1..]);
      assert value == m;
      ParseNegativeDigits(s);
      assert ParseInt(s) == Some(-value);
    } else {
      var m: nat := n;
      DigitsOfNat(m);
      var value: int := DigitsValue(s);
      assert value == m;
      ParseDigits(s);
      assert ParseInt(s) == Some(value);
    }
  }

  /** The text of a negative integer is `-` and the digits of its magnitude. */
  lemma NegativeText(n: int)
    requires n < 0
    ensures |IntToString(n)| > 1 && IntToString(n)[0] == '-'
    ensures IntToString(n)[1..] == NatToString(-n)
  {
    var digits := NatToString(-n);
    assert IntToString(n) == "-" + digits;
    assert ("-" + digits)[1..] == digits;
  }

  /** `int()` of plain digits. */
  lemma ParseDigits(d: string)
    requires |d| > 0 && AllDigits(d)
    ensures ParseInt(d) == Some(DigitsValue(d) as int)
  {
    assert !IsSpace(d[0]) && !IsSpace(d[|d| - 1]);
    StripUnspaced(d);
  }

  /** `int()` of `-` followed by plain digits. */
  lemma ParseNegativeDigits(s: string)
    requires |s| > 1 && s[0] == '-' && AllDigits(s[1..])
    ensures ParseInt(s) == Some(-(DigitsValue(s[1..]) as int))
  {
    var d := s[1..];
    assert s[|s| - 1] == d[|d| - 1];
    StripUnspaced(s);
    var u := ParseUnsigned(d);
    assert u == Some(DigitsValue(d));
    var r := ParseSigned(s);
    assert r.Some? && r.value == -(u.value as int);
  }

  /** Plain digits are an accepted digit part. */
  lemma DigitsUnderscored(d: string)
    requires |d| > 0 && AllDigits(d)
    ensures Underscored(d)
  {
  }

  predicate AllSpaces(s: string) {
    forall i :: 0 <= i < |s| ==> IsSpace(s[i])
  }

  /** Whitespace around an unpadded text strips away to exactly that text. */
  lemma {:induction false} StripPadding(pre: string, s: string, post: string)
    requires AllSpaces(pre) && AllSpaces(post)
    requires |s| == 0 || (!IsSpace(s[0]) && !IsSpace(s[|s| - 1]))
    ensures Strip(pre + s + post) == s
    decreases |pre| + |post|
  {
    var t := pre + s + post;
    if |pre| > 0 {
      assert IsSpace(t[0]);
      assert t[1..] == pre[1..] + s + post;
      StripPadding(pre[1..], s, post);
    } else if |post| == 0 {
      assert t == s;
      StripUnspaced(s);
    } else if |s| == 0 {
      assert IsSpace(t[0]);
      assert t[1..] == pre + s + post[1..];
      StripPadding(pre, s, post[1..]);
    } else {
      assert !IsSpace(t[0]);
      assert IsSpace(t[|t| - 1]);
      assert t[..|t| - 1] == pre + s + post[..|post| - 1];
      StripPadding(pre, s, post[..|post| - 1]);
    }
  }

  /** `int()` reads a number the same with or without whitespace around it. */
  lemma ParseIntStrips(pre: string, s: string, post: string)
    requires AllSpaces(pre) && AllSpaces(post)
    requires |s| == 0 || (!IsSpace(s[0]) && !IsSpace(s[|s| - 1]))
    ensures ParseInt(pre + s + post) == ParseInt(s)
  {
    StripPadding(pre, s, post);
    StripUnspaced(s);
  }

  /** Removing underscores from a digit prefix leaves it in place. */
  lemma {:induction false} DropDigitsPrefix(a: string, rest: string)
    requires AllDigits(a)
    requires forall i :: 0 <= i < |rest| ==> IsDigit(rest[i]) || rest[i] == '_'
    ensures forall i :: 0 <= i < |a + rest| ==> IsDigit((a + rest)[i]) || (a + rest)[i] == '_'
    ensures DropUnderscores(a + rest) == a + DropUnderscores(rest)
  {
    if |a| > 0 {
      assert (a + rest)[1..] == a[1..] + rest;
      DropDigitsPrefix(a[1..], rest);
      assert a == [a[0]] + a[1..];
    } else {
      assert a + rest == rest;
    }
  }

  /** `int("a_b")` for digit strings `a` and `b` is the number the digits `ab` spell. */
  lemma ParseIntUnderscore(a: string, b: string)
    requires |a| > 0 && AllDigits(a) && |b| > 0 && AllDigits(b)
    ensures AllDigits(a + b)
    ensures ParseInt(a + "_" + b) == Some(DigitsValue(a + b) as int)
  {
    var rest := "_" + b;
    var d := a + rest;
    assert d == a + "_" + b;
    assert forall i :: 0 <= i < |rest| ==> IsDigit(rest[i]) || rest[i] == '_';
    DropDigitsPrefix(a, rest);
    assert rest[1..] == b;
    assert DropUnderscores(b) == b;
    assert DropUnderscores(rest) == b;
    assert forall i :: 0 <= i < |d| && d[i] == '_' ==> i == |a|;
    assert Underscored(d);
    assert !IsSpace(d[0]) && !IsSpace(d[|d| - 1]);
    StripUnspaced(d);
    assert ParseUnsigned(d) == Some(DigitsValue(a + b));
  }

  /** `int()` rejects a doubled underscore and a trailing one. */
  lemma ParseIntRejectsUnderscores(s: string, i: nat)
    requires i < |s| && !IsSpace(s[0]) && !IsSpace(s[|s| - 1])
    requires (i + 1 < |s| && s[i] == '_' && s[i + 1] == '_') || (i == |s| - 1 && s[i] == '_')
    ensures ParseInt(s) == None
  {
    StripUnspaced(s);
    if s[0] == '-' || s[0] == '+' {
      var d := s[1..];
      if i == |s| - 1 {
        assert d[|d| - 1] == '_';
      } else if i > 0 {
        assert d[i - 1] == '_' && d[i] == '_';
      }
      assert !Underscored(d);
    } else if IsDigit(s[0]) {
      assert !Underscored(s);
    }
  }

  /** The text of an integer holds only digits and `-`. */
  lemma IntToStringChars(n: int, c: char)
    requires c in IntToString(n)
    ensures IsDigit(c) || c == '-'
  {
    var s := IntToString(n);
    var i :| 0 <= i < |s| && s[i] == c;
    if n < 0 {
      if i > 0 {
        assert s[i] == NatToString(-n)[i - 1];
      }
    }
  }

  // ---------------------------------------------------------------- prefixes

  predicate StartsWith(s: string, prefix: string) {
    |prefix| <= |s| && s[..|prefix|] == prefix
  }

  predicate EndsWith(s: string, suffix: string) {
    |suffix| <= |s| && s[|s| - |suffix|..] == suffix
  }

  // ---------------------------------------------------------------- whitespace words

  /** The ASCII characters `str.split()`, `str.strip()` and `int()` treat as
      whitespace: space, tab, line feed, vertical tab, form feed, carriage
      return and the four separators 0x1C-0x1F. */
  predicate IsSpace(c: char) {
    || c == ' ' || c == '\t' || c == '\n' || c == '\r' || c == '\U{0B}' || c == '\U{0C}'
    || c == '\U{1C}' || c == '\U{1D}' || c == '\U{1E}' || c == '\U{1F}'
  }

  function DropSpaces(s: string): (r: string)
    ensures |r| <= |s|
    ensures |r| > 0 ==> !IsSpace(r[0])
  {
    if |s| > 0 && IsSpace(s[0]) then DropSpaces(s[1..]) else s
  }

  function TakeWord(s: string): (w: string)
    ensures forall i :: 0 <= i < |w| ==> !IsSpace(w[i])
  {
    if |s| == 0 || IsSpace(s[0]) then "" else [s[0]] + TakeWord(s[1..])
  }

  /** `s.split()[0]`, or `None` where Python raises `IndexError` on an empty list. */
  function FirstWord(s: string): (r: Option<string>)
    ensures r.Some? ==> |r.value| > 0
    ensures r.Some? ==> forall i :: 0 <= i < |r.value| ==> !IsSpace(r.value[i])
    ensures r.None? <==> forall i :: 0 <= i < |s| ==> IsSpace(s[i])
  {
    AllSpacesDrop(s);
    var rest := DropSpaces(s);
    if |rest| == 0 then None else Some(TakeWord(rest))
  }

  lemma {:induction false} AllSpacesDrop(s: string)
    ensures |DropSpaces(s)| == 0 <==> forall i :: 0 <= i < |s| ==> IsSpace(s[i])
  {
    if |s| > 0 && IsSpace(s[0]) {
      AllSpacesDrop(s[1..]);
      assert forall i :: 1 <= i < |s| ==> s[i] == s[1..][i - 1];
    }
  }

  /** A word followed by a space and anything reads back as that word. */
  lemma {:induction false} FirstWordOfPhrase(w: string, rest: string)
    requires |w| > 0
    requires forall i :: 0 <= i < |w| ==> !IsSpace(w[i])
    ensures FirstWord(w + " " + rest) == Some(w)
  {
    var s := w + " " + rest;
    assert DropSpaces(s) == s;
    TakeWordPrefix(w, " " + rest);
    assert s == w + (" " + rest);
  }

  lemma {:induction false} TakeWordPrefix(w: string, tail: string)
    requires forall i :: 0 <= i < |w| ==> !IsSpace(w[i])
    requires |tail| > 0 && IsSpace(tail[0])
    ensures TakeWord(w + tail) == w
  {
    if |w| == 0 {
      assert w + tail == tail;
    } else {
      assert (w + tail)[1..] == w[1..] + tail;
      TakeWordPrefix(w[1..], tail);
    }
  }

  /** A single word reads back as itself. */
  lemma {:induction false} FirstWordOfWord(w: string)
    requires |w| > 0
    requires forall i :: 0 <= i < |w| ==> !IsSpace(w[i])
    ensures FirstWord(w) == Some(w)
  {
    assert DropSpaces(w) == w;
    TakeWordAll(w);
  }

  lemma {:induction false} TakeWordAll(w: string)
    requires forall i :: 0 <= i < |w| ==> !IsSpace(w[i])
    ensures TakeWord(w) == w
  {
    if |w| > 0 {
      TakeWordAll(w[1..]);
    }
  }

  // ---------------------------------------------------------------- ordering

  /** Python's `<=` on strings: lexicographic by code point, a prefix first. */
  predicate LexLe(a: string, b: string)
    decreases |a|
  {
    |a| == 0 || (|b| > 0 && (a[0] < b[0] || (a[0] == b[0] && LexLe(a[1..], b[1..]))))
  }

  lemma {:induction false} LexLeTotal(a: string, b: string)
    ensures LexLe(a, b) || LexLe(b, a)
    decreases |a|
  {
    if |a| > 0 && |b| > 0 && a[0] == b[0] {
      LexLeTotal(a[1..], b[1..]);
    }
  }

  lemma {:induction false} LexLeTransitive(a: string, b: string, c: string)
    requires LexLe(a, b) && LexLe(b, c)
    ensures LexLe(a, c)
    decreases |a|
  {
    if |a| > 0 && a[0] == b[0] && b[0] == c[0] {
      LexLeTransitive(a[1..], b[1..], c[1..]);
    }
  }
}

=== FILE: tmhm.dfy ===
/** The TM/HM compatibility pass (`randomize_tm_hm_compatability`): bits 0-49
    (the TMs) and bits 50-57 (the HMs) of every species' compatibility array
    are redrawn, each with its option's percentage as the chance of being
    set, unless that option is vanilla. */
module TmHm {
  import opened Wrappers
  import opened Species

  const TmCount: nat := 50
  const HmEnd: nat := 58

  /** `random.random()` is `k / 2^53` for a `k` below `2^53`. */
  const Precision: nat := 0x20_0000_0000_0000

  /** `random() < percent / 100` for the draw `k`, over the integers. */
  predicate Coin(percent: int, k: nat) {
    100 * (k % Precision) < percent * Precision
  }

  /** The two options: vanilla, or the chance in percent of each bit. */
  datatype Compatibility = Vanilla | Percent(p: int)

  /** Bits `lo..hi` redrawn, bit `i` from `draws(i)`; `None` is the
      `IndexError` of an array too short for the range. */
  function Redraw(bits: seq<bool>, lo: nat, hi: nat, percent: int, draws: nat -> nat): (r: Option<seq<bool>>)
    requires lo <= hi
    ensures r.Some? <==> hi <= |bits|
    ensures r.Some? ==> |r.value| == |bits|
    ensures r.Some? ==> forall i :: 0 <= i < |bits| && !(lo <= i < hi) ==> r.value[i] == bits[i]
    ensures r.Some? ==> forall i :: lo <= i < hi ==> r.value[i] == Coin(percent, draws(i))
  {
    if hi > |bits| then None
    else Some(seq(|bits|, i requires 0 <= i < |bits| => if lo <= i < hi then Coin(percent, draws(i)) else bits[i]))
  }

  /** A 0% chance clears every bit of the range and a 100% chance sets it. */
  lemma RedrawExtremes(bits: seq<bool>, lo: nat, hi: nat, draws: nat -> nat)
    requires lo <= hi <= |bits|
    ensures forall i :: lo <= i < hi ==> !Redraw(bits, lo, hi, 0, draws).value[i]
    ensures forall i :: lo <= i < hi ==> Redraw(bits, lo, hi, 100, draws).value[i]
  {
  }

  /** With a chance strictly between 0 and 100, every setting of the range is
      reachable, and the rest of the array is kept. */
  lemma RedrawReachesAll(bits: seq<bool>, lo: nat, hi: nat, percent: int, target: seq<bool>)
    requires lo <= hi <= |bits| && |target| == |bits| && 0 < percent < 100
    requires forall i :: 0 <= i < |bits| && !(lo <= i < hi) ==> target[i] == bits[i]
    ensures Redraw(bits, lo, hi, percent, (i: nat) => if i < |target| && target[i] then 0 else Precision - 1) == Some(target)
  {
    var draws := (i: nat) => if i < |target| && target[i] then 0 else Precision - 1;
    var r := Redraw(bits, lo, hi, percent, draws).value;
    forall i | 0 <= i < |bits|
      ensures r[i] == target[i]
    {
      if lo <= i < hi && !target[i] {
        assert draws(i) % Precision == Precision - 1;
        assert 100 * (Precision - 1) >= percent * Precision;
      }
    }
    assert r == target;
  }

  /** One species' array: the TM range when that option is not vanilla, then
      the HM range when its option is not vanilla; bit `i` draws `draws(i)`. */
  function RedrawBits(bits: seq<bool>, tm: Compatibility, hm: Compatibility, draws: nat -> nat): (r: Option<seq<bool>>)
    ensures r.Some? <==> (tm.Percent? ==> TmCount <= |bits|) && (hm.Percent? ==> HmEnd <= |bits|)
    ensures r.Some? ==> |r.value| == |bits|
    ensures r.Some? ==> forall i :: 0 <= i < |bits| ==>
      r.value[i] == (if i < TmCount && tm.Percent? then Coin(tm.p, draws(i))
                     else if TmCount <= i < HmEnd && hm.Percent? then Coin(hm.p, draws(i))
                     else bits[i])
  {
    var afterTm := if tm.Percent? then Redraw(bits, 0, TmCount, tm.p, draws) else Some(bits);
    match afterTm
    case None => None
    case Some(b) => if hm.Percent? then Redraw(b, TmCount, HmEnd, hm.p, draws) else Some(b)
  }

  /** Both options vanilla leave every array as it is. */
  lemma VanillaKeepsBits(bits: seq<bool>, draws: nat -> nat)
    ensures RedrawBits(bits, Vanilla, Vanilla, draws) == Some(bits)
  {
  }

  /** `randomize_tm_hm_compatability` over the table: species `k` draws
      `draws(k, i)` for bit `i`. Only the compatibility arrays change. */
  function RandomizeTmHmCompatibility(dex: Dex, tm: Compatibility, hm: Compatibility, draws: (nat, nat) -> nat): (r: Option<Dex>)
    ensures r.Some? <==> forall k :: 0 <= k < |dex| ==> RedrawBits(dex[k].tmHm, tm, hm, (i: nat) => draws(k, i)).Some?
    ensures r.Some? ==> |r.value| == |dex|
    ensures r.Some? ==> forall k :: 0 <= k < |dex| ==>
      && r.value[k] == dex[k].(tmHm := r.value[k].tmHm)
      && Some(r.value[k].tmHm) == RedrawBits(dex[k].tmHm, tm, hm, (i: nat) => draws(k, i))
  {
    RandomizeFrom(dex, 0, tm, hm, draws)
  }

  function RandomizeFrom(dex: Dex, k: nat, tm: Compatibility, hm: Compatibility, draws: (nat, nat) -> nat): (r: Option<Dex>)
    requires k <= |dex|
    ensures r.Some? <==> forall j :: k <= j < |dex| ==> RedrawBits(dex[j].tmHm, tm, hm, (i: nat) => draws(j, i)).Some?
    ensures r.Some? ==> |r.value| == |dex| - k
    ensures r.Some? ==> forall j :: k <= j < |dex| ==>
      && r.value[j - k] == dex[j].(tmHm := r.value[j - k].tmHm)
      && Some(r.value[j - k].tmHm) == RedrawBits(dex[j].tmHm, tm, hm, (i: nat) => draws(j, i))
    decreases |dex| - k
  {
    if k == |dex| then Some([])
    else
      match RedrawBits(dex[k].tmHm, tm, hm, (i: nat) => draws(k, i))
      case None => None
      case Some(bits) =>
        match RandomizeFrom(dex, k + 1, tm, hm, draws)
        case None => None
        case Some(rest) => Some([dex[k].(tmHm := bits)] + rest)
  }
}

=== FILE: trainer_moves.dfy ===
/** `_get_trainer_pokemon_moves`: the four moves a trainer's Pokémon is given,
    drawn from the moves its species learns by its level and the TMs/HMs it is
    compatible with. */
module TrainerMoves {
  import opened Wrappers
  import opened Seqs
  import opened Species
  import opened Draws

  /** A party member: species, level, four moves, and whether the pass that
      rewrites parties must leave it alone. */
  datatype TrainerPokemon = TrainerPokemon(speciesId: int, level: int, moves: seq<int>, locked: bool)

  /** Every trainer's party, by trainer id. */
  type Parties = map<int, seq<TrainerPokemon>>

  /** Every set bit has an entry in the TM/HM move table; a clear bit is never
      looked up. */
  predicate BitsFit(bits: seq<bool>, table: seq<int>) {
    forall i :: 0 <= i < |bits| && bits[i] ==> i < |table|
  }

  /** The move each compatible TM/HM bit teaches, in bit order. `table` is
      `data.tmhm_moves`. */
  function CompatibleMoves(bits: seq<bool>, table: seq<int>): (r: seq<int>)
    requires BitsFit(bits, table)
    ensures forall m :: m in r <==> exists i :: 0 <= i < |bits| && bits[i] && table[i] == m
  {
    if |bits| == 0 then []
    else
      var n := |bits| - 1;
      var rest := CompatibleMoves(bits[..n], table);
      assert forall i :: 0 <= i < n ==> bits[..n][i] == bits[i];
      if bits[n] then rest + [table[n]] else rest
  }

  /** The species' TM/HM move pool: its compatible moves, sorted, without
      repeats; `None` is the `IndexError` of a set bit past the table. */
  function TmHmPool(s: Species, table: seq<int>): (r: Option<seq<int>>)
    ensures r.Some? <==> BitsFit(s.tmHm, table)
    ensures r.Some? ==> Increasing(r.value)
    ensures r.Some? ==> forall m :: m in r.value <==> exists i :: 0 <= i < |s.tmHm| && s.tmHm[i] && table[i] == m
  {
    if BitsFit(s.tmHm, table) then Some(SortedDistinct(CompatibleMoves(s.tmHm, table))) else None
  }

  /** A Pokémon of level `level` could have learned `m` by levelling up. */
  predicate Knows(learnset: seq<LearnsetMove>, level: int, m: int) {
    m != 0 && exists k :: 0 <= k < |learnset| && learnset[k].moveId == m && learnset[k].level <= level
  }

  /** The learnset's nonzero moves at or below `level`, in learnset order. */
  function KnownMoves(learnset: seq<LearnsetMove>, level: int): (r: seq<int>)
    ensures forall m :: m in r <==> Knows(learnset, level, m)
  {
    if |learnset| == 0 then []
    else
      var n := |learnset| - 1;
      var rest := KnownMoves(learnset[..n], level);
      assert forall k :: 0 <= k < n ==> learnset[..n][k] == learnset[k];
      var here := learnset[n];
      if here.moveId != 0 && here.level <= level then rest + [here.moveId] else rest
  }

  /** The level-up pool: `sorted({...})` of the known moves. */
  function LevelUpPool(learnset: seq<LearnsetMove>, level: int): (r: seq<int>)
    ensures Increasing(r)
    ensures forall m :: m in r <==> Knows(learnset, level, m)
  {
    SortedDistinct(KnownMoves(learnset, level))
  }

  /** A short pool padded with 0s at the end to four entries. */
  function Pad(pool: seq<int>): (r: seq<int>)
    requires |pool| < 4
    ensures |r| == 4
    ensures forall j :: 0 <= j < |pool| ==> r[j] == pool[j]
    ensures forall j :: |pool| <= j < 4 ==> r[j] == 0
  {
    seq(4, j requires 0 <= j < 4 => if j < |pool| then pool[j] else 0)
  }

  function Reverse(xs: seq<int>): (r: seq<int>)
    ensures |r| == |xs| && forall j :: 0 <= j < |xs| ==> r[j] == xs[|xs| - 1 - j]
  {
    seq(|xs|, j requires 0 <= j < |xs| => xs[|xs| - 1 - j])
  }

  /** No nonzero entry occurs twice. */
  predicate NoRepeats(moves: seq<int>) {
    forall i, j :: 0 <= i < |moves| && 0 <= j < |moves| && i != j && moves[i] != 0 ==> moves[i] != moves[j]
  }

  /** Four moves from a pool without repeats: the padded pool when it is short,
      else `random.sample(pool, 4)`. */
  function FourOf(pool: seq<int>, draws: nat -> nat): (r: seq<int>)
    ensures |r| == 4
    ensures forall j :: 0 <= j < 4 && r[j] != 0 ==> r[j] in pool
    ensures |pool| < 4 ==> r == Pad(pool)
    ensures Distinct(pool) ==> NoRepeats(r)
  {
    if |pool| < 4 then Pad(pool)
    else
      var r := Sample(pool, 4, draws).value;
      assert Distinct(pool) ==> NoRepeats(r) by {
        if Distinct(pool) {
          SampleDistinct(pool, 4, draws);
        }
      }
      forall j | 0 <= j < 4
        ensures r[j] in pool
      {
        assert r[j] in multiset(r);
      }
      r
  }

  /** The level-up moves: the known moves, padded at the end with 0s when fewer
      than four, else four distinct ones sampled. */
  function LevelUpMoves(learnset: seq<LearnsetMove>, level: int, draws: nat -> nat): (r: seq<int>)
    ensures |r| == 4 && NoRepeats(r)
    ensures forall j :: 0 <= j < 4 && r[j] != 0 ==> Knows(learnset, level, r[j])
    ensures |LevelUpPool(learnset, level)| < 4 ==> r == Pad(LevelUpPool(learnset, level))
  {
    var pool := LevelUpPool(learnset, level);
    IncreasingDistinct(pool);
    FourOf(pool, draws)
  }

  /** The TM/HM moves: a short pool padded and then reversed, so its 0s come
      first; otherwise four distinct ones sampled. */
  function TmHmMoves(pool: seq<int>, draws: nat -> nat): (r: seq<int>)
    ensures |r| == 4
    ensures Distinct(pool) ==> NoRepeats(r)
    ensures forall j :: 0 <= j < 4 && r[j] != 0 ==> r[j] in pool
    ensures |pool| < 4 ==> r == Reverse(Pad(pool)) && r[0] == 0
  {
    var four := FourOf(pool, draws);
    if |pool| < 4 then Reverse(four) else four
  }

  /** Slot `j` takes the TM/HM move when coin `j` comes up (the `random() <
      0.25` test) and the first TM/HM move is nonzero; the test on slot 0 guards
      all four slots, as written. */
  function Combine(tm: seq<int>, lu: seq<int>, coins: nat -> bool): (r: seq<int>)
    requires |tm| == 4 && |lu| == 4
    ensures |r| == 4
    ensures forall j :: 0 <= j < 4 ==> r[j] == (if coins(j) && tm[0] != 0 then tm[j] else lu[j])
  {
    seq(4, j requires 0 <= j < 4 => if coins(j) && tm[0] != 0 then tm[j] else lu[j])
  }

  /** The draws one call consumes: the level-up sample, the TM/HM sample and
      the four `random() < 0.25` coins. */
  datatype MoveOracle = MoveOracle(levelUp: nat -> nat, tmHm: nat -> nat, coins: nat -> bool)

  /** The per-species TM/HM pools computed so far (`per_species_tmhm_moves`). */
  type PoolCache = map<int, seq<int>>

  /** Every cached pool is the one computed from the species' current
      compatibility bits. */
  predicate CacheFresh(cache: PoolCache, dex: Dex, table: seq<int>) {
    forall id :: id in cache ==>
      exists k :: 0 <= k < |dex| && dex[k].id == id && TmHmPool(dex[k], table) == Some(cache[id])
  }

  /** `_get_trainer_pokemon_moves` for species `s` at level `level`: the pool is
      taken from the cache, or computed and cached. `None` is the `IndexError`
      of computing the pool of a species whose set bits overrun the table. */
  function TrainerPokemonMoves(
    s: Species, level: int, table: seq<int>, cache: PoolCache,
    luDraws: nat -> nat, tmDraws: nat -> nat, coins: nat -> bool
  ): (r: Option<(seq<int>, PoolCache)>)
    ensures r.None? <==> s.id !in cache && !BitsFit(s.tmHm, table)
    ensures r.Some? ==> |r.value.0| == 4
    ensures r.Some? ==> r.value.1 == (if s.id in cache then cache else cache[s.id := TmHmPool(s, table).value])
    ensures r.Some? ==> forall j :: 0 <= j < 4 ==>
      r.value.0[j] == LevelUpMoves(s.learnset, level, luDraws)[j] ||
      r.value.0[j] == TmHmMoves(r.value.1[s.id], tmDraws)[j]
  {
    var known := if s.id in cache then Some(cache[s.id]) else TmHmPool(s, table);
    match known
    case None => None
    case Some(pool) =>
      var newCache := if s.id in cache then cache else cache[s.id := pool];
      var lu := LevelUpMoves(s.learnset, level, luDraws);
      var tm := TmHmMoves(pool, tmDraws);
      Some((Combine(tm, lu, coins), newCache))
  }

  /** In a keyed table with a fresh cache, the cached pool of a species is its
      current pool. */
  lemma CachedPoolIsCurrent(dex: Dex, k: nat, table: seq<int>, cache: PoolCache)
    requires Keyed(dex) && k < |dex|
    requires CacheFresh(cache, dex, table) && dex[k].id in cache
    ensures TmHmPool(dex[k], table) == Some(cache[dex[k].id])
  {
    var k' :| 0 <= k' < |dex| && dex[k'].id == dex[k].id && TmHmPool(dex[k'], table) == Some(cache[dex[k].id]);
    assert Ids(dex)[k'] == Ids(dex)[k];
  }

  /** With a fresh cache the moves are computed exactly when the species' set
      bits fit the table, and every nonzero move is one the species learns by
      its level or one of its compatible TMs/HMs. */
  lemma MovesAreLearnable(
    dex: Dex, k: nat, level: int, table: seq<int>, cache: PoolCache,
    luDraws: nat -> nat, tmDraws: nat -> nat, coins: nat -> bool, j: nat
  )
    requires Keyed(dex) && k < |dex|
    requires CacheFresh(cache, dex, table)
    requires j < 4
    ensures var r := TrainerPokemonMoves(dex[k], level, table, cache, luDraws, tmDraws, coins);
      && (r.Some? <==> BitsFit(dex[k].tmHm, table))
      && (r.Some? && r.value.0[j] != 0 ==>
            || Knows(dex[k].learnset, level, r.value.0[j])
            || exists i :: 0 <= i < |dex[k].tmHm| && dex[k].tmHm[i] && table[i] == r.value.0[j])
  {
    var s := dex[k];
    if s.id in cache {
      CachedPoolIsCurrent(dex, k, table, cache);
    }
    var r := TrainerPokemonMoves(s, level, table, cache, luDraws, tmDraws, coins);
    if r.Some? {
      var pool := r.value.1[s.id];
      assert Some(pool) == TmHmPool(s, table);
      var tm := TmHmMoves(pool, tmDraws);
      if r.value.0[j] != 0 && r.value.0[j] == tm[j] {
        assert tm[j] in pool;
      }
    }
  }

  /** Computing a species' moves keeps a fresh cache fresh. */
  lemma CacheStaysFresh(
    dex: Dex, k: nat, level: int, table: seq<int>, cache: PoolCache,
    luDraws: nat -> nat, tmDraws: nat -> nat, coins: nat -> bool
  )
    requires k < |dex| && CacheFresh(cache, dex, table)
    ensures var r := TrainerPokemonMoves(dex[k], level, table, cache, luDraws, tmDraws, coins);
      r.Some? ==> CacheFresh(r.value.1, dex, table)
  {
    var s := dex[k];
    var r := TrainerPokemonMoves(s, level, table, cache, luDraws, tmDraws, coins);
    if r.Some? && s.id !in cache {
      var next := r.value.1;
      assert next == cache[s.id := TmHmPool(s, table).value];
      forall id | id in next
        ensures exists k' :: 0 <= k' < |dex| && dex[k'].id == id && TmHmPool(dex[k'], table) == Some(next[id])
      {
        if id == s.id {
          assert dex[k].id == id && TmHmPool(dex[k], table) == Some(next[id]);
        } else {
          assert id in cache && next[id] == cache[id];
        }
      }
    }
  }

  /** The guard quirk: when the first TM/HM move is 0 no coin matters and the
      result is the level-up moves. */
  lemma NoFirstTmKeepsLevelUp(tm: seq<int>, lu: seq<int>, coins: nat -> bool)
    requires |tm| == 4 && |lu| == 4 && tm[0] == 0
    ensures Combine(tm, lu, coins) == lu
  {
  }

  /** A species compatible with fewer than four TM/HM moves always gets its
      level-up moves: the padded list is reversed, so its first entry is 0. */
  lemma FewTmsKeepLevelUp(
    s: Species, level: int, table: seq<int>, cache: PoolCache,
    luDraws: nat -> nat, tmDraws: nat -> nat, coins: nat -> bool
  )
    ensures var r := TrainerPokemonMoves(s, level, table, cache, luDraws, tmDraws, coins);
      r.Some? && |r.value.1[s.id]| < 4 ==> r.value.0 == LevelUpMoves(s.learnset, level, luDraws)
  {
    var r := TrainerPokemonMoves(s, level, table, cache, luDraws, tmDraws, coins);
    if r.Some? && |r.value.1[s.id]| < 4 {
      var tm := TmHmMoves(r.value.1[s.id], tmDraws);
      NoFirstTmKeepsLevelUp(tm, LevelUpMoves(s.learnset, level, luDraws), coins);
    }
  }

  /** When every coin comes up tails the level-up moves are kept. */
  lemma TailsKeepLevelUp(tm: seq<int>, lu: seq<int>, coins: nat -> bool)
    requires |tm| == 4 && |lu| == 4 && forall j :: 0 <= j < 4 ==> !coins(j)
    ensures Combine(tm, lu, coins) == lu
  {
  }

  /** With a nonzero first TM/HM move every mix of the two lists is reachable:
      the coins pick slot by slot. */
  lemma CoinsReachEveryMix(tm: seq<int>, lu: seq<int>, pick: seq<bool>)
    requires |tm| == 4 && |lu| == 4 && |pick| == 4 && tm[0] != 0
    ensures Combine(tm, lu, (j: nat) => j < 4 && pick[j]) == seq(4, j requires 0 <= j < 4 => if pick[j] then tm[j] else lu[j])
  {
  }

  /** `_get_trainer_pokemon_moves` for the species at position `k` of a keyed
      table, as the passes call it: `None` exactly when the species' set bits
      overrun the table; otherwise four moves, each 0, a move the species
      learns by `level` or one of its compatible TMs/HMs, with the cache kept
      fresh. */
  method MovesFor(dex: Dex, k: nat, level: int, table: seq<int>, cache: PoolCache, oracle: MoveOracle)
    returns (r: Option<(seq<int>, PoolCache)>)
    requires Keyed(dex) && k < |dex| && CacheFresh(cache, dex, table)
    ensures r.Some? <==> BitsFit(dex[k].tmHm, table)
    ensures r.Some? ==> |r.value.0| == 4 && CacheFresh(r.value.1, dex, table)
    ensures r.Some? ==> forall j :: 0 <= j < 4 && r.value.0[j] != 0 ==>
      || Knows(dex[k].learnset, level, r.value.0[j])
      || exists i :: 0 <= i < |dex[k].tmHm| && dex[k].tmHm[i] && table[i] == r.value.0[j]
  {
    r := TrainerPokemonMoves(dex[k], level, table, cache, oracle.levelUp, oracle.tmHm, oracle.coins);
    MovesAreLearnable(dex, k, level, table, cache, oracle.levelUp, oracle.tmHm, oracle.coins, 0);
    CacheStaysFresh(dex, k, level, table, cache, oracle.levelUp, oracle.tmHm, oracle.coins);
    if r.Some? {
      var moves := r.value.0;
      forall j | 0 <= j < 4 && moves[j] != 0
        ensures || Knows(dex[k].learnset, level, moves[j])
                || exists i :: 0 <= i < |dex[k].tmHm| && dex[k].tmHm[i] && table[i] == moves[j]
      {
        MovesAreLearnable(dex, k, level, table, cache, oracle.levelUp, oracle.tmHm, oracle.coins, j);
      }
    }
  }
}

=== FILE: trainers.dfy ===
/** The trainer-party pass (`randomize_trainer_parties`): every party member
    that the starter pass did not lock is replaced by a species drawn from the
    table, avoiding the player's blacklist and, when asked, the species that
    share no type with the vanilla species of that slot; it keeps its level and
    gets a fresh move set. */
module Trainers {
  import opened Wrappers
  import opened Seqs
  import opened Species
  import opened Selection
  import opened TrainerMoves

  /** The trainer option: vanilla, or which of the two matchings apply; and the
      player's trainer blacklist. */
  datatype TrainerOptions = TrainerOptions(vanilla: bool, matchBst: bool, matchType: bool, blacklist: set<int>)

  datatype TrainerError =
    | UnknownSpecies(id: int)   // `data.species[...]` raised `KeyError`
    | NoCandidate               // `random.choice` of an empty list
    | TmHmIndex(speciesId: int) // a compatibility bit past the TM/HM move table

  /** The blacklist of one slot: the player's list joined with the type
      blacklist, then the player's list alone, then nothing, falling back
      whenever the list in hand covers all 386 real species. */
  function TrainerBlacklist(opts: TrainerOptions, dex: Dex, original: Species): (r: set<int>)
    ensures r <= opts.blacklist + TypeBlacklist(dex, original)
  {
    var typeBlacklist := if opts.matchType then TypeBlacklist(dex, original) else {};
    FallBack(opts.blacklist + typeBlacklist, opts.blacklist, {}, NumRealSpecies)
  }

  /** Unless the lists together cover every real species, the slot's blacklist
      holds the player's whole list and, with type matching, every species of
      the table that shares no type with the original. */
  lemma TrainerBlacklistKeepsLists(opts: TrainerOptions, dex: Dex, original: Species)
    ensures var typeBlacklist := if opts.matchType then TypeBlacklist(dex, original) else {};
      |opts.blacklist + typeBlacklist| != NumRealSpecies ==>
        TrainerBlacklist(opts, dex, original) == opts.blacklist + typeBlacklist
    ensures |opts.blacklist| != NumRealSpecies ==> opts.blacklist <= TrainerBlacklist(opts, dex, original)
  {
  }

  /** What the pass promises a slot: a locked member is left as it is; any
      other gets, unlocked and at its old level, four moves and a species of
      the table outside the slot's blacklist, one of those nearest the
      original in base-stat total when base stats are matched. */
  predicate Rerolled(before: TrainerPokemon, after: TrainerPokemon, vanillaDex: Dex, dex: Dex, opts: TrainerOptions) {
    if before.locked then after == before
    else
      && !after.locked && after.level == before.level && |after.moves| == 4
      && HasId(dex, after.speciesId)
      && var original := Lookup(vanillaDex, before.speciesId);
      && original.Some?
      && after.speciesId !in TrainerBlacklist(opts, dex, original.value)
      && (opts.matchBst ==>
            after.speciesId in Ids(BstKept(NotIn(dex, TrainerBlacklist(opts, dex, original.value)), original.value.baseStats.Total())))
  }

  /** One party member. `vanillaDex` is the unmodified species table the
      original species is read from; `dex` is the randomized one candidates
      come from. */
  method RerollMember(
    vanillaDex: Dex, dex: Dex, p: TrainerPokemon, opts: TrainerOptions,
    table: seq<int>, cache: PoolCache, d: nat, moves: MoveOracle
  ) returns (r: Result<(TrainerPokemon, PoolCache), TrainerError>)
    requires Keyed(dex) && CacheFresh(cache, dex, table)
    ensures p.locked ==> r == Success((p, cache))
    ensures r.Success? ==> Rerolled(p, r.value.0, vanillaDex, dex, opts) && CacheFresh(r.value.1, dex, table)
    ensures r.Success? && !p.locked ==> forall j :: 0 <= j < 4 && r.value.0.moves[j] != 0 ==>
      exists s :: s in dex && s.id == r.value.0.speciesId && LearnableBy(s, r.value.0.level, table, r.value.0.moves[j])
    ensures r.Failure? ==> r.error == UnknownSpecies(p.speciesId) || r.error == NoCandidate || r.error.TmHmIndex?
    ensures r.Failure? && r.error.TmHmIndex? ==>
      exists s :: s in dex && s.id == r.error.speciesId && !BitsFit(s.tmHm, table)
  {
    if p.locked {
      return Success((p, cache));
    }
    var original := Lookup(vanillaDex, p.speciesId);
    if original.None? {
      return Failure(UnknownSpecies(p.speciesId));
    }
    var blacklist := TrainerBlacklist(opts, dex, original.value);
    var species := ChooseAvoiding(dex, blacklist, original.value, opts.matchBst, d);
    if species.None? {
      return Failure(NoCandidate);
    }
    var k :| 0 <= k < |dex| && dex[k] == species.value;
    var computed := MovesFor(dex, k, p.level, table, cache, moves);
    if computed.None? {
      return Failure(TmHmIndex(species.value.id));
    }
    var (newMoves, newCache) := computed.value;
    var member := TrainerPokemon(species.value.id, p.level, newMoves, false);
    assert HasId(dex, member.speciesId);
    if opts.matchBst {
      var kept := BstKept(NotIn(dex, blacklist), original.value.baseStats.Total());
      var x :| 0 <= x < |kept| && kept[x] == species.value;
      assert Ids(kept)[x] == member.speciesId;
    }
    forall j | 0 <= j < 4 && newMoves[j] != 0
      ensures LearnableBy(dex[k], p.level, table, newMoves[j])
    {
    }
    return Success((member, newCache));
  }

  /** A move the species learns by `level`, or one of its compatible TMs/HMs. */
  predicate LearnableBy(s: Species, level: int, table: seq<int>, m: int) {
    || Knows(s.learnset, level, m)
    || exists i :: 0 <= i < |s.tmHm| && i < |table| && s.tmHm[i] && table[i] == m
  }

  /** A whole party, slot by slot; slot `j` draws `draws(j)` and `moves(j)`. */
  method RerollParty(
    vanillaDex: Dex, dex: Dex, party: seq<TrainerPokemon>, opts: TrainerOptions,
    table: seq<int>, cache: PoolCache, draws: nat -> nat, moves: nat -> MoveOracle
  ) returns (r: Result<(seq<TrainerPokemon>, PoolCache), TrainerError>)
    requires Keyed(dex) && CacheFresh(cache, dex, table)
    ensures r.Success? ==> PartyRerolled(party, r.value.0, vanillaDex, dex, opts) && CacheFresh(r.value.1, dex, table)
  {
    var out: seq<TrainerPokemon> := [];
    var c := cache;
    var j := 0;
    while j < |party|
      invariant 0 <= j <= |party| && |out| == j && CacheFresh(c, dex, table)
      invariant forall x :: 0 <= x < j ==> Rerolled(party[x], out[x], vanillaDex, dex, opts)
    {
      var next :- RerollMember(vanillaDex, dex, party[j], opts, table, c, draws(j), moves(j));
      out := out + [next.0];
      c := next.1;
      j := j + 1;
    }
    return Success((out, c));
  }

  predicate PartyRerolled(before: seq<TrainerPokemon>, after: seq<TrainerPokemon>, vanillaDex: Dex, dex: Dex, opts: TrainerOptions) {
    |after| == |before| && forall j :: 0 <= j < |before| ==> Rerolled(before[j], after[j], vanillaDex, dex, opts)
  }

  /** `randomize_trainer_parties`: the parties are visited in `order` (the
      trainer table's order); trainer `order[i]`'s slot `j` draws
      `draws(i, j)` and `moves(i, j)`. Vanilla changes nothing; otherwise every
      party is rerolled and no trainer is added or dropped. */
  method RandomizeTrainerParties(
    order: seq<int>, parties: Parties, vanillaDex: Dex, dex: Dex, opts: TrainerOptions,
    table: seq<int>, cache: PoolCache, draws: (nat, nat) -> nat, moves: (nat, nat) -> MoveOracle
  ) returns (r: Result<(Parties, PoolCache), TrainerError>)
    requires Distinct(order) && forall t :: t in parties <==> t in order
    requires Keyed(dex) && CacheFresh(cache, dex, table)
    ensures opts.vanilla ==> r == Success((parties, cache))
    ensures r.Success? ==> r.value.0.Keys == parties.Keys && CacheFresh(r.value.1, dex, table)
    ensures r.Success? && !opts.vanilla ==> forall t :: t in parties ==>
      PartyRerolled(parties[t], r.value.0[t], vanillaDex, dex, opts)
  {
    if opts.vanilla {
      return Success((parties, cache));
    }
    var cur := parties;
    var c := cache;
    var i := 0;
    while i < |order|
      invariant 0 <= i <= |order| && cur.Keys == parties.Keys && CacheFresh(c, dex, table)
      invariant forall x :: 0 <= x < i ==> order[x] in parties && PartyRerolled(parties[order[x]], cur[order[x]], vanillaDex, dex, opts)
      invariant forall t :: t in parties && t !in order[..i] ==> cur[t] == parties[t]
    {
      var t := order[i];
      assert t !in order[..i] by {
        DistinctNotBefore(order, i);
      }
      var next :- RerollParty(vanillaDex, dex, cur[t], opts, table, c,
        (j: nat) => draws(i, j), (j: nat) => moves(i, j));
      assert order[..i + 1] == order[..i] + [t];
      cur := cur[t := next.0];
      c := next.1;
      i := i + 1;
    }
    forall t | t in parties
      ensures PartyRerolled(parties[t], cur[t], vanillaDex, dex, opts)
    {
      var x :| 0 <= x < |order| && order[x] == t;
    }
    return Success((cur, c));
  }

  /** Unless the lists together cover every real species, a rerolled member
      avoids the player's blacklist and, with type matching, its new species
      shares a type with the vanilla species of the slot. */
  lemma RerolledMatches(before: TrainerPokemon, after: TrainerPokemon, vanillaDex: Dex, dex: Dex, opts: TrainerOptions)
    requires Keyed(dex) && !before.locked && Rerolled(before, after, vanillaDex, dex, opts)
    ensures var original := Lookup(vanillaDex, before.speciesId).value;
      var typeBlacklist := if opts.matchType then TypeBlacklist(dex, original) else {};
      |opts.blacklist + typeBlacklist| != NumRealSpecies ==>
        && after.speciesId !in opts.blacklist
        && (opts.matchType ==> ShareType(Lookup(dex, after.speciesId).value, original))
  {
    var original := Lookup(vanillaDex, before.speciesId).value;
    var typeBlacklist := if opts.matchType then TypeBlacklist(dex, original) else {};
    if |opts.blacklist + typeBlacklist| != NumRealSpecies && opts.matchType {
      var s := Lookup(dex, after.speciesId).value;
      assert s in dex && s.id == after.speciesId;
      assert after.speciesId !in TypeBlacklist(dex, original);
    }
  }
}

=== FILE: types_pass.dfy ===
/** `randomize_types`: the three ways species types are rewritten. Types are
    the ids 0..17; id 9 is the unused `???` type, which no species has and
    none may receive. */
module TypesPass {
  import opened Wrappers
  import opened Seqs
  import opened Species
  import opened Draws

  const TypeCount: nat := 18
  const MysteryType: int := 9

  function Range(n: nat): (r: seq<int>)
    ensures |r| == n
    ensures forall i :: 0 <= i < n ==> r[i] == i
  {
    seq(n, i => i)
  }

  /** `xs.index(x)`: the first position holding `x`. */
  function IndexOf(xs: seq<int>, x: int): (i: nat)
    requires x in xs
    ensures i < |xs| && xs[i] == x && x !in xs[..i]
  {
    if xs[0] == x then 0
    else
      var i := 1 + IndexOf(xs[1..], x);
      assert xs[..i] == [xs[0]] + xs[1..][..i - 1];
      i
  }

  /** A list that maps every type id to a type id. */
  predicate MapsTypes(tm: seq<int>) {
    |tm| == TypeCount && forall t :: 0 <= t < TypeCount ==> 0 <= tm[t] < TypeCount
  }

  /** A rearrangement of the type ids that sends `???` to itself. */
  predicate IsTypeMap(tm: seq<int>) {
    |tm| == TypeCount && tm[MysteryType] == MysteryType && multiset(tm) == multiset(Range(TypeCount))
  }

  /** A type map is a bijection of 0..17 whose only preimage of `???` is `???`. */
  lemma TypeMapBijective(tm: seq<int>)
    requires IsTypeMap(tm)
    ensures MapsTypes(tm) && Distinct(tm)
    ensures forall t :: 0 <= t < TypeCount ==> t in tm
    ensures forall t :: 0 <= t < TypeCount ==> (tm[t] == MysteryType <==> t == MysteryType)
  {
    var ids := Range(TypeCount);
    PermutationKeepsDistinct(tm, ids);
    forall t | 0 <= t < TypeCount
      ensures 0 <= tm[t] < TypeCount && t in tm
    {
      PermutationMembers(tm, ids, tm[t]);
      PermutationMembers(tm, ids, t);
      assert ids[t] == t;
    }
  }

  /** The shuffled list with `???` swapped back into slot 9. */
  function TypeMap(draws: nat -> nat): (tm: seq<int>)
    ensures IsTypeMap(tm)
  {
    var shuffled := Shuffle(Range(TypeCount), draws);
    PermutationMembers(shuffled, Range(TypeCount), MysteryType);
    assert Range(TypeCount)[MysteryType] == MysteryType;
    Swap(shuffled, IndexOf(shuffled, MysteryType), MysteryType)
  }

  predicate ValidTypes(s: Species) {
    0 <= s.types.0 < TypeCount && 0 <= s.types.1 < TypeCount
  }

  /** The species with both types sent through `tm`. */
  function Retype(s: Species, tm: seq<int>): (r: Species)
    requires ValidTypes(s) && MapsTypes(tm)
    ensures ValidTypes(r)
  {
    s.(types := (tm[s.types.0], tm[s.types.1]))
  }

  // ---------------------------------------------------------------- shuffle mode

  /** Shuffle mode: one type map for every species. */
  function ShuffleTypes(dex: Dex, draws: nat -> nat): (r: Dex)
    requires forall s :: s in dex ==> ValidTypes(s)
    ensures |r| == |dex|
    ensures forall k :: 0 <= k < |dex| ==> ValidTypes(r[k])
  {
    var tm := TypeMap(draws);
    TypeMapMapsTypes(tm);
    RetypeAll(dex, tm)
  }

  /** Every species sent through one map of types. */
  function RetypeAll(dex: Dex, tm: seq<int>): (r: Dex)
    requires forall s :: s in dex ==> ValidTypes(s)
    requires MapsTypes(tm)
    ensures |r| == |dex|
    ensures forall k :: 0 <= k < |dex| ==> ValidTypes(r[k]) && r[k] == Retype(dex[k], tm)
  {
    seq(|dex|, k requires 0 <= k < |dex| => Retype(dex[k], tm))
  }

  lemma TypeMapMapsTypes(tm: seq<int>)
    requires IsTypeMap(tm)
    ensures MapsTypes(tm)
  {
    TypeMapBijective(tm);
  }

  /** The inverse of a type map: where each type came from. */
  function Inverse(tm: seq<int>): (inv: seq<int>)
    requires IsTypeMap(tm)
    ensures MapsTypes(inv)
    ensures forall t :: 0 <= t < TypeCount ==> 0 <= tm[t] < TypeCount && inv[tm[t]] == t && tm[inv[t]] == t
  {
    TypeMapBijective(tm);
    var inv := seq(TypeCount, t requires 0 <= t < TypeCount => IndexOf(tm, t));
    assert forall t :: 0 <= t < TypeCount ==> inv[tm[t]] == t by {
      forall t | 0 <= t < TypeCount
        ensures inv[tm[t]] == t
      {
        var i := IndexOf(tm, tm[t]);
        assert tm[i] == tm[t];
      }
    }
    inv
  }

  lemma RetypeInverse(s: Species, tm: seq<int>)
    requires ValidTypes(s) && IsTypeMap(tm)
    ensures MapsTypes(tm) && Retype(Retype(s, tm), Inverse(tm)) == s
  {
    TypeMapBijective(tm);
  }

  /** Shuffle mode loses nothing: mapping every species back through the
      inverse of the draw's type map gives the original table. */
  lemma ShuffleTypesInvertible(dex: Dex, draws: nat -> nat)
    requires forall s :: s in dex ==> ValidTypes(s)
    ensures var r := ShuffleTypes(dex, draws);
      var inv := Inverse(TypeMap(draws));
      forall k :: 0 <= k < |dex| ==> Retype(r[k], inv) == dex[k]
  {
    var tm := TypeMap(draws);
    var inv := Inverse(tm);
    var r := ShuffleTypes(dex, draws);
    forall k | 0 <= k < |dex|
      ensures Retype(r[k], inv) == dex[k]
    {
      assert dex[k] in dex;
      assert r[k] == Retype(dex[k], tm);
      RetypeInverse(dex[k], tm);
    }
  }

  /** Shuffle mode: no species gains `???`, single-typed species stay
      single-typed and dual-typed ones dual-typed, and two species share a type
      afterwards exactly when they did before. */
  lemma ShuffleTypesPreserves(dex: Dex, draws: nat -> nat, i: nat, j: nat)
    requires forall s :: s in dex ==> ValidTypes(s)
    requires i < |dex| && j < |dex|
    ensures var r := ShuffleTypes(dex, draws);
      && (r[i].types.0 == MysteryType <==> dex[i].types.0 == MysteryType)
      && (r[i].types.1 == MysteryType <==> dex[i].types.1 == MysteryType)
      && (r[i].types.0 == r[i].types.1 <==> dex[i].types.0 == dex[i].types.1)
      && (ShareType(r[i], r[j]) <==> ShareType(dex[i], dex[j]))
      && r[i] == dex[i].(types := r[i].types)
  {
    var tm := TypeMap(draws);
    TypeMapBijective(tm);
    var r := ShuffleTypes(dex, draws);
    assert dex[i] in dex && dex[j] in dex;
    assert r[i] == Retype(dex[i], tm) && r[j] == Retype(dex[j], tm);
    RetypePreserves(dex[i], dex[j], tm);
  }

  lemma RetypePreserves(s: Species, u: Species, tm: seq<int>)
    requires ValidTypes(s) && ValidTypes(u) && IsTypeMap(tm)
    ensures MapsTypes(tm)
    ensures var rs, ru := Retype(s, tm), Retype(u, tm);
      && (rs.types.0 == MysteryType <==> s.types.0 == MysteryType)
      && (rs.types.1 == MysteryType <==> s.types.1 == MysteryType)
      && (rs.types.0 == rs.types.1 <==> s.types.0 == s.types.1)
      && (ShareType(rs, ru) <==> ShareType(s, u))
  {
    TypeMapBijective(tm);
    assert forall x, y :: 0 <= x < TypeCount && 0 <= y < TypeCount ==> (tm[x] == tm[y] <==> x == y);
  }

  // ---------------------------------------------------------------- completely random

  /** The types `_get_random_type` can return: every type but `???`. Its
      rejection loop draws uniformly from this list. */
  const NonMysteryTypes: seq<int> := [0, 1, 2, 3, 4, 5, 6, 7, 8, 10, 11, 12, 13, 14, 15, 16, 17]

  lemma NonMysteryTypesFacts()
    ensures |NonMysteryTypes| == TypeCount - 1
    ensures forall t :: t in NonMysteryTypes <==> 0 <= t < TypeCount && t != MysteryType
    ensures Distinct(NonMysteryTypes)
  {
    forall t | 0 <= t < TypeCount && t != MysteryType
      ensures t in NonMysteryTypes
    {
      if t < MysteryType { assert NonMysteryTypes[t] == t; }
      else { assert NonMysteryTypes[t - 1] == t; }
    }
  }

  /** The non-`???` types other than `t1`: what the redraw loop for a second
      type can end on. */
  function Others(t1: int): (r: seq<int>)
    requires t1 in NonMysteryTypes
    ensures |r| == TypeCount - 2
    ensures forall t :: t in r <==> t in NonMysteryTypes && t != t1
  {
    NonMysteryTypesFacts();
    var i := IndexOf(NonMysteryTypes, t1);
    var r := Remove(NonMysteryTypes, i);
    forall t
      ensures t in r <==> t in NonMysteryTypes && t != t1
    {
      DistinctMultiplicity(NonMysteryTypes, t);
      assert t in r <==> t in multiset(r);
      assert t in NonMysteryTypes <==> t in multiset(NonMysteryTypes);
    }
    r
  }

  /** One species in completely random mode: a random non-`???` first type, and
      a second type equal to it for a single-typed species or redrawn until it
      differs for a dual-typed one. */
  function RandomTypes(before: (int, int), d1: nat, d2: nat): (t: (int, int))
    ensures 0 <= t.0 < TypeCount && t.0 != MysteryType
    ensures 0 <= t.1 < TypeCount && t.1 != MysteryType
    ensures t.0 == t.1 <==> before.0 == before.1
  {
    NonMysteryTypesFacts();
    var t1 := Pick(NonMysteryTypes, d1);
    if before.0 == before.1 then (t1, t1)
    else (t1, Pick(Others(t1), d2))
  }

  /** Every pair the contract of `RandomTypes` allows is drawn by some draws. */
  lemma RandomTypesReachAll(before: (int, int), t: (int, int))
    requires 0 <= t.0 < TypeCount && t.0 != MysteryType
    requires 0 <= t.1 < TypeCount && t.1 != MysteryType
    requires t.0 == t.1 <==> before.0 == before.1
    ensures exists d1: nat, d2: nat :: RandomTypes(before, d1, d2) == t
  {
    NonMysteryTypesFacts();
    var d1 := IndexOf(NonMysteryTypes, t.0);
    ChoiceReachesAll(NonMysteryTypes, d1);
    if before.0 == before.1 {
      assert RandomTypes(before, d1, 0) == t;
    } else {
      var others := Others(t.0);
      var d2 := IndexOf(others, t.1);
      ChoiceReachesAll(others, d2);
      assert RandomTypes(before, d1, d2) == t;
    }
  }

  /** Completely random mode, species `k` using the draws `draws(k, 0)` and
      `draws(k, 1)`. */
  function RandomizeEachType(dex: Dex, draws: (int, nat) -> nat): (r: Dex)
    ensures |r| == |dex|
    ensures forall k :: 0 <= k < |dex| ==>
      && r[k] == dex[k].(types := r[k].types)
      && ValidTypes(r[k])
      && r[k].types.0 != MysteryType && r[k].types.1 != MysteryType
      && (r[k].types.0 == r[k].types.1 <==> dex[k].types.0 == dex[k].types.1)
  {
    seq(|dex|, k requires 0 <= k < |dex| =>
      dex[k].(types := RandomTypes(dex[k].types, draws(k, 0), draws(k, 1))))
  }

  // ---------------------------------------------------------------- follow evolutions

  /** The family root of species `id`: the species reached by following
      pre-evolution links up to one with none. `None` when an id is missing or
      the chain does not end within `fuel` steps (a cycle). */
  function RootOf(dex: Dex, id: int, fuel: nat): (r: Option<int>)
    ensures r.Some? ==> HasId(dex, r.value)
    decreases fuel
  {
    if fuel == 0 then None
    else
      match Lookup(dex, id)
      case None => None
      case Some(s) =>
        if s.preEvolution.None? then Some(id) else RootOf(dex, s.preEvolution.value, fuel - 1)
  }

  /** More fuel never changes a root that was found. */
  lemma {:induction false} RootOfMoreFuel(dex: Dex, id: int, fuel: nat)
    requires RootOf(dex, id, fuel).Some?
    ensures RootOf(dex, id, fuel + 1) == RootOf(dex, id, fuel)
    decreases fuel
  {
    var s := Lookup(dex, id).value;
    if s.preEvolution.Some? {
      RootOfMoreFuel(dex, s.preEvolution.value, fuel - 1);
    }
  }

  /** The family root of species `k`, searched with fuel `|dex|`. */
  function Root(dex: Dex, k: nat): Option<int>
    requires k < |dex|
  {
    RootOf(dex, dex[k].id, |dex|)
  }

  /** Follow-evolutions mode: each family is retyped through the type map drawn
      for its root (`draws(root, _)`); a species outside every family (its
      pre-evolution chain is broken or cyclic) is never reached and keeps its
      types. */
  function FollowEvolutionTypes(dex: Dex, draws: (int, nat) -> nat): (r: Dex)
    requires forall s :: s in dex ==> ValidTypes(s)
    ensures |r| == |dex|
    ensures forall k :: 0 <= k < |dex| ==> r[k] == dex[k].(types := r[k].types) && ValidTypes(r[k])
    ensures forall k :: 0 <= k < |dex| && Root(dex, k).None? ==> r[k] == dex[k]
  {
    seq(|dex|, k requires 0 <= k < |dex| =>
      match Root(dex, k)
      case None => dex[k]
      case Some(root) =>
        var tm := TypeMap(n => draws(root, n));
        TypeMapBijective(tm);
        Retype(dex[k], tm))
  }

  /** An evolution belongs to the family of its pre-evolution. */
  lemma EvolutionSharesRoot(dex: Dex, i: nat, j: nat)
    requires Keyed(dex) && i < |dex| && j < |dex|
    requires dex[j].preEvolution == Some(dex[i].id)
    requires Root(dex, j).Some?
    ensures Root(dex, i) == Root(dex, j)
  {
    LookupKeyed(dex, j);
    RootOfMoreFuel(dex, dex[i].id, |dex| - 1);
  }

  /** Follow-evolutions mode sends a species and its evolution through one type
      map; like shuffle mode it never introduces `???`. */
  lemma FollowEvolutionTypesSharesMap(dex: Dex, draws: (int, nat) -> nat, i: nat, j: nat)
    requires forall s :: s in dex ==> ValidTypes(s)
    requires Keyed(dex) && i < |dex| && j < |dex|
    requires dex[j].preEvolution == Some(dex[i].id)
    requires Root(dex, j).Some?
    ensures var r := FollowEvolutionTypes(dex, draws);
      exists tm :: IsTypeMap(tm) && MapsTypes(tm) &&
        r[i] == Retype(dex[i], tm) && r[j] == Retype(dex[j], tm)
  {
    EvolutionSharesRoot(dex, i, j);
    var tm := TypeMap(n => draws(Root(dex, j).value, n));
    TypeMapBijective(tm);
    assert FollowEvolutionTypes(dex, draws)[i] == Retype(dex[i], tm);
  }

  /** A family root is its own root, so every species without a pre-evolution is
      retyped through its own draw. */
  lemma RootOfRoot(dex: Dex, k: nat)
    requires Keyed(dex) && k < |dex| && dex[k].preEvolution.None?
    ensures Root(dex, k) == Some(dex[k].id)
  {
    LookupKeyed(dex, k);
  }

  // ---------------------------------------------------------------- the pass

  datatype TypesMode = Vanilla | ShuffleAll | CompletelyRandom | FollowEvolutions

  /** `randomize_types`. Shuffle mode uses the stream `draws(0, _)`. */
  function RandomizeTypes(dex: Dex, mode: TypesMode, draws: (int, nat) -> nat): (r: Dex)
    requires forall s :: s in dex ==> ValidTypes(s)
    ensures |r| == |dex|
    ensures forall k :: 0 <= k < |dex| ==> r[k] == dex[k].(types := r[k].types) && ValidTypes(r[k])
    ensures mode == Vanilla ==> r == dex
  {
    match mode
    case Vanilla => dex
    case ShuffleAll =>
      var r := ShuffleTypes(dex, n => draws(0, n));
      assert forall k :: 0 <= k < |dex| ==> r[k] == dex[k].(types := r[k].types) by {
        forall k | 0 <= k < |dex| { ShuffleTypesPreserves(dex, n => draws(0, n), k, k); }
      }
      r
    case CompletelyRandom => RandomizeEachType(dex, draws)
    case FollowEvolutions => FollowEvolutionTypes(dex, draws)
  }
}

=== FILE: warps.dfy ===
/** Warp events (doorways, warp pads) and their encoded string form
    `SRC_MAP:ids/DEST_MAP:ids`, with a trailing `!` marking a one-way warp. */
module Warps {
  import opened Wrappers
  import opened Strings

  datatype Warp = Warp(
    isOneWay: bool,
    sourceMap: string,
    sourceIds: seq<int>,
    destMap: string,
    destIds: seq<int>)

  /** The `ValueError`s decoding can raise: a split that does not give exactly
      two fields, or an id that is not an integer. */
  datatype DecodeError = NotTwoFields(text: string, sep: char) | NotAnInteger(text: string)

  predicate EndsWithBang(encoded: string) {
    |encoded| > 0 && encoded[|encoded| - 1] == '!'
  }

  /** The text that is split into fields: the encoding without its trailing `!`. */
  function Body(encoded: string): (b: string)
    ensures EndsWithBang(encoded) ==> encoded == b + "!"
    ensures !EndsWithBang(encoded) ==> b == encoded
  {
    if EndsWithBang(encoded) then encoded[..|encoded| - 1] else encoded
  }

  /** Python's `a, b = text.split(sep)`: exactly two fields or a `ValueError`. */
  function SplitTwo(text: string, sep: char): (r: Result<(string, string), DecodeError>)
    ensures r.Success? <==> |Split(text, sep)| == 2
    ensures r.Success? ==> text == r.value.0 + [sep] + r.value.1
    ensures r.Success? ==> sep !in r.value.0 && sep !in r.value.1
  {
    var parts := Split(text, sep);
    if |parts| == 2 then
      assert Join(parts, sep) == parts[0] + [sep] + parts[1];
      Success((parts[0], parts[1]))
    else Failure(NotTwoFields(text, sep))
  }

  /** `[int(index) for index in pieces]`, failing on the first non-integer. */
  function ParseIds(pieces: seq<string>): (r: Result<seq<int>, DecodeError>)
    ensures r.Success? ==> |r.value| == |pieces|
    ensures r.Success? ==> forall i :: 0 <= i < |pieces| ==> ParseInt(pieces[i]) == Some(r.value[i])
    ensures r.Failure? <==> exists i :: 0 <= i < |pieces| && ParseInt(pieces[i]).None?
  {
    if |pieces| == 0 then Success([])
    else
      match ParseInt(pieces[0])
      case None => Failure(NotAnInteger(pieces[0]))
      case Some(v) =>
        var rest := ParseIds(pieces[1..]);
        if rest.Failure? then
          var k :| 0 <= k < |pieces[1..]| && ParseInt(pieces[1..][k]).None?;
          assert ParseInt(pieces[k + 1]).None?;
          rest
        else
          assert forall i :: 1 <= i < |pieces| ==> pieces[i] == pieces[1..][i - 1];
          Success([v] + rest.value)
  }

  /** One side of a warp, `MAP:ids`: the map name and the ids in order. */
  function DecodeSide(text: string): (r: Result<(string, seq<int>), DecodeError>)
    ensures r.Success? ==> '/' !in text ==> '/' !in r.value.0
    ensures r.Success? ==> ':' !in r.value.0 && |r.value.1| >= 1
    ensures r.Success? ==> exists idText: string ::
      && text == r.value.0 + ":" + idText && ':' !in idText
      && ParseIds(Split(idText, ',')) == Success(r.value.1)
    ensures r.Success? <==> |Split(text, ':')| == 2 && ParseIds(Split(Split(text, ':')[1], ',')).Success?
  {
    var fields :- SplitTwo(text, ':');
    var ids :- ParseIds(Split(fields.1, ','));
    assert text == fields.0 + ":" + fields.1;
    Success((fields.0, ids))
  }

  /** `Warp.decode`: strips one trailing `!` (the one-way marker), splits the rest
      at `/` into source and destination, each at `:` into map and ids, and the ids
      at `,` into integers kept in order. */
  function Decode(encoded: string): (r: Result<Warp, DecodeError>)
    ensures r.Success? ==> (r.value.isOneWay <==> EndsWithBang(encoded))
    ensures r.Success? ==> Encodable(r.value)
    ensures r.Success? ==> exists sourceText: string, destText: string ::
      && Body(encoded) == (r.value.sourceMap + ":" + sourceText) + "/" + (r.value.destMap + ":" + destText)
      && ParseIds(Split(sourceText, ',')) == Success(r.value.sourceIds)
      && ParseIds(Split(destText, ',')) == Success(r.value.destIds)
    ensures r.Success? <==>
      && |Split(Body(encoded), '/')| == 2
      && DecodeSide(Split(Body(encoded), '/')[0]).Success?
      && DecodeSide(Split(Body(encoded), '/')[1]).Success?
  {
    var halves :- SplitTwo(Body(encoded), '/');
    var source :- DecodeSide(halves.0);
    var dest :- DecodeSide(halves.1);
    var sourceText: string :| halves.0 == source.0 + ":" + sourceText && ParseIds(Split(sourceText, ',')) == Success(source.1);
    var destText: string :| halves.1 == dest.0 + ":" + destText && ParseIds(Split(destText, ',')) == Success(dest.1);
    assert Body(encoded) == (source.0 + ":" + sourceText) + "/" + (dest.0 + ":" + destText);
    Success(Warp(EndsWithBang(encoded), source.0, source.1, dest.0, dest.1))
  }

  /** `Warp.connects_to`: this warp sends the player to `other`. */
  function ConnectsTo(w: Warp, other: Warp): (r: bool)
    ensures r <==> w.destMap == other.sourceMap &&
                   forall i :: 0 <= i < |w.destIds| ==> w.destIds[i] in other.sourceIds
  {
    SubsetOfElements(w.destIds, other.sourceIds);
    w.destMap == other.sourceMap && (set x | x in w.destIds) <= (set x | x in other.sourceIds)
  }

  lemma SubsetOfElements(a: seq<int>, b: seq<int>)
    ensures (set x | x in a) <= (set x | x in b) <==> forall i :: 0 <= i < |a| ==> a[i] in b
  {
    var sa := set x | x in a;
    var sb := set x | x in b;
    assert forall i :: 0 <= i < |a| ==> a[i] in sa;
    if forall i :: 0 <= i < |a| ==> a[i] in b {
      forall x | x in sa
        ensures x in sb
      {
        var i :| 0 <= i < |a| && a[i] == x;
      }
    }
  }

  // ---------------------------------------------------------------- encoding

  function IdTexts(ids: seq<int>): (r: seq<string>)
    ensures |r| == |ids|
    ensures forall i :: 0 <= i < |ids| ==> r[i] == IntToString(ids[i])
  {
    if |ids| == 0 then [] else [IntToString(ids[0])] + IdTexts(ids[1..])
  }

  /** One side, `MAP:ids`, in the form `DecodeSide` reads. */
  function EncodeSide(m: string, ids: seq<int>): string
  {
    m + ":" + Join(IdTexts(ids), ',')
  }

  /** The string form `Decode` reads. */
  function Encode(w: Warp): string
  {
    var core := EncodeSide(w.sourceMap, w.sourceIds) + "/" + EncodeSide(w.destMap, w.destIds);
    if w.isOneWay then core + "!" else core
  }

  /** The warps that have an encoding: map names free of the separators and at
      least one id on each side. */
  predicate Encodable(w: Warp) {
    && '/' !in w.sourceMap && ':' !in w.sourceMap
    && '/' !in w.destMap && ':' !in w.destMap
    && |w.sourceIds| >= 1 && |w.destIds| >= 1
  }

  lemma {:induction false} JoinChars(parts: seq<string>, sep: char, c: char)
    requires c in Join(parts, sep)
    ensures c == sep || exists i :: 0 <= i < |parts| && c in parts[i]
  {
    if |parts| > 1 {
      if c !in parts[0] && c != sep {
        JoinChars(parts[1..], sep, c);
        var i :| 0 <= i < |parts[1..]| && c in parts[1..][i];
        assert c in parts[i + 1];
      }
    }
  }

  lemma IdTextChars(ids: seq<int>, c: char)
    requires c in Join(IdTexts(ids), ',')
    ensures IsDigit(c) || c == '-' || c == ','
  {
    JoinChars(IdTexts(ids), ',', c);
    if c != ',' {
      var i :| 0 <= i < |ids| && c in IdTexts(ids)[i];
      IntToStringChars(ids[i], c);
    }
  }

  lemma {:induction false} JoinLast(parts: seq<string>, sep: char)
    requires |parts| >= 1 && |parts[|parts| - 1]| > 0
    ensures var j := Join(parts, sep);
      |j| > 0 && j[|j| - 1] == parts[|parts| - 1][|parts[|parts| - 1]| - 1]
  {
    if |parts| > 1 {
      JoinLast(parts[1..], sep);
    }
  }

  lemma {:induction false} ParseIdTexts(ids: seq<int>)
    ensures ParseIds(IdTexts(ids)) == Success(ids)
  {
    forall i | 0 <= i < |ids|
      ensures ParseInt(IdTexts(ids)[i]) == Some(ids[i])
    {
      ParseIntToString(ids[i]);
    }
    var r := ParseIds(IdTexts(ids));
    assert r.Success?;
    assert forall i :: 0 <= i < |ids| ==> r.value[i] == ids[i];
    assert r.value == ids;
  }

  lemma SplitIds(ids: seq<int>)
    requires |ids| >= 1
    ensures Split(Join(IdTexts(ids), ','), ',') == IdTexts(ids)
  {
    forall i | 0 <= i < |ids|
      ensures ',' !in IdTexts(ids)[i]
    {
      if ',' in IdTexts(ids)[i] {
        IntToStringChars(ids[i], ',');
      }
    }
    SplitJoin(IdTexts(ids), ',');
  }

  /** The text of an id list holds none of the outer separators. */
  lemma IdTextFree(ids: seq<int>)
    ensures var t := Join(IdTexts(ids), ',');
      '/' !in t && ':' !in t && '!' !in t
  {
    var t := Join(IdTexts(ids), ',');
    if '/' in t { IdTextChars(ids, '/'); }
    if ':' in t { IdTextChars(ids, ':'); }
    if '!' in t { IdTextChars(ids, '!'); }
  }

  lemma DecodeSideEncode(m: string, ids: seq<int>)
    requires ':' !in m && |ids| >= 1
    ensures DecodeSide(EncodeSide(m, ids)) == Success((m, ids))
  {
    var idText := Join(IdTexts(ids), ',');
    IdTextFree(ids);
    assert Join([m, idText], ':') == m + ":" + idText;
    SplitJoin([m, idText], ':');
    SplitIds(ids);
    ParseIdTexts(ids);
  }

  lemma EncodeBody(w: Warp)
    requires Encodable(w)
    ensures Body(Encode(w)) == EncodeSide(w.sourceMap, w.sourceIds) + "/" + EncodeSide(w.destMap, w.destIds)
  {
    var dst := EncodeSide(w.destMap, w.destIds);
    var core := EncodeSide(w.sourceMap, w.sourceIds) + "/" + dst;
    if w.isOneWay {
      assert Encode(w) == core + "!";
      assert (core + "!")[..|core|] == core;
    } else {
      assert Encode(w) == core;
      EncodeSideEndsInDigit(w.destMap, w.destIds);
      assert core[|core| - 1] == dst[|dst| - 1];
    }
  }

  /** An encoded side ends in a digit of its last id, so never in `!`. */
  lemma EncodeSideEndsInDigit(m: string, ids: seq<int>)
    requires |ids| >= 1
    ensures var e := EncodeSide(m, ids); |e| > 0 && IsDigit(e[|e| - 1])
  {
    var texts := IdTexts(ids);
    var lastText := texts[|ids| - 1];
    assert IsDigit(lastText[|lastText| - 1]);
    JoinLast(texts, ',');
    var j := Join(texts, ',');
    assert EncodeSide(m, ids) == (m + ":") + j;
  }

  /** Decoding the encoding of a warp gives the warp back. */
  lemma {:induction false} DecodeEncode(w: Warp)
    requires Encodable(w)
    ensures Decode(Encode(w)) == Success(w)
  {
    EncodeHalves(w);
    DecodeSideEncode(w.sourceMap, w.sourceIds);
    DecodeSideEncode(w.destMap, w.destIds);
  }

  /** The `/` split of an encoding gives back its two sides. */
  lemma EncodeHalves(w: Warp)
    requires Encodable(w)
    ensures SplitTwo(Body(Encode(w)), '/') ==
      Success((EncodeSide(w.sourceMap, w.sourceIds), EncodeSide(w.destMap, w.destIds)))
  {
    var src := EncodeSide(w.sourceMap, w.sourceIds);
    var dst := EncodeSide(w.destMap, w.destIds);
    EncodeBody(w);
    IdTextFree(w.sourceIds);
    IdTextFree(w.destIds);
    assert '/' !in src && '/' !in dst;
    assert Join([src, dst], '/') == src + "/" + dst;
    SplitJoin([src, dst], '/');
  }

  /** The warp read backwards: where `w` lands is where it starts. */
  function Reverse(w: Warp): (r: Warp)
    ensures ConnectsTo(w, r) && ConnectsTo(r, w)
  {
    Warp(w.isOneWay, w.destMap, w.destIds, w.sourceMap, w.sourceIds)
  }

  /** `connects_to` reads the destination ids as a set: order and repeats do not
      matter, and extra source ids on the target never break a connection. */
  lemma ConnectsToIgnoresOrder(a: Warp, a': Warp, b: Warp, b': Warp)
    requires a.destMap == a'.destMap && (set x | x in a.destIds) == (set x | x in a'.destIds)
    requires b.sourceMap == b'.sourceMap && (set x | x in b.sourceIds) <= (set x | x in b'.sourceIds)
    ensures ConnectsTo(a, b) ==> ConnectsTo(a', b')
  {
  }
}

=== FILE: wild.dfy ===
/** `randomize_wild_encounters`: every encounter table is rewritten through a
    per-table old-species-to-new-species map, optionally shared across a whole
    group (every map, or the floors of one dungeon). */
module Wild {
  import opened Wrappers
  import opened Seqs
  import opened Species
  import opened Draws
  import opened Selection

  /** One encounter slot of the selected game version. */
  datatype Slot = Slot(speciesId: int, minLevel: int, maxLevel: int)

  datatype GroupMode = NoGroups | SpeciesGroups | DungeonGroups

  datatype WildOptions = WildOptions(
    /** `wild_pokemon` is vanilla: the pass returns at once. */
    vanilla: bool,
    matchBst: bool,
    matchType: bool,
    groups: GroupMode,
    /** `ceil(1.2 * max(Oak's aide targets))`. */
    minNeeded: nat,
    /** The player's wild blacklist. */
    blacklist: set<int>)

  /** `KeyError` on a species id missing from the baseline table, `IndexError`
      when no candidate is left, and the `AttributeError`/`KeyError` of copying
      Route 21 tables that one of the two maps lacks. */
  datatype WildError = UnknownSpecies(speciesId: int) | NoCandidate | MissingTwinTable(mapName: string)

  /** No two keys share a value. */
  predicate Injective(m: map<int, int>) {
    forall a, b :: a in m && b in m && m[a] == m[b] ==> a == b
  }

  /** `ceil(max(targets) * 1.2)` in integers. */
  function MinPokemonNeeded(targets: seq<nat>): (r: nat)
    ensures forall i :: 0 <= i < |targets| ==> 5 * r >= 6 * targets[i]
    ensures |targets| > 0 ==> exists i :: 0 <= i < |targets| && 5 * r < 6 * targets[i] + 5
  {
    if |targets| == 0 then 0
    else
      var rest := MinPokemonNeeded(targets[1..]);
      var here := (6 * targets[0] + 4) / 5;
      assert forall i :: 1 <= i < |targets| ==> targets[i] == targets[1..][i - 1];
      if here >= rest then here else rest
  }

  /** The priority tiers: 0 the species this table (and its group) already
      use, 1 the species placed so far while fewer than `minNeeded` are placed,
      2 the player's blacklist, 3 with type matching the species sharing no type
      with the original. */
  function Tiers(used: set<int>, placed: set<int>, opts: WildOptions, typeBlacklist: set<int>): (r: seq<set<int>>)
    ensures |r| == 4 && r[0] == used
  {
    [ used,
      if |placed| < opts.minNeeded then placed else {},
      opts.blacklist,
      if opts.matchType then typeBlacklist else {} ]
  }

  /** The replacement for one original species: a choice among the current
      species outside the merged blacklist, narrowed by base-stat total when
      asked. */
  method PickSpecies(dex: Dex, original: Species, used: set<int>, placed: set<int>, opts: WildOptions, d: nat)
    returns (r: Result<int, WildError>)
    ensures var merged := MergeTiers(Tiers(used, placed, opts, TypeBlacklist(dex, original)), NumRealSpecies);
      && (r.Success? <==> |NotIn(dex, merged)| > 0)
      && (r.Success? ==> r.value !in merged && HasId(dex, r.value))
      && (r.Success? && opts.matchBst ==> r.value in Ids(BstKept(NotIn(dex, merged), original.baseStats.Total())))
    ensures r.Success? ==> r.value !in used
    ensures r.Failure? ==> r.error == NoCandidate
  {
    var tiers := Tiers(used, placed, opts, TypeBlacklist(dex, original));
    var merged := MergeTiers(tiers, NumRealSpecies);
    var chosen := ChooseAvoiding(dex, merged, original, opts.matchBst, d);
    match chosen
    case None =>
      return Failure(NoCandidate);
    case Some(s) =>
      var k :| 0 <= k < |dex| && dex[k] == s;
      if opts.matchBst {
        var kept := BstKept(NotIn(dex, merged), original.baseStats.Total());
        var j :| 0 <= j < |kept| && kept[j] == s;
        assert Ids(kept)[j] == s.id;
      }
      return Success(s.id);
  }

  /** Every key of `small` maps the same way in `large`. */
  predicate Extends(large: map<int, int>, small: map<int, int>) {
    forall k :: k in small ==> k in large && large[k] == small[k]
  }

  predicate ValuesIn(m: map<int, int>, dex: Dex) {
    forall k :: k in m ==> HasId(dex, m[k])
  }

  /** Adding a key with a value no key has yet keeps a map injective. */
  lemma InsertFresh(m: map<int, int>, k: int, v: int, dex: Dex)
    requires Injective(m) && ValuesIn(m, dex) && k !in m && v !in m.Values && HasId(dex, v)
    ensures Injective(m[k := v]) && ValuesIn(m[k := v], dex) && Extends(m[k := v], m)
  {
    assert forall a :: a in m ==> m[a] in m.Values;
  }

  /** The new species for `sid`, which the table has not mapped yet: the group's
      choice when the group has one, a fresh pick otherwise. */
  method NextSpecies(
    sid: int, original: Dex, dex: Dex, opts: WildOptions, oldToNew: map<int, int>,
    g: map<int, int>, useGroup: bool, p: set<int>, d: nat
  ) returns (r: Result<int, WildError>)
    requires sid !in oldToNew && Injective(g) && ValuesIn(g, dex)
    requires useGroup ==> Extends(g, oldToNew)
    ensures r.Success? ==> HasId(dex, r.value) && r.value !in oldToNew.Values
    ensures r.Success? && useGroup && sid in g ==> r.value == g[sid]
    ensures r.Success? && useGroup && sid !in g ==> r.value !in g.Values
  {
    if useGroup && sid in g {
      forall k | k in oldToNew
        ensures oldToNew[k] != g[sid]
      {
        assert g[k] == oldToNew[k];
      }
      return Success(g[sid]);
    }
    var orig := Lookup(original, sid);
    if orig.None? {
      return Failure(UnknownSpecies(sid));
    }
    var used := oldToNew.Values + (if useGroup then g.Values else {});
    var picked := PickSpecies(dex, orig.value, used, p, opts, d);
    if picked.Failure? {
      return Failure(picked.error);
    }
    return Success(picked.value);
  }

  /** One encounter table. `original` is the baseline species table, `dex` the
      current one; with `useGroup` the group map `group` is consulted first and
      extended with every fresh choice. Slot `i` draws with `draws(i)`. */
  method RandomizeTable(
    slots: seq<Slot>, original: Dex, dex: Dex, opts: WildOptions,
    group: map<int, int>, useGroup: bool, placed: set<int>, draws: nat -> nat
  ) returns (r: Result<(seq<Slot>, map<int, int>, set<int>), WildError>)
    requires Injective(group) && ValuesIn(group, dex)
    ensures r.Success? ==>
      var (newSlots, newGroup, newPlaced) := r.value;
      && |newSlots| == |slots|
      && (forall i :: 0 <= i < |slots| ==>
            newSlots[i].minLevel == slots[i].minLevel && newSlots[i].maxLevel == slots[i].maxLevel)
      && (forall i, j :: 0 <= i < |slots| && 0 <= j < |slots| ==>
            (newSlots[i].speciesId == newSlots[j].speciesId <==> slots[i].speciesId == slots[j].speciesId))
      && (forall i :: 0 <= i < |slots| ==> HasId(dex, newSlots[i].speciesId))
      && (forall i :: 0 <= i < |slots| ==> newSlots[i].speciesId in newPlaced)
      && placed <= newPlaced
      && Injective(newGroup) && ValuesIn(newGroup, dex) && Extends(newGroup, group)
      && (useGroup ==> forall i :: 0 <= i < |slots| ==>
            slots[i].speciesId in newGroup && newSlots[i].speciesId == newGroup[slots[i].speciesId])
      && (!useGroup ==> newGroup == group)
  {
    var oldToNew: map<int, int> := map[];
    var g := group;
    var p := placed;
    var i := 0;
    while i < |slots|
      invariant 0 <= i <= |slots|
      invariant forall j :: 0 <= j < i ==> slots[j].speciesId in oldToNew
      invariant Injective(oldToNew) && ValuesIn(oldToNew, dex)
      invariant Injective(g) && ValuesIn(g, dex) && Extends(g, group)
      invariant useGroup ==> Extends(g, oldToNew)
      invariant !useGroup ==> g == group
      invariant placed <= p && oldToNew.Values <= p
    {
      var sid := slots[i].speciesId;
      if sid !in oldToNew {
        var next :- NextSpecies(sid, original, dex, opts, oldToNew, g, useGroup, p, draws(i));
        InsertFresh(oldToNew, sid, next, dex);
        if useGroup && sid !in g {
          InsertFresh(g, sid, next, dex);
          g := g[sid := next];
        }
        oldToNew := oldToNew[sid := next];
        p := p + {next};
      }
      i := i + 1;
    }
    var newSlots := seq(|slots|, j requires 0 <= j < |slots| =>
      Slot(oldToNew[slots[j].speciesId], slots[j].minLevel, slots[j].maxLevel));
    assert forall j :: 0 <= j < |slots| ==> oldToNew[slots[j].speciesId] in oldToNew.Values;
    return Success((newSlots, g, p));
  }

  // ---------------------------------------------------------------- the map loop

  /** A map's land, water and fishing tables; `None` where the map has none. */
  datatype Tables = Tables(land: Option<seq<Slot>>, water: Option<seq<Slot>>, fishing: Option<seq<Slot>>)

  /** The same slot count and levels, and species equal exactly where the
      originals were equal. */
  predicate Rewritten(before: seq<Slot>, after: seq<Slot>) {
    && |after| == |before|
    && (forall i :: 0 <= i < |before| ==>
          after[i].minLevel == before[i].minLevel && after[i].maxLevel == before[i].maxLevel)
    && (forall i, j :: 0 <= i < |before| && 0 <= j < |before| ==>
          (after[i].speciesId == after[j].speciesId <==> before[i].speciesId == before[j].speciesId))
  }

  /** Every slot's new species is what `group` maps its old species to. */
  predicate Consistent(before: seq<Slot>, after: seq<Slot>, group: map<int, int>) {
    |after| == |before| &&
    forall i :: 0 <= i < |before| ==> before[i].speciesId in group && after[i].speciesId == group[before[i].speciesId]
  }

  predicate TableRewritten(before: Option<seq<Slot>>, after: Option<seq<Slot>>) {
    before.Some? == after.Some? && (before.Some? ==> Rewritten(before.value, after.value))
  }

  predicate TableConsistent(before: Option<seq<Slot>>, after: Option<seq<Slot>>, group: map<int, int>) {
    before.Some? ==> after.Some? && Consistent(before.value, after.value, group)
  }

  predicate AllRewritten(before: Tables, after: Tables) {
    && TableRewritten(before.land, after.land)
    && TableRewritten(before.water, after.water)
    && TableRewritten(before.fishing, after.fishing)
  }

  predicate AllConsistent(before: Tables, after: Tables, group: map<int, int>) {
    && TableConsistent(before.land, after.land, group)
    && TableConsistent(before.water, after.water, group)
    && TableConsistent(before.fishing, after.fishing, group)
  }

  /** Consistency with a group map survives extending the map. */
  lemma ConsistentExtends(before: Tables, after: Tables, small: map<int, int>, large: map<int, int>)
    requires AllConsistent(before, after, small) && Extends(large, small)
    ensures AllConsistent(before, after, large)
  {
  }

  /** One optional table, threading the group map and the placed set. */
  method RandomizeOptional(
    slots: Option<seq<Slot>>, original: Dex, dex: Dex, opts: WildOptions,
    group: map<int, int>, useGroup: bool, placed: set<int>, draws: nat -> nat
  ) returns (r: Result<(Option<seq<Slot>>, map<int, int>, set<int>), WildError>)
    requires Injective(group) && ValuesIn(group, dex)
    ensures r.Success? ==>
      var (after, newGroup, newPlaced) := r.value;
      && TableRewritten(slots, after)
      && Injective(newGroup) && ValuesIn(newGroup, dex) && Extends(newGroup, group)
      && (useGroup ==> TableConsistent(slots, after, newGroup))
      && (!useGroup ==> newGroup == group)
  {
    if slots.None? {
      return Success((None, group, placed));
    }
    var t :- RandomizeTable(slots.value, original, dex, opts, group, useGroup, placed, draws);
    return Success((Some(t.0), t.1, t.2));
  }

  /** The three tables of one map in the order land, water, fishing; table `t`
      slot `i` draws with `draws(t, i)`. */
  method RandomizeTables(
    tables: Tables, original: Dex, dex: Dex, opts: WildOptions,
    group: map<int, int>, useGroup: bool, placed: set<int>, draws: (nat, nat) -> nat
  ) returns (r: Result<(Tables, map<int, int>, set<int>), WildError>)
    requires Injective(group) && ValuesIn(group, dex)
    ensures r.Success? ==>
      var (after, newGroup, newPlaced) := r.value;
      && AllRewritten(tables, after)
      && Injective(newGroup) && ValuesIn(newGroup, dex) && Extends(newGroup, group)
      && (useGroup ==> AllConsistent(tables, after, newGroup))
      && (!useGroup ==> newGroup == group)
  {
    var land :- RandomizeOptional(tables.land, original, dex, opts, group, useGroup, placed, i => draws(0, i));
    var water :- RandomizeOptional(tables.water, original, dex, opts, land.1, useGroup, land.2, i => draws(1, i));
    var fishing :- RandomizeOptional(tables.fishing, original, dex, opts, water.1, useGroup, water.2, i => draws(2, i));
    var after := Tables(land.0, water.0, fishing.0);
    if useGroup {
      assert TableConsistent(tables.land, after.land, fishing.1);
      assert TableConsistent(tables.water, after.water, fishing.1);
    }
    return Success((after, fishing.1, fishing.2));
  }

  const Route21North: string := "MAP_ROUTE21_NORTH"
  const Route21South: string := "MAP_ROUTE21_SOUTH"

  predicate IsRoute21(name: string) {
    name == Route21North || name == Route21South
  }

  function Twin(name: string): string {
    if name == Route21North then Route21South else Route21North
  }

  /** The Route 21 copy: all three tables of the twin, when both maps have all
      three. */
  function CopyTwin(name: string, target: Tables, source: Tables): (r: Result<Tables, WildError>)
    ensures r.Success? ==> r.value == source
    ensures r.Success? <==>
      && target.land.Some? && target.water.Some? && target.fishing.Some?
      && source.land.Some? && source.water.Some? && source.fishing.Some?
  {
    if target.land.None? || target.water.None? || target.fishing.None? ||
       source.land.None? || source.water.None? || source.fishing.None?
    then Failure(MissingTwinTable(name))
    else Success(source)
  }

  /** Which group map a map shares: all maps with species groups, the map's
      dungeon with dungeon groups, none otherwise. */
  datatype GroupKey = AllMaps | Dungeon(name: string)

  function KeyFor(opts: WildOptions, dungeonOf: map<string, string>, name: string): Option<GroupKey> {
    match opts.groups
    case SpeciesGroups => Some(AllMaps)
    case DungeonGroups => if name in dungeonOf then Some(Dungeon(dungeonOf[name])) else None
    case NoGroups => None
  }

  function GroupMap(groups: map<GroupKey, map<int, int>>, key: GroupKey): map<int, int> {
    if key in groups then groups[key] else map[]
  }

  predicate GroupsWellFormed(groups: map<GroupKey, map<int, int>>, dex: Dex) {
    forall key :: key in groups ==> Injective(groups[key]) && ValuesIn(groups[key], dex)
  }

  /** Every group map of `small` is extended by the one in `large`. */
  predicate GroupsExtend(large: map<GroupKey, map<int, int>>, small: map<GroupKey, map<int, int>>) {
    forall key :: key in small ==> key in large && Extends(large[key], small[key])
  }

  /** The state the map loop carries. */
  datatype WildState = WildState(
    maps: map<string, Tables>,
    groups: map<GroupKey, map<int, int>>,
    placed: set<int>,
    route21Done: bool)

  /** Map `n`'s tables were rewritten, through its group's map when it has a
      group. */
  predicate Rewrote(
    before: map<string, Tables>, after: map<string, Tables>, groups: map<GroupKey, map<int, int>>,
    opts: WildOptions, dungeonOf: map<string, string>, n: string
  )
    requires n in before && n in after
  {
    && AllRewritten(before[n], after[n])
    && (KeyFor(opts, dungeonOf, n).Some? ==>
          AllConsistent(before[n], after[n], GroupMap(groups, KeyFor(opts, dungeonOf, n).value)))
  }

  /** What the pass promises about map `n`: it was rewritten, or it is a Route
      21 map holding its twin's new tables. */
  predicate MapDone(
    before: map<string, Tables>, after: map<string, Tables>, groups: map<GroupKey, map<int, int>>,
    opts: WildOptions, dungeonOf: map<string, string>, n: string
  )
    requires n in before && n in after
  {
    || Rewrote(before, after, groups, opts, dungeonOf, n)
    || (IsRoute21(n) && Twin(n) in after && after[n] == after[Twin(n)])
  }

  /** Growing the group maps keeps every rewritten map consistent with them. */
  lemma RewroteExtends(
    before: map<string, Tables>, after: map<string, Tables>, small: map<GroupKey, map<int, int>>,
    large: map<GroupKey, map<int, int>>, opts: WildOptions, dungeonOf: map<string, string>, n: string
  )
    requires n in before && n in after && GroupsExtend(large, small)
    requires Rewrote(before, after, small, opts, dungeonOf, n)
    ensures Rewrote(before, after, large, opts, dungeonOf, n)
  {
    var key := KeyFor(opts, dungeonOf, n);
    if key.Some? {
      var a := GroupMap(small, key.value);
      var b := GroupMap(large, key.value);
      assert Extends(b, a);
      ConsistentExtends(before[n], after[n], a, b);
    }
  }

  /** One map visited in its turn, not the second Route 21 map: its tables
      are rewritten through its group's map, which is stored back. */
  method VisitMap(
    st: WildState, name: string, original: Dex, dex: Dex, opts: WildOptions,
    dungeonOf: map<string, string>, draws: (nat, nat) -> nat
  ) returns (r: Result<WildState, WildError>)
    requires name in st.maps && GroupsWellFormed(st.groups, dex)
    ensures r.Success? ==>
      && name in r.value.maps && r.value.maps == st.maps[name := r.value.maps[name]]
      && GroupsWellFormed(r.value.groups, dex)
      && GroupsExtend(r.value.groups, st.groups)
      && r.value.route21Done == (st.route21Done || IsRoute21(name))
      && Rewrote(st.maps, r.value.maps, r.value.groups, opts, dungeonOf, name)
  {
    var key := KeyFor(opts, dungeonOf, name);
    var group := if key.Some? then GroupMap(st.groups, key.value) else map[];
    var t :- RandomizeTables(st.maps[name], original, dex, opts, group, key.Some?, st.placed, draws);
    var groups := if key.Some? then st.groups[key.value := t.1] else st.groups;
    assert key.Some? ==> GroupMap(groups, key.value) == t.1;
    return Success(WildState(st.maps[name := t.0], groups, t.2, st.route21Done || IsRoute21(name)));
  }

  /** The loop's promise about a visited map: rewritten, or a copy of a twin
      visited before it and rewritten. */
  predicate Visited(
    before: map<string, Tables>, st: WildState, opts: WildOptions, dungeonOf: map<string, string>,
    earlier: seq<string>, n: string
  )
    requires n in before && n in st.maps && before.Keys == st.maps.Keys
  {
    || Rewrote(before, st.maps, st.groups, opts, dungeonOf, n)
    || (&& IsRoute21(n) && Twin(n) in earlier && Twin(n) in before
        && Rewrote(before, st.maps, st.groups, opts, dungeonOf, Twin(n))
        && st.maps[n] == st.maps[Twin(n)])
  }

  /** What holds after visiting the maps in `seen`. */
  predicate LoopInv(
    maps: map<string, Tables>, st: WildState, seen: seq<string>, opts: WildOptions,
    dungeonOf: map<string, string>, dex: Dex
  ) {
    && st.maps.Keys == maps.Keys
    && GroupsWellFormed(st.groups, dex)
    && (forall n :: n in seen ==> n in maps)
    && (forall n :: n in maps && n !in seen ==> st.maps[n] == maps[n])
    && (forall n :: n in seen ==> Visited(maps, st, opts, dungeonOf, seen, n))
    && (st.route21Done <==> Route21North in seen || Route21South in seen)
    && (Route21North in seen && Route21South in seen ==> st.maps[Route21North] == st.maps[Route21South])
  }

  /** One turn of the loop: the second Route 21 map copies its twin, any other
      map is visited. */
  method Step(
    maps: map<string, Tables>, st: WildState, seen: seq<string>, name: string,
    original: Dex, dex: Dex, opts: WildOptions, dungeonOf: map<string, string>, draws: (nat, nat) -> nat
  ) returns (r: Result<WildState, WildError>)
    requires LoopInv(maps, st, seen, opts, dungeonOf, dex) && name in maps && name !in seen
    ensures r.Success? ==> LoopInv(maps, r.value, seen + [name], opts, dungeonOf, dex)
  {
    var seen' := seen + [name];
    if IsRoute21(name) && st.route21Done {
      var twin := Twin(name);
      assert twin in seen;
      assert Rewrote(maps, st.maps, st.groups, opts, dungeonOf, twin) by {
        assert Visited(maps, st, opts, dungeonOf, seen, twin);
      }
      var copy :- CopyTwin(name, st.maps[name], st.maps[twin]);
      var next := st.(maps := st.maps[name := copy]);
      forall n | n in seen'
        ensures Visited(maps, next, opts, dungeonOf, seen', n)
      {
        if n != name {
          assert Visited(maps, st, opts, dungeonOf, seen, n);
        }
      }
      return Success(next);
    } else {
      var next :- VisitMap(st, name, original, dex, opts, dungeonOf, draws);
      forall n | n in seen'
        ensures Visited(maps, next, opts, dungeonOf, seen', n)
      {
        if n != name {
          assert Visited(maps, st, opts, dungeonOf, seen, n);
          if Rewrote(maps, st.maps, st.groups, opts, dungeonOf, n) {
            RewroteExtends(maps, st.maps, st.groups, next.groups, opts, dungeonOf, n);
          } else {
            RewroteExtends(maps, st.maps, st.groups, next.groups, opts, dungeonOf, Twin(n));
          }
        }
      }
      return Success(next);
    }
  }

  /** `randomize_wild_encounters`: nothing changes when the option is
      vanilla. Otherwise the maps are visited in `random.shuffle(map_names)`
      order (`order` being the dict's key order), the map at position `k`
      drawing with `draws(k, _, _)`. Every map ends up rewritten, through a
      group map shared with the rest of its group that never sends two
      species to the same one, or, for the Route 21 map visited second,
      holding a copy of its twin's new tables. */
  method RandomizeWildEncounters(
    maps: map<string, Tables>, order: seq<string>, original: Dex, dex: Dex, opts: WildOptions,
    dungeonOf: map<string, string>, shuffleDraws: nat -> nat, draws: (nat, nat, nat) -> nat
  ) returns (r: Result<WildState, WildError>)
    requires Distinct(order) && forall n :: n in maps <==> n in order
    ensures opts.vanilla ==> r == Success(WildState(maps, map[], {}, false))
    ensures r.Success? ==> r.value.maps.Keys == maps.Keys
    ensures r.Success? ==> GroupsWellFormed(r.value.groups, dex)
    ensures r.Success? && !opts.vanilla ==>
      forall n :: n in maps ==> MapDone(maps, r.value.maps, r.value.groups, opts, dungeonOf, n)
    ensures r.Success? && !opts.vanilla && Route21North in maps && Route21South in maps ==>
      && r.value.maps[Route21North] == r.value.maps[Route21South]
      && (|| Rewrote(maps, r.value.maps, r.value.groups, opts, dungeonOf, Route21North)
          || Rewrote(maps, r.value.maps, r.value.groups, opts, dungeonOf, Route21South))
  {
    if opts.vanilla {
      return Success(WildState(maps, map[], {}, false));
    }
    var visit := Shuffle(order, shuffleDraws);
    PermutationKeepsDistinct(visit, order);
    forall n | n in visit
      ensures n in maps
    {
      PermutationMembers(visit, order, n);
    }
    var st :- VisitAll(maps, visit, original, dex, opts, dungeonOf, draws);
    forall n | n in maps
      ensures n in visit
    {
      PermutationMembers(visit, order, n);
    }
    AllVisitedDone(maps, st, visit, opts, dungeonOf, dex);
    if Route21North in maps && Route21South in maps {
      Route21Twins(maps, st, visit, opts, dungeonOf, dex);
    }
    return Success(st);
  }

  /** The loop over the maps in visiting order, map `visit[k]` drawing with
      `draws(k, _, _)`. */
  method VisitAll(
    maps: map<string, Tables>, visit: seq<string>, original: Dex, dex: Dex, opts: WildOptions,
    dungeonOf: map<string, string>, draws: (nat, nat, nat) -> nat
  ) returns (r: Result<WildState, WildError>)
    requires Distinct(visit) && forall n :: n in visit ==> n in maps
    ensures r.Success? ==> LoopInv(maps, r.value, visit, opts, dungeonOf, dex)
  {
    var st := WildState(maps, map[], {}, false);
    LoopInvStart(maps, opts, dungeonOf, dex);
    var seen: seq<string> := [];
    var k := 0;
    while k < |visit|
      invariant 0 <= k <= |visit| && seen == visit[..k]
      invariant LoopInv(maps, st, seen, opts, dungeonOf, dex)
    {
      var name := visit[k];
      assert name !in seen by { DistinctNotBefore(visit, k); }
      assert visit[..k + 1] == seen + [name];
      st :- Step(maps, st, seen, name, original, dex, opts, dungeonOf, (t, i) => draws(k, t, i));
      seen := seen + [name];
      k := k + 1;
    }
    assert seen == visit;
    return Success(st);
  }

  /** Before the first map nothing is visited and nothing has changed. */
  lemma LoopInvStart(maps: map<string, Tables>, opts: WildOptions, dungeonOf: map<string, string>, dex: Dex)
    ensures LoopInv(maps, WildState(maps, map[], {}, false), [], opts, dungeonOf, dex)
  {
  }

  /** Once every map has been visited, every map is done. */
  lemma AllVisitedDone(
    maps: map<string, Tables>, st: WildState, visit: seq<string>, opts: WildOptions,
    dungeonOf: map<string, string>, dex: Dex
  )
    requires LoopInv(maps, st, visit, opts, dungeonOf, dex)
    requires forall n :: n in maps ==> n in visit
    ensures forall n :: n in maps ==> MapDone(maps, st.maps, st.groups, opts, dungeonOf, n)
  {
    forall n | n in maps
      ensures MapDone(maps, st.maps, st.groups, opts, dungeonOf, n)
    {
      assert Visited(maps, st, opts, dungeonOf, visit, n);
    }
  }

  datatype Kind = Land | Water | Fishing

  function TableOf(t: Tables, kind: Kind): Option<seq<Slot>> {
    match kind
    case Land => t.land
    case Water => t.water
    case Fishing => t.fishing
  }

  /** Two rewritten maps of one group agree: slots holding the same original
      species hold the same new species, and (the group map being injective)
      only those. */
  lemma GroupedMapsAgree(
    maps: map<string, Tables>, after: map<string, Tables>, groups: map<GroupKey, map<int, int>>,
    opts: WildOptions, dungeonOf: map<string, string>, dex: Dex,
    n1: string, n2: string, kind1: Kind, kind2: Kind, i: nat, j: nat
  )
    requires n1 in maps && n1 in after && n2 in maps && n2 in after
    requires GroupsWellFormed(groups, dex)
    requires Rewrote(maps, after, groups, opts, dungeonOf, n1) && Rewrote(maps, after, groups, opts, dungeonOf, n2)
    requires KeyFor(opts, dungeonOf, n1).Some? && KeyFor(opts, dungeonOf, n1) == KeyFor(opts, dungeonOf, n2)
    requires TableOf(maps[n1], kind1).Some? && i < |TableOf(maps[n1], kind1).value|
    requires TableOf(maps[n2], kind2).Some? && j < |TableOf(maps[n2], kind2).value|
    ensures TableOf(after[n1], kind1).Some? && i < |TableOf(after[n1], kind1).value|
    ensures TableOf(after[n2], kind2).Some? && j < |TableOf(after[n2], kind2).value|
    ensures TableOf(after[n1], kind1).value[i].speciesId == TableOf(after[n2], kind2).value[j].speciesId
       <==> TableOf(maps[n1], kind1).value[i].speciesId == TableOf(maps[n2], kind2).value[j].speciesId
  {
    var g := GroupMap(groups, KeyFor(opts, dungeonOf, n1).value);
    assert Injective(g);
    assert TableConsistent(TableOf(maps[n1], kind1), TableOf(after[n1], kind1), g);
    assert TableConsistent(TableOf(maps[n2], kind2), TableOf(after[n2], kind2), g);
  }

  /** Once both Route 21 maps have been visited they hold the same tables,
      the ones the first of them was rewritten to. */
  lemma Route21Twins(
    maps: map<string, Tables>, st: WildState, visit: seq<string>, opts: WildOptions,
    dungeonOf: map<string, string>, dex: Dex
  )
    requires LoopInv(maps, st, visit, opts, dungeonOf, dex)
    requires Route21North in visit && Route21South in visit
    ensures Route21North in maps && Route21South in maps
    ensures st.maps[Route21North] == st.maps[Route21South]
    ensures || Rewrote(maps, st.maps, st.groups, opts, dungeonOf, Route21North)
            || Rewrote(maps, st.maps, st.groups, opts, dungeonOf, Route21South)
  {
    assert Visited(maps, st, opts, dungeonOf, visit, Route21North);
  }
}

=== FILE: wrappers.dfy ===
/** Failure-carrying datatypes shared by every module of the model.
    A `Failure` stands for an exception the Python code raises and does not catch. */
module Wrappers {

  datatype Option<+T> = None | Some(value: T) {

    function GetOr(default: T): T {
      match this
      case Some(v) => v
      case None => default
    }
  }

  datatype Result<+R, +E> = Success(value: R) | Failure(error: E) {

    predicate IsFailure() {
      Failure?
    }

    function PropagateFailure<U>(): Result<U, E>
      requires Failure?
    {
      Failure(error)
    }

    function Extract(): R
      requires Success?
    {
      value
    }
  }

  /** All the values, or `None` as soon as one entry has none: a pass that
      raises on its first bad element. */
  function AllSome<T>(xs: seq<Option<T>>): (r: Option<seq<T>>)
    ensures r.Some? <==> forall k :: 0 <= k < |xs| ==> xs[k].Some?
    ensures r.Some? ==> |r.value| == |xs| && forall k :: 0 <= k < |xs| ==> r.value[k] == xs[k].value
  {
    if |xs| == 0 then Some([])
    else if xs[0].None? then None
    else
      match AllSome(xs[1..])
      case None => None
      case Some(rest) => Some([xs[0].value] + rest)
  }
}
